=== FILE: README.md ===
# A model of the DevRoom chat server and its client state

DevRoom is a chat app for developers with many rooms. Users sign up by e-mail with a
one-time code. They create rooms, which get a six-character join code, and join other
rooms by that code. Each room has a live channel over Socket.IO. A message that starts
with `@ai` or `@gemini` is answered by a language model, which sees the room's recent
history. The browser client keeps the room's state in a React hook and shows it in a few
components.

This Dafny project models the following parts of that system:

- **The persisted records.** The four schemas are in `models.dfy`. The queries the
  handlers run are in `store.dfy`. Each collection is a sequence kept in creation order.
- **The REST controllers.**
  - `auth_controller.dfy` covers the code sign-up: send a code, verify it, complete the
    sign-up.
  - `room_controller.dfy` covers code generation, room creation, listing, lookup, join by
    code and leave.
  - `message_controller.dfy` covers the paged history.
- **The socket gateway.**
  - `chat_ai.dfy` covers how a mention is recognised, how the prompt and its context are
    built, and the retry loop around the model.
  - `chat_gateway.dfy` models each socket handler as one atomic step. A step changes the
    store, the connections and a trace of emitted events.
- **The client.**
  - `socket_client.dfy` models the `useSocket` reducers and the requests the hook sends.
  - `right_panel.dfy` models the member panel's merge and online count.
  - `room_card.dfy` models the room card's "time ago" text and its fallbacks.
  - `code_window.dfy` models the landing page's typewriter code window.

Everything outside the model becomes a parameter:

- the clock is an `int` of milliseconds;
- each `Math.random` draw is a number;
- the JWT verifier is a function;
- mail delivery is a boolean;
- each model call's outcome (an answer, or an error message) is a value.

The store is passed in and returned, so every handler is a pure function or a method
over immutable data.

`wrappers.dfy`, `strings.dfy` and `seqs.dfy` hold shared helpers:

- `Option`;
- JavaScript whitespace and `trim`;
- ASCII case mapping;
- decimal numerals;
- searches over sequences.

Places where the code behaves in a way a reader might not expect; the model follows the code:

- **`room:join` is silent to the room the socket was in before.** The socket only leaves
  that channel; nobody is told it left.
- **`room:leave` always announces the leave.** It emits `userLeft` and the roster even when
  the socket was not in that room. It also always clears the current room.
- **The retry back-off is 4 s and then 8 s.** This is without a hint from the error. The
  comment next to the code says 2 s and 4 s.
- **`completeSignup` keeps `verificationLastSentAt`.** It clears the other verification
  fields.
- **The room card keeps an empty `tags` array.** It is truthy, so no code tag is added.

## Model

| member | source | states |
|---|---|---|
| Models.NewRoom | server/models/Room.js:5-22 | A created room is active and was last active at its creation time. |
| Models.RoomCodeIsNormal | server/models/Room.js:6-14 | The schema's trim and upper-case setters leave a valid six-character code unchanged. |
| Models.NewMembership | server/models/RoomMembership.js:17-30 | A new membership gets the schema defaults: role member, status active, joined now, never left. |
| Models.NewUserMessage | server/models/Message.js:11-31 | A user message with content of 1 to 4000 characters is valid. It has the user type and its sender. |
| Models.NewAiMessage | server/models/Message.js:11-31 | An AI reply with content that fits the limit is valid. It has the AI type, no sender, and the user who triggered it. |
| Models.StampLater | server/models/Message.js:33 | `createdAt` is the creation instant. A message created no earlier than every stored one keeps the log in creation order. |
| Models.NewUser | server/models/User.js:3-13 | A new user document is unverified, with no code, no attempts and no lock. |
| Store.FindActiveRoom | server/socket/chatHandler.js:96-100 | Finds a room only when it has the id and is active. Otherwise no room with the id is active. |
| Store.ActiveRoomIndexByCode | server/controllers/roomController.js:133-134 | Finds an active room with the code, and no earlier room is an active one with that code. Otherwise no active room has it. |
| Store.MembershipIndex | server/models/RoomMembership.js:35 | Finds the membership of a (room, user) pair, or reports that none exists. |
| Store.ActiveMembership | server/socket/chatHandler.js:85-94 | Finds a membership of the pair that is active, or reports that none is. |
| Store.ActiveMembershipIsTheMembership | server/models/RoomMembership.js:35 | Under the unique (room, user) index, the active membership is the pair's only membership. |
| Store.RoomMessages | server/socket/chatHandler.js:114 | Selects exactly one room's messages and keeps the log's order. |
| Store.RoomMessagesAppend | server/socket/chatHandler.js:168-172 | A new message joins its own room's history at the end and no other room's. |
| Store.FindMessage | server/controllers/messageController.js:27 | Looks a message up by id. |
| AuthController.NormalizeEmail | server/controllers/authController.js:19 | A normalised address is no longer than the input and has no capital letters. |
| AuthController.NormalizeEmailIdempotent | server/controllers/authController.js:19 | Normalising twice gives the same address as normalising once. |
| AuthController.NormalFormIsFixed | server/controllers/authController.js:19 | A trimmed address with no capital ASCII letters is its own normal form. |
| AuthController.NormalizeIgnoresCase | server/controllers/authController.js:19 | Addresses that differ only in ASCII case normalise to the same address. |
| AuthController.NormalizeIgnoresPadding | server/controllers/authController.js:19 | Surrounding JavaScript whitespace does not change the normal form. |
| AuthController.OtpCode | server/controllers/authController.js:22 | The code is six decimal digits without a leading zero. It reads back as 100000 plus the draw. |
| AuthController.SendCode | server/controllers/authController.js:11-55 | A missing e-mail gives 400. A resend within 60 s of the last gives 429 with the remaining seconds and stores nothing. A failed delivery stores nothing. An address that is all whitespace passes the presence check but normalises to the empty string. The schema's required e-mail then refuses the save, so the answer is 500 and nothing is stored. Otherwise the user gets a fresh code that expires in ten minutes. |
| AuthController.CodeSent | server/controllers/authController.js:41-48 | A sent code resets the attempt counter and the lock. It sets the expiry and the send time and keeps the identity fields. |
| AuthController.ResendCooldown | server/controllers/authController.js:27-37 | After a successful send, a second send is refused with 429 exactly when under 60 s have passed. |
| AuthController.Missed | server/controllers/authController.js:77-90 | A miss adds one attempt. The fifth miss locks the user for 15 minutes and resets the counter. |
| AuthController.Verified | server/controllers/authController.js:96-103 | Success marks the user verified and clears the code, expiry, counter and lock. |
| AuthController.VerifyCode | server/controllers/authController.js:57-65 | A missing field gives 400. Otherwise the normalised address and the trimmed code are checked. |
| AuthController.CheckCode | server/controllers/authController.js:67-104 | The checks run in the source's order: unknown user, then lock (429), then wrong code (miss), then expired (400), then success. |
| AuthController.VerifyKeepsAttemptsBelowMax | server/controllers/authController.js:77-90 | No stored attempt counter ever reaches five. |
| AuthController.SendKeepsAttemptsBelowMax | server/controllers/authController.js:45 | Sending a code keeps every counter below five. |
| AuthController.MissesCount | server/controllers/authController.js:77-90 | Before the fifth miss, each wrong code adds exactly one to the counter. |
| AuthController.FiveMissesLock | server/controllers/authController.js:73-90 | Five wrong codes in a row lock the user. Until the lock ends even the right code gets 429. |
| AuthController.CompleteSignup | server/controllers/authController.js:106-135 | Missing fields give 400 "Email, username and password are required". Then an unknown or unverified address gives 400 "Email not verified". Then a username someone already holds gives 400 "Username taken". Every error changes nothing. Success stores the trimmed username and the hash and clears the verification state. |
| AuthController.SendCodeKeepsUsersValid | server/models/User.js:3-13 | Sending keeps each user stored under its own non-empty e-mail, so a blank address is never stored. It keeps usernames unique. |
| AuthController.VerifyCodeKeepsUsersValid | server/models/User.js:3-13 | Verifying keeps the user collection well formed. |
| AuthController.CompleteSignupKeepsUsersValid | server/controllers/authController.js:120-126 | Sign-up keeps usernames unique, because it only stores a name nobody holds. |
| RoomController.AlphabetPosition | server/controllers/roomController.js:5 | Every alphabet character has a position whose character it is. |
| RoomController.AlphabetIsClosedForm | server/controllers/roomController.js:5 | The 32-character alphabet literal is the capitals and digits without I, O, 0 and 1, in order. |
| RoomController.GenerateRoomCode | server/controllers/roomController.js:8-15 | The code has six characters, each drawn from the alphabet. |
| RoomController.CodeIsWellFormed | server/controllers/roomController.js:8-15 | Every generated code satisfies the Room schema's code rules. |
| RoomController.CodeDrawRoundTrip | server/controllers/roomController.js:8-15 | Distinct draws give distinct codes, because the draw can be read back from the code. |
| RoomController.CreateUniqueRoomCode | server/controllers/roomController.js:17-24 | Draws are tried in order until a code is unused. After ten codes that are all in use it gives up. |
| RoomController.WithNewRoomKeepsDbValid | server/controllers/roomController.js:36-47 | A new room with a fresh id and an unused code, plus its owner membership, keeps ids, codes and pairs unique. |
| RoomController.CreateRoom | server/controllers/roomController.js:26-59 | A blank name gives 400. Ten clashing codes give 500 and store nothing. Otherwise a valid room is stored with a trimmed name, an unused code and an owner membership, and 201 is returned. |
| RoomController.ListMyRooms | server/controllers/roomController.js:61-85 | Lists exactly the active rooms the user has an active membership in, each with that membership's role. |
| RoomController.GetRoomById | server/controllers/roomController.js:87-123 | A malformed id gives 400. No active membership gives 403. A missing or inactive room gives 404. Otherwise the room is returned with the caller's role. |
| RoomController.UpsertMembership | server/controllers/roomController.js:140-153 | Afterwards the pair has an active membership, joined now and never left, and its role is owner exactly for the owner. An existing membership is updated in place. Otherwise one is added. Pairs stay unique. |
| RoomController.Joined | server/controllers/roomController.js:155-156 | A join bumps the joined room's last activity and changes no other room. |
| RoomController.JoinRoomByCode | server/controllers/roomController.js:125-166 | A blank code gives 400. The trimmed, upper-cased code must name an active room, else 404. Otherwise the membership is upserted and the room touched. |
| RoomController.JoinRoomByCodeKeepsDbValid | server/controllers/roomController.js:140-156 | Joining keeps the store valid. |
| RoomController.JoinByCodeIdempotent | server/controllers/roomController.js:140-153 | Joining twice by the same code leaves the memberships as the first join left them. |
| RoomController.LeaveRoom | server/controllers/roomController.js:168-203 | A malformed id gives 400. A missing or inactive room gives 404. No active membership gives 404. The owner cannot leave (400). Otherwise the membership becomes left with the time of leaving. The store stays valid. |
| RoomController.JoinRoomByCodeFindsTheRoom | server/controllers/roomController.js:125-153 | A join by code joins the one active room whose code is the trimmed, upper-cased input, wherever it is stored. |
| RoomController.RejoinAfterLeave | server/controllers/roomController.js:140-153 | A member who left can rejoin by code. The membership is active again with no leave time and keeps its original join time. Its role follows from ownership, so a non-owner keeps the role they had. The pair still has exactly one membership. |
| MessageController.CursorBound | server/controllers/messageController.js:25-29 | Only a well-formed id of an existing message sets a bound. The bound is that message's time. |
| MessageController.Matching | server/controllers/messageController.js:24-31 | Selects exactly the room's messages older than the bound, in order. |
| MessageController.MatchingWithoutCursor | server/controllers/messageController.js:24-31 | Without a cursor the query selects the room's whole history. |
| MessageController.Page | server/controllers/messageController.js:31-38 | A page is the last n of the selection, oldest first. A limit of zero means no limit. The log is in creation order in every state the gateway reaches, so these are the newest n by `createdAt` (`ChatGateway.ReachableReadsAreNewest`). |
| MessageController.GetMessages | server/controllers/messageController.js:6-43 | A malformed id gives 400. No active membership gives 403. Otherwise the page is returned: at most 100 messages, or all of them when the limit is 0. |
| MessageController.PageIsNewest | server/controllers/messageController.js:31-38 | With the log in creation order, a page is in creation order. Every selected message left out is no newer than anything on the page. Every state the gateway reaches keeps the log in that order (`ChatGateway.RunKeepsInv`). |
| MessageController.CursorOnLast | server/controllers/messageController.js:26-28 | A cursor naming the newest stored message bounds the query by that message's `createdAt`. |
| MessageController.PageBeforeLater | server/controllers/messageController.js:25-38 | Paging back from a message returns, as the newest entry, the room's message stored just before it, when that one is strictly older. |
| MessageController.CursorPagesAreOlder | server/controllers/messageController.js:25-38 | Paging back from a page's oldest message returns only messages older than it. |
| ChatAI.MentionEnd | server/socket/chatHandler.js:186 | Finds where the trigger's whitespace begins, exactly when the text starts with `@ai` or `@gemini` in any case followed by whitespace. |
| ChatAI.TriggerQuery | server/socket/chatHandler.js:186-188 | A mention yields the rest of the message, trimmed. Anything else is not a mention. |
| ChatAI.MentionRoundTrip | server/socket/chatHandler.js:186-188 | Writing `@` plus the word plus a gap plus a question yields that question back. |
| ChatAI.BareMentionIgnored | server/socket/chatHandler.js:186 | A bare `@ai` does not trigger. |
| ChatAI.LongerWordIgnored | server/socket/chatHandler.js:186 | A word that only begins like the trigger does not trigger. |
| ChatAI.MentionMustLead | server/socket/chatHandler.js:186 | A mention not at the start of the message does not trigger. |
| ChatAI.Speaker | server/socket/chatHandler.js:38-47 | AI messages are attributed to AI. Others are attributed to their sender's name, or to User. |
| ChatAI.ContextBlock | server/socket/chatHandler.js:38-47 | The context is empty exactly when the history is. It starts with the line of the oldest of the last ten entries and ends with the newest entry's line. |
| ChatAI.ContextBlockAppend | server/socket/chatHandler.js:38-47 | A new entry adds its line after a newline. Once ten entries are shown, the oldest drops out. |
| ChatAI.ContextSeesLastTen | server/socket/chatHandler.js:41 | Histories that agree on their last ten entries give the same context. |
| ChatAI.BuildPrompt | server/socket/chatHandler.js:49-53 | The prompt starts with the instructions naming the room. With a history, the context block follows them. It ends with the question. |
| ChatAI.FirstHint | server/socket/chatHandler.js:63 | Finds the leftmost position where the pattern digits, spaces, `second` matches. |
| ChatAI.RetryHintFinds | server/socket/chatHandler.js:63 | A wait is read from an error exactly when the pattern matches somewhere in its message. |
| ChatAI.RetryDelay | server/socket/chatHandler.js:63-66 | A wait named in the error is obeyed exactly, in seconds. Otherwise the wait is 2^attempt times 2 s. |
| ChatAI.BackoffWithoutHint | server/socket/chatHandler.js:66 | Without a hint the waits are 4 s and then 8 s. |
| ChatAI.HintIsObeyed | server/socket/chatHandler.js:63-65 | A quota message that names seconds sets the wait. |
| ChatAI.GetAIResponse | server/socket/chatHandler.js:55-72 | There are at most three calls. The first answer is returned. A wait is recorded after each failure that is retried. If all three fail, the fixed apology is returned. |
| ChatAI.FirstAnswerIsFirst | server/socket/chatHandler.js:55-72 | The reply is the fallback exactly when no call answers. Otherwise it is the first answer, and every earlier call failed. |
| ChatAI.GetAIResponseIsFirstAnswer | server/socket/chatHandler.js:55-72 | The retry loop returns the first answer among the first three calls. |
| ChatGateway.HandshakeToken | server/socket/chatHandler.js:15-21 | The token is `auth.token` when it is non-empty. Otherwise it is the authorization header with its first `Bearer ` removed, if that leaves anything. With neither there is no token. |
| ChatGateway.BearerHeaderRoundTrip | server/socket/chatHandler.js:17-19 | A `Bearer` header gives back the token it carries. |
| ChatGateway.Authenticate | server/socket/chatHandler.js:15-32 | No token, a rejected token or an unknown user refuses the connection. Otherwise the connection is that user. |
| ChatGateway.Connect | server/socket/chatHandler.js:15-32 | An accepted handshake opens a connection in no room. A refused one changes nothing. |
| ChatGateway.Join | server/socket/chatHandler.js:83-147 | A malformed id, no active membership or no active room fails with that error alone. Otherwise the socket joins. |
| ChatGateway.Enter | server/socket/chatHandler.js:102-138 | The socket leaves its other channels and joins the room. It alone gets the room's last 50 messages and the room name. In every state the gateway reaches, these are the newest 50 by `createdAt` (`ChatGateway.ReachableReadsAreNewest`). The others hear that the user joined, and everyone in the room gets the new roster. |
| ChatGateway.JoinIsInOneRoom | server/socket/chatHandler.js:102-112 | After a join the socket is in exactly that room, and it is the current room. |
| ChatGateway.EnterKeepsOthers | server/socket/chatHandler.js:102-112 | A join changes no other connection. |
| ChatGateway.LatestAreNewest | server/socket/chatHandler.js:114-124 | With the log in creation order, a room's last n messages are in creation order, and no earlier message of the room is newer than any of them. |
| ChatGateway.JoinHistoryIsFirstPage | server/socket/chatHandler.js:114-124 | The history a join replays is the first page of the message endpoint with limit 50. |
| ChatGateway.PostUserMessage | server/socket/chatHandler.js:165-183 | The trimmed message is stored and broadcast to the room, and the room is touched. |
| ChatGateway.PromptSeesNewest | server/socket/chatHandler.js:194-204 | The model's context is the room's newest ten messages by `createdAt`, ending with the mention just stored. |
| ChatGateway.PostAiReply | server/socket/chatHandler.js:207-228 | The AI reply is stored at its own instant, taken after the model answered. It has no sender and records who asked. Typing off is broadcast, then the reply. |
| ChatGateway.AnswerAsWritten | server/socket/chatHandler.js:191-233 | As written: typing on, then an accepted reply is stored. A refused reply only sends the sender an error, and typing stays on. |
| ChatGateway.Answer | server/socket/chatHandler.js:191-228 | With the fix: typing is always switched off, whether or not the reply is accepted. |
| ChatGateway.CheckSend | server/socket/chatHandler.js:150-164 | Blank content is ignored. A malformed id or a missing membership fails with the matching error. |
| ChatGateway.Send | server/socket/chatHandler.js:150-234 | With the fix: blank content is ignored, and a refused send reports an error to the sender alone. A cleared message is stored and broadcast before anything else, then answered when it mentions the AI. |
| ChatGateway.SendAsWritten | server/socket/chatHandler.js:150-234 | As written: blank content is ignored, and a refused send reports an error to the sender alone. A cleared message is stored and broadcast before anything else, then answered as the source does. |
| ChatGateway.DeliverAsWrittenPostsFirst | server/socket/chatHandler.js:165-183 | As written too, the sender's message is stored and broadcast first, whatever follows. |
| ChatGateway.BlankMessageIsIgnored | server/socket/chatHandler.js:152 | Blank content stores and emits nothing. |
| ChatGateway.SendWithoutMembership | server/socket/chatHandler.js:154-163 | Without an active membership only the sender gets an error, and nothing is stored. |
| ChatGateway.PlainMessage | server/socket/chatHandler.js:165-188 | A message that is not a mention is stored trimmed and broadcast, and nothing else happens. |
| ChatGateway.DeliverStoresFirst | server/socket/chatHandler.js:168-172 | Whatever follows, the sender's message is stored before anything else. |
| ChatGateway.DeliverBroadcastsFirst | server/socket/chatHandler.js:175-180 | Whatever follows, the sender's message is the first event broadcast. |
| ChatGateway.MentionEventOrder | server/socket/chatHandler.js:165-228 | A mention with an accepted reply emits the message, typing on, typing off, then the reply. The reply has no sender and records who asked. |
| ChatGateway.ReplyCursorFindsMention | server/socket/chatHandler.js:168-228 | The reply is created strictly after the mention. So, for a member of the room, paging back from the reply's id returns the mention as the newest message of the page. |
| ChatGateway.MentionDelivery | server/socket/chatHandler.js:191-228 | A delivered mention with an accepted reply emits the four events in the source's order, and the model is asked about the query. |
| ChatGateway.SendClearsTyping | server/socket/chatHandler.js:191-233 | With the fix, every typing-on a send emits is followed by a typing-off. |
| ChatGateway.MentionClearsTyping | server/socket/chatHandler.js:191-228 | A mention emits typing on once, and directly after it typing off. |
| ChatGateway.AnswerTypingShape | server/socket/chatHandler.js:191-228 | The fixed mention branch emits typing on, later typing off, and never typing on again. |
| ChatGateway.LongReplyLeavesTypingOn | server/socket/chatHandler.js:213-233 | As written, a reply over 4000 characters leaves the room's AI typing indicator on. |
| ChatGateway.RefusedReplyLeavesTypingOn | server/socket/chatHandler.js:213-233 | As written, any reply the schema refuses ends with typing on and is never followed by typing off. |
| ChatGateway.Typing | server/socket/chatHandler.js:237-251 | The others in the room, not the typist, learn the user's typing state. |
| ChatGateway.Leave | server/socket/chatHandler.js:254-270 | The socket leaves the channel and forgets its current room. The room hears that the user left and gets the roster. |
| ChatGateway.Disconnect | server/socket/chatHandler.js:273-290 | The connection is removed. Its current room, if any, hears that the user left and gets the new roster. |
| ChatGateway.LeaveThenDisconnectIsSilent | server/socket/chatHandler.js:254-290 | After a leave, a disconnect tells nobody a second time. |
| ChatGateway.SendKeepsDbValid | server/socket/chatHandler.js:165-228 | With the fix, sending keeps the message log valid, with fresh ids and contents that fit the schema. |
| ChatGateway.SendAsWrittenKeepsDbValid | server/socket/chatHandler.js:165-233 | As written, sending keeps the message log valid too. A refused reply stores nothing. |
| ChatGateway.SendAsWrittenKeepsOrder | server/socket/chatHandler.js:168-213 | A send whose instants are no earlier than the stored messages keeps the log in creation order. |
| ChatGateway.StepKeepsInv | server/socket/chatHandler.js:75-290 | Every handler, as written, keeps each connection in at most one channel. A current room is always the connection's only channel. The store stays valid, and the log stays in creation order. |
| ChatGateway.RunKeepsInv | server/socket/chatHandler.js:75-290 | Every run of handlers keeps that invariant. |
| ChatGateway.ReachableReadsAreNewest | server/controllers/messageController.js:31-38 | In every state a run reaches, the join history and every page of the endpoint hold the newest matching messages by `createdAt`. |
| SocketClient.Without | client/src/hooks/useSocket.js:68-74 | Removes exactly the user's entries from the typing list. |
| SocketClient.WithoutAppend | client/src/hooks/useSocket.js:68-74 | Filtering a concatenation filters each piece, in order. With the membership clause, this fixes the result to the source's order-keeping filter. |
| SocketClient.TypingReduce | client/src/hooks/useSocket.js:68-74 | An update removes the user's entries and, while the user types, appends one. |
| SocketClient.TypingReduceLists | client/src/hooks/useSocket.js:68-74 | After an update the user is listed exactly when typing, and everyone else keeps their entries. |
| SocketClient.TypingRunIsDistinct | client/src/hooks/useSocket.js:68-74 | Any run of updates lists each user at most once. |
| SocketClient.Answers | client/src/hooks/useSocket.js:27-31 | The page asks to join its room exactly on connect. |
| SocketClient.Receive | client/src/hooks/useSocket.js:27-78 | Each event updates its own part of the state and leaves the rest unchanged. The history replaces the messages and the room name. A new message is appended. Typing uses the reducer. The online list is replaced by the payload's list, or emptied when there is none. Errors are recorded. |
| SocketClient.ReceiveAllKeepsTypingDistinct | client/src/hooks/useSocket.js:68-74 | No run of events lists a typist twice. |
| SocketClient.HistoryThenNew | client/src/hooks/useSocket.js:46-53 | A history followed by new messages shows the history and then the messages, in arrival order. |
| SocketClient.SendMessage | client/src/hooks/useSocket.js:92-99 | A message is sent only with a socket and non-blank content, and the content goes untrimmed. |
| SocketClient.TypingRequest | client/src/hooks/useSocket.js:101-111 | A typing request is sent exactly when there is a socket. |
| SocketClient.Open | client/src/hooks/useSocket.js:16-25 | A socket is opened only when a non-empty token is stored and there is a room id. Otherwise the effect does nothing. Opening changes nothing else. |
| SocketClient.OpenGatesSending | client/src/hooks/useSocket.js:16-25 | From a fresh page, messages and typing signals can be sent exactly when the effect had a token and a room id. |
| SocketClient.Cleanup | client/src/hooks/useSocket.js:80-89 | Closing leaves the room, drops the socket and clears the room's state. |
| SocketClient.NothingSentAfterCleanup | client/src/hooks/useSocket.js:80-111 | After cleanup nothing is sent. |
| RightPanel.OnlineOnly | client/src/components/chat/RightPannel.jsx:10-12 | Keeps exactly the online entries whose user is not a listed member. |
| RightPanel.OnlineOnlyAppend | client/src/components/chat/RightPannel.jsx:10-12 | Splitting the online list splits the guests the same way, in order. With the membership clause, this fixes the result to the source's filter. |
| RightPanel.Merge | client/src/components/chat/RightPannel.jsx:13-16 | The members come first, in order, marked online or not. The other online users follow, marked online with the member role. |
| RightPanel.MergeShowsOnline | client/src/components/chat/RightPannel.jsx:4-16 | The users shown online are exactly the online users. Every row is a member or an online user. |
| RightPanel.OnlineCount | client/src/components/chat/RightPannel.jsx:18 | The count is the online members plus the online users outside the list. |
| RoomCard.TimeAgo | client/src/components/dashboard/RoomCard.jsx:3-12 | No date gives nothing. An unreadable date gives "NaNd ago". Under a minute gives "Just now". Otherwise the text is whole minutes, hours or days in the largest unit reached. |
| RoomCard.TimeAgoCounts | client/src/components/dashboard/RoomCard.jsx:6-11 | The number shown reads back as the whole count of elapsed units, at least one, and below the next unit. |
| RoomCard.RoleLabel | client/src/components/dashboard/RoomCard.jsx:23 | Only the owner and member roles get a badge. |
| RoomCard.CardTitle | client/src/components/dashboard/RoomCard.jsx:19 | The title is the name, else the title, else "Unnamed Room". It is never empty. |
| RoomCard.CardTags | client/src/components/dashboard/RoomCard.jsx:22 | Given tags are kept, even empty ones. Otherwise a code makes the one tag. |
| RoomCard.CardLastActive | client/src/components/dashboard/RoomCard.jsx:20 | The relative time is used when there is a date. Without a date, the sample text is used when it is non-empty, and nothing otherwise. Never an empty string. |
| CodeWindow.TextChunks | client/src/components/ui/CodeWindow.jsx:60-63 | A line's chunks are its characters in order, each tagged with the line and with the type of the token it comes from. |
| CodeWindow.BuildTypeChunks | client/src/components/ui/CodeWindow.jsx:58-67 | One chunk per character plus one break per line, ending with the last line's break. The round trips below show that the chunks carry every line's characters and types. |
| CodeWindow.ChunksInLineOrder | client/src/components/ui/CodeWindow.jsx:58-67 | Chunks are tagged with their line, in line order. |
| CodeWindow.StepSpells | client/src/components/ui/CodeWindow.jsx:102-108 | A character extends what the current line shows by exactly that character in its type, whether it joins the last token or starts a new one. |
| CodeWindow.FoldKeepsMerged | client/src/components/ui/CodeWindow.jsx:95-109 | Regrouping never leaves two neighbouring tokens of the same type. |
| CodeWindow.FullRoundTrip | client/src/components/ui/CodeWindow.jsx:58-109 | Revealing every chunk draws each code line once, with its index, its text and the type of every character. |
| CodeWindow.RevealRoundTrip | client/src/components/ui/CodeWindow.jsx:95-109 | After any number of ticks, the lines drawn are the first lines of the code, one per break revealed, each with its text and the type of every character. |
| CodeWindow.Render | client/src/components/ui/CodeWindow.jsx:183-197 | The final cursor shows exactly when every chunk is revealed. Until then the blinking cursor sits on the last drawn line. The two never show together. |
| CodeWindow.RenderCountsLines | client/src/components/ui/CodeWindow.jsx:234 | The status bar shows the number of lines drawn. For non-empty code it reaches the code's length exactly when the typing is done. |

## Left out

- **Login and the JWT itself.** `passport.js`, the auth routes and the `login` handler are not
  part of this model. Token checking is a function parameter.
- **Password hashing.** bcrypt is a function parameter; the model keeps its result.
- **Randomness.** `Math.random` becomes explicit draws:
  - six alphabet positions per room code;
  - a number below 900000 per one-time code.
- **The clock.** `Date` becomes an integer number of milliseconds passed in.
  - A gateway step may arrive only with an instant no earlier than every stored message,
    so the clock never goes back.
  - The AI reply gets its own instant, strictly later than the mention's, because it is
    stored only after the model answers.
  - Under that clock the log is in `createdAt` order, and reading the last n by position
    is reading the newest n. Messages with equal `createdAt` come in log order. Mongo
    leaves the order of such ties open.
- **Mail delivery.** nodemailer becomes a boolean "delivered".
- **The model call.** The Gemini call becomes a sequence of outcomes.
- **Sleeps between retries.** They are recorded as delays, not waited out.
- **Failed database calls.** The model cannot see database failures, so the `500` catch
  paths they lead to are left out. The ten-clash `500` of `createRoom` is modelled.
- **Duplicate-key races.** The `11000` duplicate-key race in `createRoom` (`409`) is left out.
  Codes are checked for use before the write, so it cannot arise in this sequential model.
- **Concurrency.**
  - Socket.IO handlers are modelled as atomic steps.
  - Interleaving of awaits, message fan-out timing and reconnects are left out.
- **Case and length.**
  - Only ASCII case is mapped.
  - Lengths are counted in characters, not UTF-16 code units.
  - The code window splits text into characters, where `split("")` splits UTF-16 code
    units. A character outside the Basic Multilingual Plane is one chunk in the model and
    two in the browser. The rocket emoji in the window's first comment line is one.
- **Room list order.** `ListMyRooms` does not sort by `updatedAt`. It lists rooms in
  membership order; the sort only orders the result.
- **Odd request shapes.**
  - Non-numeric or negative `limit` values are left out; `limit` is an optional natural
    number.
  - Mongoose's casting of non-canonical id strings is left out.
  - Socket payloads without a `roomId` are left out.
- **The socket's own room.** Socket.IO puts every socket in a room named after its id,
  and `room:join` never leaves that room. The model's channel set holds only room
  channels, so that room does not appear.
- **Logging.** `console.log` / `console.error` output is left out.
- **Presentation.**
  - React rendering details, animation timers and colours are left out.
  - The concrete `CODE_LINES` and `TOKEN_COLOR` tables are left out. `CodeWindow` is proved
    for any list of lines.
  - Components with no logic (pages, headers, composer and the like) are left out.
- **The numeric limit of `parseInt`.** The model reads the retry hint as an unbounded
  natural number.
- ChatAI.RetryDelay: the comment beside the back-off says 2 s and 4 s. The model states
  the code's 4 s and 8 s.
- RoomController.ListMyRooms: states which rooms are listed and with which role. It does
  not state their order.
- MessageController.GetMessages: a `limit` is an optional natural number. Strings that
  `Number()` turns into `NaN` are not modelled.

## Findings

| source | as written | input that shows it | evidently intended | confidence | as-written member | corrected member |
|---|---|---|---|---|---|---|
| server/socket/chatHandler.js:213-233 | The AI reply is stored with `Message.create`. If the schema rejects it (content over 4000 characters, per server/models/Message.js:16-20, or empty), the catch sends the sender an `error` and returns. `ai:typing false` is never emitted. | An `@ai` message whose model answer has 4001 characters. The room sees `ai:typing true` and never `ai:typing false`. | The typing indicator is switched off on every path of the mention branch. | not executed | ChatGateway.LongReplyLeavesTypingOn | ChatGateway.SendClearsTyping |

The gateway's `Step` follows the handlers as written, so `StepKeepsInv` and `RunKeepsInv`
hold for the code as it stands. The corrected `Send` is a separate handler, and
`SendClearsTyping` proves the fix about it.

=== FILE: auth_controller.dfy ===
/** E-mail verification by one-time code (server/controllers/authController.js):
    `sendCode`, `verifyCode` and `completeSignup` as transitions of the user
    collection, keyed by normalised e-mail. Time is passed in as milliseconds;
    the random draw, the mail delivery outcome and the password hash are inputs. */
module AuthController {
  import opened Wrappers
  import opened Strings
  import opened Models

  const OtpExpiryMinutes: nat := 10
  const OtpResendCooldownSeconds: nat := 60
  const OtpMaxAttempts: nat := 5
  const OtpLockMinutes: nat := 15

  const OtpExpiryMs: nat := OtpExpiryMinutes * 60 * 1000
  const OtpLockMs: nat := OtpLockMinutes * 60 * 1000

  datatype Outcome = Outcome(users: map<string, User>, response: Response)

  /** `email.trim().toLowerCase()`. */
  function NormalizeEmail(email: string): (r: string)
    ensures |r| <= |email|
    ensures forall i :: 0 <= i < |r| ==> !('A' <= r[i] <= 'Z')
  {
    var t := Trim(email);
    ToLower(t)
  }

  /** A trimmed address with no upper-case ASCII letter is its own normal form. */
  lemma NormalFormIsFixed(email: string)
    requires Trimmed(email) && forall i :: 0 <= i < |email| ==> !('A' <= email[i] <= 'Z')
    ensures NormalizeEmail(email) == email
  {
    TrimmedIsFixed(email);
  }

  /** Addresses that differ only in ASCII case name the same user. */
  lemma NormalizeIgnoresCase(a: string, b: string)
    requires ToLower(a) == ToLower(b)
    ensures NormalizeEmail(a) == NormalizeEmail(b)
  {
    TrimLowerCommute(a);
    TrimLowerCommute(b);
  }

  /** Addresses that differ only in surrounding whitespace name the same user. */
  lemma NormalizeIgnoresPadding(w1: string, email: string, w2: string)
    requires AllSpace(w1) && AllSpace(w2)
    ensures NormalizeEmail(w1 + email + w2) == NormalizeEmail(email)
  {
    TrimIgnoresPadding(w1, email, w2);
  }

  /** Normalising an already normalised address changes nothing, so every handler
      finds the same user for the same typed address. */
  lemma NormalizeEmailIdempotent(email: string)
    ensures NormalizeEmail(NormalizeEmail(email)) == NormalizeEmail(email)
  {
    LowerOfTrimIsTrimmed(email);
    LowerIdempotent(Trim(email));
  }

  lemma LowerIdempotent(s: string)
    ensures ToLower(ToLower(s)) == ToLower(s)
  {
    var l := ToLower(s);
    assert forall i :: 0 <= i < |l| ==> LowerChar(l[i]) == l[i];
  }

  lemma LowerOfTrimIsTrimmed(email: string)
    ensures Trim(ToLower(Trim(email))) == ToLower(Trim(email))
  {
    var t := Trim(email);
    assert Trimmed(t);
    LowerKeepsTrimmed(t);
    TrimmedIsFixed(ToLower(t));
  }

  /** `Math.floor(100000 + Math.random() * 900000).toString()`, with
      `draw = Math.floor(Math.random() * 900000)` supplied. */
  function OtpCode(draw: nat): (code: string)
    requires draw < 900000
    ensures |code| == 6 && AllDigits(code) && code[0] != '0'
    ensures ParseDigits(code) == 100000 + draw
  {
    NatToStringLength(100000 + draw, 6);
    ParseNatToString(100000 + draw);
    NatToString(100000 + draw)
  }

  /** Whole seconds since the last send, rounded down as `Math.floor` does. */
  function SecondsSince(now: int, sentAt: int): int {
    (now - sentAt) / 1000
  }

  /** The user a handler works on: the stored one, or a fresh document. */
  function UserFor(users: map<string, User>, email: string): User {
    if email in users then users[email] else NewUser(email)
  }

  /** `sendCode`: refuses a resend within 60 seconds of the last one (429, store
      untouched); otherwise mails a fresh code and stores it with a 10-minute
      expiry, zero attempts and no lock. An address that is all whitespace passes
      the presence check but normalises to the empty string, which the schema's
      required email refuses on save: 500, nothing stored. */
  function SendCode(users: map<string, User>, email: string, now: int, draw: nat, delivered: bool): (r: Outcome)
    requires draw < 900000
    ensures email == [] ==> r == Outcome(users, Response(400, "Email is required"))
    ensures r.response.status != 200 ==> r.users == users
    ensures r.response.status == 429 <==>
              && email != []
              && var u := UserFor(users, NormalizeEmail(email));
              && u.verificationLastSentAt.Some?
              && SecondsSince(now, u.verificationLastSentAt.value) < OtpResendCooldownSeconds
    ensures r.response.status == 429 ==>
              var u := users[NormalizeEmail(email)];
              r.response.message == "Please wait "
                + NatToString(OtpResendCooldownSeconds - SecondsSince(now, u.verificationLastSentAt.value))
                + " seconds before requesting a new code"
    ensures email != [] && NormalizeEmail(email) == [] && r.response.status != 429 ==>
              r == Outcome(users, Response(500, "Failed to send verification code"))
    ensures r.response.status == 200 <==>
              email != [] && NormalizeEmail(email) != [] && delivered && r.response.status != 429
    ensures r.response.status == 200 ==>
              r.users == users[NormalizeEmail(email) := CodeSent(UserFor(users, NormalizeEmail(email)), now, draw)]
  {
    if email == [] then
      Outcome(users, Response(400, "Email is required"))
    else
      var e := NormalizeEmail(email);
      var u := UserFor(users, e);
      if u.verificationLastSentAt.Some?
         && SecondsSince(now, u.verificationLastSentAt.value) < OtpResendCooldownSeconds then
        var retryAfter := OtpResendCooldownSeconds - SecondsSince(now, u.verificationLastSentAt.value);
        Outcome(users, Response(429, "Please wait " + NatToString(retryAfter) + " seconds before requesting a new code"))
      else if !delivered || e == [] then
        // a failed mail, or a blank address the schema's required email refuses on save
        Outcome(users, Response(500, "Failed to send verification code"))
      else
        Outcome(users[e := CodeSent(u, now, draw)], Response(200, "Verification code sent"))
  }

  /** The user after a code has been mailed at `now`: the new code, expiring in
      ten minutes, no failed attempts, no lock; everything else as before. */
  function CodeSent(u: User, now: int, draw: nat): (u': User)
    requires draw < 900000
    ensures u'.verificationCode == Some(OtpCode(draw))
    ensures u'.verificationCodeExpiresAt == Some(now + OtpExpiryMs)
    ensures u'.verificationAttempts == 0
    ensures u'.verificationLastSentAt == Some(now)
    ensures u'.verificationLockUntil == None
    ensures u'.email == u.email && u'.username == u.username && u'.password == u.password
    ensures u'.isVerified == u.isVerified
  {
    u.(verificationCode := Some(OtpCode(draw)),
       verificationCodeExpiresAt := Some(now + OtpExpiryMs),
       verificationAttempts := 0,
       verificationLastSentAt := Some(now),
       verificationLockUntil := None)
  }

  /** A user whose code was sent at `sentAt` may not get another one for a minute:
      a request `d` milliseconds later is refused with 429 exactly when d < 60000,
      and the wait it reports is 60 - floor(d / 1000) seconds. */
  lemma ResendCooldown(users: map<string, User>, email: string, sentAt: int, draw: nat, draw2: nat, d: nat)
    requires draw < 900000 && draw2 < 900000 && email != []
    requires SendCode(users, email, sentAt, draw, true).response.status == 200
    ensures var again := SendCode(SendCode(users, email, sentAt, draw, true).users, email, sentAt + d, draw2, true);
            && (again.response.status == 429 <==> d < 60000)
            && (d < 60000 ==>
                  again.response.message == "Please wait " + NatToString(60 - d / 1000) + " seconds before requesting a new code")
  {
    var e := NormalizeEmail(email);
    var first := SendCode(users, email, sentAt, draw, true);
    assert e != [];
    assert first.users == users[e := CodeSent(UserFor(users, e), sentAt, draw)];
    var u := UserFor(first.users, e);
    assert u.verificationLastSentAt == Some(sentAt);
    assert SecondsSince(sentAt + d, sentAt) == d / 1000;
    var again := SendCode(first.users, email, sentAt + d, draw2, true);
    if d < 60000 {
      assert again.response.status == 429;
      var wait := OtpResendCooldownSeconds - SecondsSince(sentAt + d, first.users[e].verificationLastSentAt.value);
      assert wait == 60 - d / 1000;
      assert again.response.message == "Please wait " + NatToString(wait) + " seconds before requesting a new code";
    }
  }

  /** The user is locked out at `now`. */
  predicate Locked(u: User, now: int) {
    u.verificationLockUntil.Some? && u.verificationLockUntil.value > now
  }

  /** The stored code is present (and not empty) and equals the submitted, trimmed one. */
  predicate CodeMatches(u: User, submitted: string) {
    u.verificationCode.Some? && u.verificationCode.value != [] && u.verificationCode.value == submitted
  }

  /** The stored code has an expiry that `now` has not passed. */
  predicate CodeLive(u: User, now: int) {
    u.verificationCodeExpiresAt.Some? && u.verificationCodeExpiresAt.value >= now
  }

  /** The user after a wrong or missing code at `now`: one more failed attempt,
      and on the fifth the counter restarts and the user is locked for 15 minutes.
      Either way the stored counter stays below five. */
  function Missed(u: User, now: int): (u': User)
    ensures u'.verificationAttempts < OtpMaxAttempts
    ensures u.verificationAttempts + 1 < OtpMaxAttempts ==>
              u' == u.(verificationAttempts := u.verificationAttempts + 1)
    ensures u.verificationAttempts + 1 >= OtpMaxAttempts ==>
              u' == u.(verificationAttempts := 0, verificationLockUntil := Some(now + OtpLockMs))
  {
    var next := u.verificationAttempts + 1;
    if next >= OtpMaxAttempts then u.(verificationAttempts := 0, verificationLockUntil := Some(now + OtpLockMs))
    else u.(verificationAttempts := next)
  }

  /** The user after a successful verification: verified, and code, expiry,
      attempt counter and lock cleared. */
  function Verified(u: User): (u': User)
    ensures u'.isVerified && u'.verificationCode.None? && u'.verificationCodeExpiresAt.None?
    ensures u'.verificationAttempts == 0 && u'.verificationLockUntil.None?
    ensures u'.email == u.email && u'.username == u.username && u'.verificationLastSentAt == u.verificationLastSentAt
  {
    u.(isVerified := true, verificationCode := None, verificationCodeExpiresAt := None,
       verificationAttempts := 0, verificationLockUntil := None)
  }

  /** `verifyCode`: both fields are required; the address is normalised and the
      code trimmed before the stored user is checked. */
  function VerifyCode(users: map<string, User>, email: string, code: string, now: int): (r: Outcome)
    ensures email == [] || code == [] ==> r == Outcome(users, Response(400, "Email and code are required"))
    ensures email != [] && code != [] ==> r == CheckCode(users, NormalizeEmail(email), Trim(code), now)
  {
    if email == [] || code == [] then
      Outcome(users, Response(400, "Email and code are required"))
    else
      CheckCode(users, NormalizeEmail(email), Trim(code), now)
  }

  /** The checks `verifyCode` makes on the user stored under `e`: an unknown address
      is refused like a wrong code; a locked user is refused outright; a wrong or
      missing code counts a failed attempt (the fifth locks the user); a right code
      that has expired is refused without touching anything, since the code is
      compared before the expiry; a right, live code verifies the user. */
  function CheckCode(users: map<string, User>, e: string, c: string, now: int): (r: Outcome)
    ensures e !in users ==> r == Outcome(users, Response(400, "Invalid code"))
    ensures e in users ==>
              var u := users[e];
              && (Locked(u, now) ==>
                    r == Outcome(users, Response(429, "Too many failed attempts. Try again later")))
              && (!Locked(u, now) && !CodeMatches(u, c) ==>
                    r == Outcome(users[e := Missed(u, now)], Response(400, "Invalid code")))
              && (!Locked(u, now) && CodeMatches(u, c) && !CodeLive(u, now) ==>
                    r == Outcome(users, Response(400, "Code expired. Please request a new code")))
              && (!Locked(u, now) && CodeMatches(u, c) && CodeLive(u, now) ==>
                    r == Outcome(users[e := Verified(u)], Response(200, "Verified successfully")))
  {
    if e !in users then
      Outcome(users, Response(400, "Invalid code"))
    else
      var u := users[e];
      if u.verificationLockUntil.Some? && u.verificationLockUntil.value > now then
        Outcome(users, Response(429, "Too many failed attempts. Try again later"))
      else if u.verificationCode.None? || u.verificationCode.value == [] || u.verificationCode.value != c then
        Outcome(users[e := Missed(u, now)], Response(400, "Invalid code"))
      else if u.verificationCodeExpiresAt.None? || u.verificationCodeExpiresAt.value < now then
        Outcome(users, Response(400, "Code expired. Please request a new code"))
      else
        Outcome(users[e := Verified(u)], Response(200, "Verified successfully"))
  }

  /** Stored attempt counters stay below the maximum. */
  predicate AttemptsBelowMax(users: map<string, User>) {
    forall e :: e in users ==> users[e].verificationAttempts < OtpMaxAttempts
  }

  /** Verifying keeps every stored attempt counter below five. */
  lemma VerifyKeepsAttemptsBelowMax(users: map<string, User>, email: string, code: string, now: int)
    requires AttemptsBelowMax(users)
    ensures AttemptsBelowMax(VerifyCode(users, email, code, now).users)
  {
    if email != [] && code != [] {
      CheckKeepsAttemptsBelowMax(users, NormalizeEmail(email), Trim(code), now);
    }
  }

  /** The checks on one stored user keep every counter below five. */
  lemma CheckKeepsAttemptsBelowMax(users: map<string, User>, e: string, c: string, now: int)
    requires AttemptsBelowMax(users)
    ensures AttemptsBelowMax(CheckCode(users, e, c, now).users)
  {
    if e in users && !Locked(users[e], now) {
      var u := users[e];
      if !CodeMatches(u, c) {
        ReplaceKeepsAttemptsBelowMax(users, e, Missed(u, now));
      } else if CodeLive(u, now) {
        ReplaceKeepsAttemptsBelowMax(users, e, Verified(u));
      }
    }
  }

  /** Storing a user whose counter is below five keeps every counter below five. */
  lemma ReplaceKeepsAttemptsBelowMax(users: map<string, User>, e: string, u: User)
    requires AttemptsBelowMax(users) && u.verificationAttempts < OtpMaxAttempts
    ensures AttemptsBelowMax(users[e := u])
  {
  }

  /** Sending a code resets the counter, so it too keeps every counter below five. */
  lemma SendKeepsAttemptsBelowMax(users: map<string, User>, email: string, now: int, draw: nat, delivered: bool)
    requires draw < 900000
    requires AttemptsBelowMax(users)
    ensures AttemptsBelowMax(SendCode(users, email, now, draw, delivered).users)
  {
  }

  /** The collection after the same code is checked `n` times at `now`. */
  function Repeat(users: map<string, User>, e: string, c: string, now: int, n: nat): map<string, User> {
    if n == 0 then users else CheckCode(Repeat(users, e, c, now, n - 1), e, c, now).users
  }

  /** Before the fifth miss, each wrong code only adds one to the counter. */
  lemma {:induction false} MissesCount(users: map<string, User>, e: string, wrong: string, t: int, n: nat)
    requires e in users
    requires users[e].verificationAttempts == 0 && !Locked(users[e], t) && !CodeMatches(users[e], wrong)
    requires n < OtpMaxAttempts
    ensures e in Repeat(users, e, wrong, t, n)
    ensures Repeat(users, e, wrong, t, n)[e] == users[e].(verificationAttempts := n)
  {
    if n > 0 {
      MissesCount(users, e, wrong, t, n - 1);
    }
  }

  /** Five wrong codes in a row, starting from a fresh counter, lock the user for
      15 minutes after the fifth; until then even the right code is refused with 429. */
  lemma FiveMissesLock(users: map<string, User>, email: string, wrong: string, right: string,
                       t: int, later: int)
    requires email != [] && wrong != [] && right != []
    requires NormalizeEmail(email) in users
    requires var u := users[NormalizeEmail(email)];
             && u.verificationAttempts == 0
             && (u.verificationLockUntil.None? || u.verificationLockUntil.value <= t)
             && u.verificationCode != Some(Trim(wrong))
    requires t <= later < t + OtpLockMs
    ensures var s5 := Repeat(users, NormalizeEmail(email), Trim(wrong), t, 5);
            && NormalizeEmail(email) in s5
            && s5[NormalizeEmail(email)].verificationLockUntil == Some(t + OtpLockMs)
            && VerifyCode(s5, email, right, later) == Outcome(s5, Response(429, "Too many failed attempts. Try again later"))
  {
    var e, c := NormalizeEmail(email), Trim(wrong);
    assert !CodeMatches(users[e], c);
    MissesCount(users, e, c, t, 4);
    var s4 := Repeat(users, e, c, t, 4);
    var s5 := Repeat(users, e, c, t, 5);
    assert s5 == s4[e := Missed(s4[e], t)];
    assert Locked(s5[e], later);
  }

  /** `completeSignup`: only a verified user may claim a username nobody holds; the
      username is stored trimmed, the password as its hash, and the code, expiry,
      attempt counter and lock are cleared. */
  function CompleteSignup(users: map<string, User>, email: string, username: string, password: string,
                          hash: string): (r: Outcome)
    ensures email == [] || username == [] || password == [] ==>
              r == Outcome(users, Response(400, "Email, username and password are required"))
    ensures r.response.status != 200 ==> r.users == users
    ensures email != [] && username != [] && password != []
            && !(NormalizeEmail(email) in users && users[NormalizeEmail(email)].isVerified) ==>
              r == Outcome(users, Response(400, "Email not verified"))
    ensures email != [] && username != [] && password != []
            && NormalizeEmail(email) in users && users[NormalizeEmail(email)].isVerified
            && (exists f :: f in users && users[f].username == Some(Trim(username))) ==>
              r == Outcome(users, Response(400, "Username taken"))
    ensures r.response.status == 200 <==>
              && email != [] && username != [] && password != []
              && NormalizeEmail(email) in users && users[NormalizeEmail(email)].isVerified
              && forall f :: f in users ==> users[f].username != Some(Trim(username))
    ensures r.response.status == 200 ==>
              var e := NormalizeEmail(email);
              && r.users == users[e := users[e].(username := Some(Trim(username)), password := Some(hash),
                                                 verificationCode := None, verificationCodeExpiresAt := None,
                                                 verificationAttempts := 0, verificationLockUntil := None)]
  {
    if email == [] || username == [] || password == [] then
      Outcome(users, Response(400, "Email, username and password are required"))
    else
      var e := NormalizeEmail(email);
      var name := Trim(username);
      if e !in users || !users[e].isVerified then
        Outcome(users, Response(400, "Email not verified"))
      else if exists f :: f in users && users[f].username == Some(name) then
        Outcome(users, Response(400, "Username taken"))
      else
        var u' := users[e].(username := Some(name), password := Some(hash),
                            verificationCode := None, verificationCodeExpiresAt := None,
                            verificationAttempts := 0, verificationLockUntil := None);
        Outcome(users[e := u'], Response(200, "Signup complete"))
  }

  /** `sendCode` keeps the collection well formed: every user is stored under its
      own, non-empty e-mail (a blank address is never stored) and no two users share
      a username. */
  lemma SendCodeKeepsUsersValid(users: map<string, User>, email: string, now: int, draw: nat, delivered: bool)
    requires draw < 900000
    requires UsersValid(users)
    ensures UsersValid(SendCode(users, email, now, draw, delivered).users)
  {
    if email != [] {
      var e := NormalizeEmail(email);
      var u := UserFor(users, e);
      if e in users {
        SameKeysKeepUsersValid(users, e, CodeSent(u, now, draw));
      } else if e != [] {
        NewKeyKeepsUsersValid(users, e, CodeSent(u, now, draw));
      }
    }
  }

  /** Adding a user with no username under its own, unused, non-empty e-mail keeps
      the collection well formed. */
  lemma NewKeyKeepsUsersValid(users: map<string, User>, e: string, u': User)
    requires UsersValid(users) && e !in users && e != []
    requires u'.email == e && u'.username.None?
    ensures UsersValid(users[e := u'])
  {
  }

  /** `verifyCode` keeps the collection well formed. */
  lemma VerifyCodeKeepsUsersValid(users: map<string, User>, email: string, code: string, now: int)
    requires UsersValid(users)
    ensures UsersValid(VerifyCode(users, email, code, now).users)
  {
    if email != [] && code != [] && NormalizeEmail(email) in users {
      var e := NormalizeEmail(email);
      var u := users[e];
      SameKeysKeepUsersValid(users, e, Missed(u, now));
      SameKeysKeepUsersValid(users, e, Verified(u));
    }
  }

  /** Replacing a user by one with the same e-mail and username keeps the
      collection well formed. */
  lemma SameKeysKeepUsersValid(users: map<string, User>, e: string, u': User)
    requires UsersValid(users) && e in users
    requires u'.email == users[e].email && u'.username == users[e].username
    ensures UsersValid(users[e := u'])
  {
  }

  /** `completeSignup` keeps the collection well formed: the username it stores is
      one no user held. */
  lemma CompleteSignupKeepsUsersValid(users: map<string, User>, email: string, username: string,
                                      password: string, hash: string)
    requires UsersValid(users)
    ensures UsersValid(CompleteSignup(users, email, username, password, hash).users)
  {
    var r := CompleteSignup(users, email, username, password, hash);
    if r.response.status == 200 {
      var e := NormalizeEmail(email);
      var u' := users[e].(username := Some(Trim(username)), password := Some(hash),
                          verificationCode := None, verificationCodeExpiresAt := None,
                          verificationAttempts := 0, verificationLockUntil := None);
      assert r.users == users[e := u'];
      NewNameKeepsUsersValid(users, e, u');
    }
  }

  /** Giving a stored user a name nobody holds keeps the collection well formed. */
  lemma NewNameKeepsUsersValid(users: map<string, User>, e: string, u': User)
    requires UsersValid(users) && e in users && u'.email == e
    requires forall h :: h in users ==> users[h].username != u'.username
    ensures UsersValid(users[e := u'])
  {
    var r := users[e := u'];
    forall f, g | f in r && g in r && f != g && r[f].username.Some?
      ensures r[f].username != r[g].username
    {
      if f == e {
        assert users[g].username != u'.username;
      } else if g == e {
        assert users[f].username != u'.username;
      }
    }
  }
}

=== FILE: chat_ai.dfy ===
/** The AI side of the chat gateway (server/socket/chatHandler.js): recognising an
    `@ai` / `@gemini` mention, the chat context and prompt sent to the model, and
    the three-attempt retry loop. The model itself is an input: a sequence of
    per-call outcomes. */
module ChatAI {
  import opened Wrappers
  import opened Strings
  import opened Models
  import Seqs

  // ---------------------------------------------------------------------------
  // Trigger: /^@(ai|gemini)\s+/i

  /** The end of the run of whitespace that starts at `k`. */
  function SkipSpace(s: string, k: nat): (e: nat)
    requires k <= |s|
    ensures k <= e <= |s|
    ensures forall i :: k <= i < e ==> IsSpace(s[i])
    ensures e == |s| || !IsSpace(s[e])
    decreases |s| - k
  {
    if k < |s| && IsSpace(s[k]) then SkipSpace(s, k + 1) else k
  }

  /** `s` begins with `@`, then `word` in any ASCII case, then at least one
      whitespace character. */
  predicate MentionsWith(s: string, word: string) {
    && |s| > 1 + |word|
    && s[0] == '@'
    && MatchesAtIgnoreCase(s, 1, word)
    && IsSpace(s[1 + |word|])
  }

  /** Where the regular expression's `\s+` begins, if it matches at all. The
      alternatives are tried in order; both begin after `@`, and no string matches
      both since their first letters differ. */
  function MentionEnd(s: string): (k: Option<nat>)
    ensures k.Some? <==> MentionsWith(s, "ai") || MentionsWith(s, "gemini")
    ensures k.Some? ==> k.value < |s| && IsSpace(s[k.value])
    ensures k == Some(3) <==> MentionsWith(s, "ai")
  {
    if MentionsWith(s, "ai") then Some(3)
    else if MentionsWith(s, "gemini") then Some(7)
    else None
  }

  /** The query of an AI mention: `trimmed.replace(aiTriggerRegex, "").trim()` when
      the expression matches (the replacement removes the mention and the whole
      whitespace run after it), nothing when it does not. */
  function TriggerQuery(trimmed: string): (q: Option<string>)
    ensures q.Some? <==> MentionsWith(trimmed, "ai") || MentionsWith(trimmed, "gemini")
    ensures q.Some? ==> Trimmed(q.value) && |q.value| < |trimmed|
    ensures q.Some? && Trimmed(trimmed) ==> q.value != []
  {
    match MentionEnd(trimmed)
    case None => None
    case Some(k) =>
      var e := SkipSpace(trimmed, k);
      var rest := trimmed[e..];
      assert e == |trimmed| ==> IsSpace(trimmed[|trimmed| - 1]);
      assert e < |trimmed| ==> rest[|rest| - 1] == trimmed[|trimmed| - 1];
      Some(Trim(rest))
  }

  /** A mention written as `@`, the word in any case, some whitespace, and a
      trimmed non-empty question is recognised, and the question comes back out
      unchanged. */
  lemma MentionRoundTrip(word: string, gap: string, question: string)
    requires (|word| == 2 && MatchesAtIgnoreCase(word, 0, "ai"))
             || (|word| == 6 && MatchesAtIgnoreCase(word, 0, "gemini"))
    requires gap != [] && AllSpace(gap)
    requires question != [] && Trimmed(question)
    ensures TriggerQuery("@" + word + gap + question) == Some(question)
  {
    var s := "@" + word + gap + question;
    var k := 1 + |word|;
    assert s[k] == gap[0];
    if |word| == 2 {
      assert MentionsWith(s, "ai");
    } else {
      assert s[1] == word[0] && CharEqIgnoreCase(word[0], "gemini"[0]);
      assert !CharEqIgnoreCase(s[1], "ai"[0]);
      assert MentionsWith(s, "gemini");
    }
    assert MentionEnd(s) == Some(k);
    var e := SkipSpace(s, k);
    assert s[k + |gap|] == question[0];
    assert forall i :: k <= i < k + |gap| ==> s[i] == gap[i - k];
    assert e == k + |gap|;
    assert s[e..] == question;
    TrimmedIsFixed(question);
  }

  /** A bare mention does not trigger: the expression needs whitespace after the word. */
  lemma BareMentionIgnored()
    ensures TriggerQuery("@ai") == None
    ensures TriggerQuery("@GEMINI") == None
  {
    assert |"@ai"| == 3 && |"@GEMINI"| == 7;
    assert !MentionsWith("@ai", "ai") && !MentionsWith("@ai", "gemini");
    assert !MentionsWith("@GEMINI", "ai") by {
      assert !CharEqIgnoreCase("@GEMINI"[1], "ai"[0]);
    }
    assert !MentionsWith("@GEMINI", "gemini");
  }

  /** A word that merely begins like `ai` does not trigger. */
  lemma LongerWordIgnored()
    ensures TriggerQuery("@aiden x") == None
  {
    var s := "@aiden x";
    assert !IsSpace(s[3]);
    assert !CharEqIgnoreCase(s[1], "gemini"[0]);
  }

  /** The mention must open the message. */
  lemma MentionMustLead()
    ensures TriggerQuery("hey @ai x") == None
  {
  }

  // ---------------------------------------------------------------------------
  // Context window and prompt

  /** How many history entries the prompt quotes at most. */
  const ContextWindow: nat := 10

  /** One history entry as the gateway passes it: the message type, its content,
      and the sender's username (empty when there is none). */
  datatype HistoryEntry = HistoryEntry(mtype: MessageType, content: string, senderName: string)

  /** `AI` for AI messages, otherwise the sender's name or `User`. */
  function Speaker(e: HistoryEntry): (r: string)
    ensures r != []
    ensures e.mtype == AiMessage ==> r == "AI"
    ensures e.mtype == UserMessage && e.senderName != [] ==> r == e.senderName
  {
    if e.mtype == AiMessage then "AI"
    else if e.senderName != [] then e.senderName
    else "User"
  }

  /** `<speaker>: <content>`. */
  function ContextLine(e: HistoryEntry): (r: string)
    ensures |r| >= 3
  {
    Speaker(e) + ": " + e.content
  }

  function ContextLines(h: seq<HistoryEntry>): (r: seq<string>)
    ensures |r| == |h|
    ensures forall i :: 0 <= i < |h| ==> r[i] == ContextLine(h[i])
  {
    seq(|h|, i requires 0 <= i < |h| => ContextLine(h[i]))
  }

  /** `historyContext`: the last ten entries, one line each, joined by newlines;
      empty exactly when there is no history. */
  function ContextBlock(history: seq<HistoryEntry>): (r: string)
    ensures r == [] <==> history == []
    ensures history != [] ==> StartsWith(r, ContextLine(Seqs.LastN(history, ContextWindow)[0]))
    ensures history != [] ==> EndsWith(r, ContextLine(history[|history| - 1]))
  {
    if |history| > 0 then
      var window := Seqs.LastN(history, ContextWindow);
      var lines := ContextLines(window);
      JoinEnds(lines, "\n");
      JoinWith(lines, "\n")
    else ""
  }

  /** `s` begins with `p`. */
  predicate StartsWith(s: string, p: string) {
    |p| <= |s| && s[..|p|] == p
  }

  /** `s` ends with `p`. */
  predicate EndsWith(s: string, p: string) {
    |p| <= |s| && s[|s| - |p|..] == p
  }

  /** A join begins with its first part and ends with its last. */
  lemma {:induction false} JoinEnds(parts: seq<string>, sep: string)
    requires parts != []
    ensures StartsWith(JoinWith(parts, sep), parts[0])
    ensures EndsWith(JoinWith(parts, sep), parts[|parts| - 1])
    decreases |parts|
  {
    if |parts| > 1 {
      var rest := JoinWith(parts[1..], sep);
      JoinEnds(parts[1..], sep);
      var r := JoinWith(parts, sep);
      assert r == parts[0] + sep + rest;
      assert r[..|parts[0]|] == parts[0];
      assert r[|r| - |rest|..] == rest;
    }
  }

  /** A new entry adds one line at the end of the block, and once ten entries are
      shown the oldest of them drops out: the block of the history extended by `e`
      is the block of the nine entries before it, a newline, and `e`'s line. */
  lemma ContextBlockAppend(h: seq<HistoryEntry>, e: HistoryEntry)
    ensures ContextBlock(h + [e]) ==
              if h == [] then ContextLine(e)
              else ContextBlock(Seqs.LastN(h, ContextWindow - 1)) + "\n" + ContextLine(e)
  {
    var prev := Seqs.LastN(h, ContextWindow - 1);
    Seqs.LastNAppend(h, e, ContextWindow - 1);
    ContextLinesAppend(prev, e);
    if h != [] {
      assert Seqs.LastN(prev, ContextWindow) == prev;
      JoinWithAppend(ContextLines(prev), ContextLine(e), "\n");
    }
  }

  lemma ContextLinesAppend(h: seq<HistoryEntry>, e: HistoryEntry)
    ensures ContextLines(h + [e]) == ContextLines(h) + [ContextLine(e)]
  {
  }

  /** Only the last ten entries matter: histories that agree on them give the same block. */
  lemma ContextSeesLastTen(h1: seq<HistoryEntry>, h2: seq<HistoryEntry>)
    requires |h1| >= ContextWindow && |h2| >= ContextWindow
    requires h1[|h1| - ContextWindow..] == h2[|h2| - ContextWindow..]
    ensures ContextBlock(h1) == ContextBlock(h2)
  {
    Seqs.LastNOfSuffix(h1, h2, ContextWindow);
  }

  /** The fixed text of the prompt, around the room name, the context block and
      the question. */
  const PromptIntro: string := "You are a helpful AI assistant in a collaborative developer chat room called \""
  const PromptPreamble: string :=
    "\". \nKeep your responses concise, technical, and relevant to software development. \n"
    + "Use markdown formatting for code blocks when appropriate.\n\n"
  const ContextHeading: string := "Recent chat context:\n"
  const QuestionHeading: string := "User asked: "

  /** The prompt: the fixed instructions naming the room, then the context block
      under its heading when there is history, and the user's question last. */
  function BuildPrompt(query: string, roomName: string, history: seq<HistoryEntry>): (p: string)
    ensures StartsWith(p, PromptIntro + roomName + PromptPreamble)
    ensures EndsWith(p, QuestionHeading + query)
    ensures history == [] ==>
              |p| == |PromptIntro + roomName + PromptPreamble| + |QuestionHeading + query|
    ensures history != [] ==>
              && OccursAt(p, ContextHeading + ContextBlock(history) + "\n\n", |PromptIntro + roomName + PromptPreamble|)
              && |p| == |PromptIntro + roomName + PromptPreamble| + |ContextHeading + ContextBlock(history) + "\n\n"|
                        + |QuestionHeading + query|
  {
    var ctx := ContextBlock(history);
    var head := PromptIntro + roomName + PromptPreamble;
    var middle := if ctx != [] then ContextHeading + ctx + "\n\n" else "";
    var tail := QuestionHeading + query;
    var p := head + middle + tail;
    assert p[..|head|] == head;
    assert p[|p| - |tail|..] == tail;
    assert p[|head|..|head| + |middle|] == middle;
    p
  }

  // ---------------------------------------------------------------------------
  // Retry

  /** The number of retries the loop allows, and its last-resort reply. */
  const MaxAttempts: nat := 3
  const Fallback: string := "Sorry, I'm unable to process that request right now. Please try again later."

  /** One call to the model: it answers with text, or throws an error with a message. */
  datatype CallOutcome = Answered(text: string) | Failed(message: string)

  /** The end of the run of digits that starts at `k`. */
  function SkipDigits(s: string, k: nat): (e: nat)
    requires k <= |s|
    ensures k <= e <= |s|
    ensures forall i :: k <= i < e ==> IsDigit(s[i])
    ensures e == |s| || !IsDigit(s[e])
    decreases |s| - k
  {
    if k < |s| && IsDigit(s[k]) then SkipDigits(s, k + 1) else k
  }

  /** `/(\d+)\s*second/i` matches at `j` with the greedy digit run `s[j..e]`.
      Backtracking to a shorter run or a shorter whitespace run never helps,
      since the next character would be a digit or whitespace, not `s`. */
  predicate HintAt(s: string, j: nat)
    requires j <= |s|
  {
    j < |s| && IsDigit(s[j]) && MatchesAtIgnoreCase(s, SkipSpace(s, SkipDigits(s, j)), "second")
  }

  /** The seconds an error message asks to wait, as `err.message?.match(...)` reads
      it: the number spelled by the digits of the leftmost match. */
  function RetryHint(message: string): Option<nat> {
    var i := FirstHint(message);
    if i == |message| then None else Some(ParseDigits(message[i..SkipDigits(message, i)]))
  }

  /** The position of the leftmost match, or `|s|` when there is none. */
  function FirstHint(s: string): (i: nat)
    ensures i <= |s|
    ensures forall k :: 0 <= k < i ==> !HintAt(s, k)
    ensures i < |s| ==> HintAt(s, i)
  {
    var p := (k: nat) => k < |s| && HintAt(s, k);
    var i := Seqs.FirstFrom(|s|, 0, p);
    assert forall k :: 0 <= k < i ==> !HintAt(s, k) by {
      forall k | 0 <= k < i ensures !HintAt(s, k) {
        assert !p(k);
      }
    }
    i
  }

  /** A hint is read exactly when the pattern matches somewhere in the message. */
  lemma RetryHintFinds(message: string)
    ensures RetryHint(message).Some? <==> exists i :: 0 <= i < |message| && HintAt(message, i)
  {
  }

  function Pow2(k: nat): (r: nat)
    ensures r >= 1
  {
    if k == 0 then 1 else 2 * Pow2(k - 1)
  }

  /** The wait after the failure of call `attempt`: the hinted number of seconds
      when the message gives one, else `2^attempt * 2000` ms. */
  function RetryDelay(message: string, attempt: nat): (ms: nat)
    ensures RetryHint(message).Some? ==> ms == RetryHint(message).value * 1000
    ensures RetryHint(message).None? ==> ms == Pow2(attempt) * 2000
  {
    match RetryHint(message)
    case Some(n) => n * 1000
    case None => Pow2(attempt) * 2000
  }

  /** Without a hint the waits are 4 s after the first failure and 8 s after the
      second (the source's comment says 2 s and 4 s). */
  lemma BackoffWithoutHint()
    ensures RetryDelay("", 1) == 4000
    ensures RetryDelay("", 2) == 8000
  {
  }

  /** A quota message naming a number of seconds is obeyed. */
  lemma HintIsObeyed()
    ensures RetryDelay("in 7 seconds", 1) == 7000
  {
    var m := "in 7 seconds";
    assert SkipDigits(m, 3) == 4 && SkipSpace(m, 4) == 5;
    assert HintAt(m, 3);
    assert !HintAt(m, 0) && !HintAt(m, 1) && !HintAt(m, 2);
    assert m[3..4] == "7";
  }

  /** `getAIResponse` after the prompt is built: calls the model up to three
      times, returning the first answer; after the first and second failures it
      waits `RetryDelay`; after three failures it returns the fallback text.
      `calls` counts model calls and `delays` lists the waits in order. */
  method GetAIResponse(outcomes: seq<CallOutcome>) returns (reply: string, calls: nat, delays: seq<nat>)
    requires |outcomes| >= MaxAttempts
    ensures 1 <= calls <= MaxAttempts
    ensures forall i :: 0 <= i < calls - 1 ==> outcomes[i].Failed?
    ensures outcomes[calls - 1].Answered? ==> reply == outcomes[calls - 1].text
    ensures outcomes[calls - 1].Failed? ==> calls == MaxAttempts && reply == Fallback
    ensures |delays| == calls - 1
    ensures forall i :: 0 <= i < |delays| ==> delays[i] == RetryDelay(outcomes[i].message, i + 1)
  {
    delays := [];
    var attempt := 1;
    while attempt < MaxAttempts && outcomes[attempt - 1].Failed?
      invariant 1 <= attempt <= MaxAttempts
      invariant forall i :: 0 <= i < attempt - 1 ==> outcomes[i].Failed?
      invariant |delays| == attempt - 1
      invariant forall i :: 0 <= i < |delays| ==> delays[i] == RetryDelay(outcomes[i].message, i + 1)
    {
      delays := delays + [RetryDelay(outcomes[attempt - 1].message, attempt)];
      attempt := attempt + 1;
    }
    calls := attempt;
    reply := if outcomes[attempt - 1].Answered? then outcomes[attempt - 1].text else Fallback;
  }

  /** The reply in closed form: the first answer among the first `n` calls, else
      the fallback. */
  function FirstAnswer(outcomes: seq<CallOutcome>, n: nat): string
    requires n <= |outcomes|
  {
    if n == 0 then Fallback
    else match outcomes[0]
      case Answered(text) => text
      case Failed(_) => FirstAnswer(outcomes[1..], n - 1)
  }

  /** The closed form is the fallback when every call fails, and otherwise the
      text of the first call that answers. */
  lemma {:induction false} FirstAnswerIsFirst(outcomes: seq<CallOutcome>, n: nat)
    requires n <= |outcomes|
    ensures (forall i :: 0 <= i < n ==> outcomes[i].Failed?) ==> FirstAnswer(outcomes, n) == Fallback
    ensures forall i :: 0 <= i < n && outcomes[i].Answered? && (forall j :: 0 <= j < i ==> outcomes[j].Failed?) ==>
              FirstAnswer(outcomes, n) == outcomes[i].text
  {
    if n > 0 && outcomes[0].Failed? {
      var rest := outcomes[1..];
      FirstAnswerIsFirst(rest, n - 1);
      assert FirstAnswer(outcomes, n) == FirstAnswer(rest, n - 1);
      if forall i :: 0 <= i < n ==> outcomes[i].Failed? {
        forall i | 0 <= i < n - 1 ensures rest[i].Failed? {
          assert rest[i] == outcomes[i + 1];
        }
      }
      forall i | 0 <= i < n && outcomes[i].Answered? && (forall j :: 0 <= j < i ==> outcomes[j].Failed?)
        ensures FirstAnswer(outcomes, n) == outcomes[i].text
      {
        assert rest[i - 1] == outcomes[i];
        forall j | 0 <= j < i - 1 ensures rest[j].Failed? {
          assert rest[j] == outcomes[j + 1];
        }
      }
    }
  }

  /** The loop returns the closed-form reply. */
  method GetAIResponseIsFirstAnswer(outcomes: seq<CallOutcome>) returns (reply: string)
    requires |outcomes| >= MaxAttempts
    ensures reply == FirstAnswer(outcomes, MaxAttempts)
  {
    var calls, delays;
    reply, calls, delays := GetAIResponse(outcomes);
    FirstAnswerIsFirst(outcomes, MaxAttempts);
  }
}

=== FILE: chat_gateway.dfy ===
/** The socket gateway (server/socket/chatHandler.js) as a state machine: each
    handler is one atomic step over the store and the open connections, and
    appends what it emits to a trace. A connection's `channels` are the room
    channels (`room:<id>`) it is in; its own per-socket room is left implicit. */
module ChatGateway {
  import opened Wrappers
  import opened Strings
  import opened Models
  import opened Store
  import opened ChatAI
  import MessageController
  import Seqs

  type ConnId = nat

  /** The user a socket is authenticated as, with the username it carries (absent
      for an account that has not finished signup). */
  datatype UserRef = UserRef(id: Id, username: Option<string>)

  /** A live connection: its user, its room channels, and the `currentRoom` /
      `currentRoomName` fields the handlers set. */
  datatype Conn = Conn(user: UserRef, channels: set<Id>, currentRoom: Option<Id>, currentRoomName: Option<string>)

  /** The events the gateway emits. `OnlineUsers` carries one entry per socket in
      the channel, keyed by connection. */
  datatype Event =
    | Error(text: string)
    | History(messages: seq<Message>, roomName: string)
    | NewMessage(message: Message)
    | UserJoined(user: UserRef)
    | UserLeft(user: UserRef)
    | OnlineUsers(users: map<ConnId, UserRef>)
    | TypingUpdate(user: UserRef, isTyping: bool)
    | AiTyping(isTyping: bool)

  /** One emission: the connections it reaches and the event. */
  datatype Emit = Emit(to: set<ConnId>, event: Event)

  /** What the gateway hands `getAIResponse`: the question, the room name and the
      history; `Prompt` renders it. */
  datatype ModelCall = ModelCall(query: string, roomName: string, history: seq<HistoryEntry>)

  /** The text the model receives for a call. */
  function Prompt(call: ModelCall): string {
    BuildPrompt(call.query, call.roomName, call.history)
  }

  /** The store, the accounts (id to optional username), the connections, the
      emitted trace, and the calls made to the model. */
  datatype Gateway = Gateway(
    db: Db,
    accounts: map<Id, Option<string>>,
    conns: map<ConnId, Conn>,
    trace: seq<Emit>,
    prompts: seq<ModelCall>)

  /** How many messages `room:join` replays. */
  const HistorySize: nat := 50

  // ---------------------------------------------------------------------------
  // Channels

  /** The connections in a room's channel: what `io.in(channel)` reaches. */
  function Members(conns: map<ConnId, Conn>, room: Id): (s: set<ConnId>)
    ensures forall c :: c in s <==> c in conns && room in conns[c].channels
  {
    set c | c in conns && room in conns[c].channels
  }

  /** The `room:onlineUsers` list: one entry per socket in the channel. */
  function Roster(conns: map<ConnId, Conn>, room: Id): (m: map<ConnId, UserRef>)
    ensures m.Keys == Members(conns, room)
    ensures forall c :: c in m ==> m[c] == conns[c].user
  {
    map c | c in conns && room in conns[c].channels :: conns[c].user
  }

  /** A channel named from a raw id: a malformed id names a channel nobody can be in. */
  function RawMembers(conns: map<ConnId, Conn>, roomId: RawId): (s: set<ConnId>)
    ensures roomId.Malformed? ==> s == {}
    ensures roomId.ObjectId? ==> s == Members(conns, roomId.id)
  {
    match roomId
    case Malformed => {}
    case ObjectId(r) => Members(conns, r)
  }

  function RawRoster(conns: map<ConnId, Conn>, roomId: RawId): (m: map<ConnId, UserRef>)
    ensures m.Keys == RawMembers(conns, roomId)
  {
    match roomId
    case Malformed => map[]
    case ObjectId(r) => Roster(conns, r)
  }

  /** `socket.emit("error", ...)`: an error to the acting connection only. */
  function Fail(g: Gateway, c: ConnId, message: string): (g': Gateway)
    ensures g'.db == g.db && g'.conns == g.conns && g'.prompts == g.prompts
    ensures g'.trace == g.trace + [Emit({c}, Error(message))]
  {
    g.(trace := g.trace + [Emit({c}, Error(message))])
  }

  /** `io.in(channel).emit(...)`: an event to every connection in the channel. */
  function Broadcast(g: Gateway, room: Id, e: Event): (g': Gateway)
    ensures g'.db == g.db && g'.conns == g.conns && g'.prompts == g.prompts
    ensures g'.trace == g.trace + [Emit(Members(g.conns, room), e)]
  {
    g.(trace := g.trace + [Emit(Members(g.conns, room), e)])
  }

  // ---------------------------------------------------------------------------
  // Connection

  /** What the client sends in the handshake: `auth.token` and the
      `Authorization` header, either possibly absent. */
  datatype Handshake = Handshake(authToken: Option<string>, authorization: Option<string>)

  /** The token `authenticateSocket` reads: `auth.token` when it is a non-empty
      string, else the header with its first `Bearer ` removed; an empty result
      counts as no token. */
  function HandshakeToken(h: Handshake): (t: Option<string>)
    ensures t.Some? ==> t.value != []
    ensures h.authToken.Some? && h.authToken.value != [] ==> t == h.authToken
    ensures t.None? ==> (h.authToken.None? || h.authToken.value == [])
    ensures (h.authToken.None? || h.authToken.value == []) && h.authorization.None? ==> t.None?
    ensures (h.authToken.None? || h.authToken.value == []) && h.authorization.Some? ==>
              var stripped := ReplaceFirst(h.authorization.value, "Bearer ", "");
              && (t.Some? <==> stripped != [])
              && (t.Some? ==> t.value == stripped)
  {
    if h.authToken.Some? && h.authToken.value != [] then h.authToken
    else match h.authorization
      case None => None
      case Some(header) =>
        var t := ReplaceFirst(header, "Bearer ", "");
        if t == [] then None else Some(t)
  }

  /** A bearer header gives back the token it carries. */
  lemma BearerHeaderRoundTrip(token: string)
    requires token != []
    ensures HandshakeToken(Handshake(None, Some("Bearer " + token))) == Some(token)
  {
    var header := "Bearer " + token;
    assert header[0..7] == "Bearer ";
    assert IndexOfFrom(header, "Bearer ", 0) == Some(0);
    assert header[..0] + "" + header[7..] == token;
    assert ReplaceFirst(header, "Bearer ", "") == token;
  }

  /** The result of the handshake: the user it authenticates, or the reason it is refused. */
  datatype AuthResult = Accepted(user: UserRef) | Refused(reason: string)

  /** `authenticateSocket`: no token, a token the verifier rejects, and a token for
      an unknown user are refused in that order. `verify` stands for `jwt.verify`
      followed by reading the payload's id. */
  function Authenticate(accounts: map<Id, Option<string>>, h: Handshake, verify: string -> Option<Id>): (r: AuthResult)
    ensures HandshakeToken(h).None? <==> r == Refused("Authentication required")
    ensures r.Accepted? <==>
              HandshakeToken(h).Some? && verify(HandshakeToken(h).value).Some?
              && verify(HandshakeToken(h).value).value in accounts
    ensures r.Accepted? ==>
              var id := verify(HandshakeToken(h).value).value;
              r.user == UserRef(id, accounts[id])
  {
    match HandshakeToken(h)
    case None => Refused("Authentication required")
    case Some(token) =>
      match verify(token)
      case None => Refused("Invalid token")
      case Some(id) =>
        if id in accounts then Accepted(UserRef(id, accounts[id])) else Refused("User not found")
  }

  /** A new connection: accepted handshakes open a connection in no channel. */
  function Connect(g: Gateway, c: ConnId, h: Handshake, verify: string -> Option<Id>): (g': Gateway)
    requires c !in g.conns
    ensures g'.db == g.db && g'.trace == g.trace && g'.prompts == g.prompts
    ensures Authenticate(g.accounts, h, verify).Refused? ==> g' == g
    ensures Authenticate(g.accounts, h, verify).Accepted? ==>
              g'.conns == g.conns[c := Conn(Authenticate(g.accounts, h, verify).user, {}, None, None)]
  {
    match Authenticate(g.accounts, h, verify)
    case Refused(_) => g
    case Accepted(user) => g.(conns := g.conns[c := Conn(user, {}, None, None)])
  }

  // ---------------------------------------------------------------------------
  // room:join

  /** Whether `room:join` for this id gets past its checks: an active membership,
      then an active room. */
  predicate MayJoin(g: Gateway, c: ConnId, room: Id)
    requires c in g.conns
  {
    ActiveMembership(g.db.memberships, room, g.conns[c].user.id).Some?
    && FindActiveRoom(g.db.rooms, room).Some?
  }

  /** `room:join`: a malformed id fails in the query ("Failed to join room"); then
      the active membership is checked, then that the room is active. */
  function Join(g: Gateway, c: ConnId, roomId: RawId): (g': Gateway)
    requires c in g.conns
    ensures g'.db == g.db && g'.prompts == g.prompts
    ensures roomId.Malformed? ==> g' == Fail(g, c, "Failed to join room")
    ensures roomId.ObjectId? && ActiveMembership(g.db.memberships, roomId.id, g.conns[c].user.id).None? ==>
              g' == Fail(g, c, "Access denied to this room")
    ensures roomId.ObjectId? && ActiveMembership(g.db.memberships, roomId.id, g.conns[c].user.id).Some?
            && FindActiveRoom(g.db.rooms, roomId.id).None? ==>
              g' == Fail(g, c, "Room not found")
    ensures roomId.ObjectId? && MayJoin(g, c, roomId.id) ==>
              g' == Enter(g, c, roomId.id, FindActiveRoom(g.db.rooms, roomId.id).value)
  {
    match roomId
    case Malformed => Fail(g, c, "Failed to join room")
    case ObjectId(r) =>
      if ActiveMembership(g.db.memberships, r, g.conns[c].user.id).None? then
        Fail(g, c, "Access denied to this room")
      else
        match FindActiveRoom(g.db.rooms, r)
        case None => Fail(g, c, "Room not found")
        case Some(room) => Enter(g, c, r, room)
  }

  /** A join that passed its checks: the connection leaves every channel and joins
      this one, receives the newest 50 messages oldest first, the others in the
      channel learn it joined, and everyone in it gets the new roster. The old
      channel is not told. */
  function Enter(g: Gateway, c: ConnId, r: Id, room: Room): (g': Gateway)
    requires c in g.conns
    ensures g'.db == g.db && g'.prompts == g.prompts
    ensures g'.conns == g.conns[c := g.conns[c].(channels := {r}, currentRoom := Some(r), currentRoomName := Some(room.name))]
    ensures g'.trace == g.trace + [
              Emit({c}, History(LatestRoomMessages(g.db.messages, r, HistorySize), room.name)),
              Emit(Members(g'.conns, r) - {c}, UserJoined(g.conns[c].user)),
              Emit(Members(g'.conns, r), OnlineUsers(Roster(g'.conns, r)))]
  {
    var conn := g.conns[c].(channels := {r}, currentRoom := Some(r), currentRoomName := Some(room.name));
    var conns := g.conns[c := conn];
    g.(conns := conns,
       trace := g.trace + [
         Emit({c}, History(LatestRoomMessages(g.db.messages, r, HistorySize), room.name)),
         Emit(Members(conns, r) - {c}, UserJoined(conn.user)),
         Emit(Members(conns, r), OnlineUsers(Roster(conns, r)))])
  }

  /** After a successful join the connection is in that channel and no other, it is
      on the roster everyone in the channel receives, and every other connection
      is as it was. */
  lemma JoinIsInOneRoom(g: Gateway, c: ConnId, r: Id)
    requires c in g.conns && MayJoin(g, c, r)
    ensures var g' := Join(g, c, ObjectId(r));
            && g'.conns[c].channels == {r}
            && c in Members(g'.conns, r)
            && g'.trace[|g'.trace| - 1] == Emit(Members(g'.conns, r), OnlineUsers(Roster(g'.conns, r)))
            && c in Roster(g'.conns, r) && Roster(g'.conns, r)[c] == g.conns[c].user
            && forall d :: d in g.conns && d != c ==> g'.conns[d] == g.conns[d]
  {
    EnterIsInOneRoom(g, c, r, FindActiveRoom(g.db.rooms, r).value);
    EnterKeepsOthers(g, c, r, FindActiveRoom(g.db.rooms, r).value);
  }

  lemma EnterIsInOneRoom(g: Gateway, c: ConnId, r: Id, room: Room)
    requires c in g.conns
    ensures var g' := Enter(g, c, r, room);
            && g'.conns[c].channels == {r}
            && c in Members(g'.conns, r)
            && g'.trace[|g'.trace| - 1] == Emit(Members(g'.conns, r), OnlineUsers(Roster(g'.conns, r)))
            && c in Roster(g'.conns, r) && Roster(g'.conns, r)[c] == g.conns[c].user
  {
    var g' := Enter(g, c, r, room);
    assert g'.conns[c].channels == {r};
    assert c in Members(g'.conns, r);
  }

  /** A join changes no other connection. */
  lemma EnterKeepsOthers(g: Gateway, c: ConnId, r: Id, room: Room)
    requires c in g.conns
    ensures var g' := Enter(g, c, r, room);
            forall d :: d in g.conns && d != c ==> g'.conns[d] == g.conns[d]
  {
  }

  /** The history a join replays is the page `GET /messages` returns with the
      default limit and no cursor. */
  lemma JoinHistoryIsFirstPage(msgs: seq<Message>, r: Id)
    ensures LatestRoomMessages(msgs, r, HistorySize)
            == MessageController.Page(MessageController.Matching(msgs, r, None), MessageController.PageSize(None))
  {
    MessageController.MatchingWithoutCursor(msgs, r);
  }

  /** With the log in creation order, a room's last `n` messages by position are its
      newest by `createdAt`: they are in creation order, and no earlier message of
      the room is newer than any of them. This is what `room:history` replays and
      what the model's context holds. */
  lemma LatestAreNewest(msgs: seq<Message>, r: Id, n: nat)
    requires CreationOrdered(msgs)
    ensures var all := RoomMessages(msgs, r);
            var latest := LatestRoomMessages(msgs, r, n);
            && CreationOrdered(latest)
            && forall i, m :: 0 <= i < |all| - |latest| && m in latest ==> all[i].createdAt <= m.createdAt
  {
    var all := RoomMessages(msgs, r);
    MessageController.MatchingWithoutCursor(msgs, r);
    MessageController.SuffixIsNewest(all, |all| - |LatestRoomMessages(msgs, r, n)|);
  }

  // ---------------------------------------------------------------------------
  // message:send

  /** The name a stored message is attributed to in the model's context:
      `m.sender?.username || "User"`. */
  function SenderName(accounts: map<Id, Option<string>>, m: Message): (name: string)
    ensures name != []
  {
    if m.sender.Some? && m.sender.value in accounts && accounts[m.sender.value].Some?
       && accounts[m.sender.value].value != []
    then accounts[m.sender.value].value
    else "User"
  }

  function ToHistory(accounts: map<Id, Option<string>>, msgs: seq<Message>): (h: seq<HistoryEntry>)
    ensures |h| == |msgs|
    ensures forall i :: 0 <= i < |msgs| ==>
              h[i] == HistoryEntry(msgs[i].mtype, msgs[i].content, SenderName(accounts, msgs[i]))
  {
    seq(|msgs|, i requires 0 <= i < |msgs| => HistoryEntry(msgs[i].mtype, msgs[i].content, SenderName(accounts, msgs[i])))
  }

  /** The room name the prompt uses: `roomDoc?.name || "Dev Room"`, whatever the room's activity. */
  function PromptRoomName(rooms: seq<Room>, r: Id): (name: string)
    ensures name != []
  {
    match FindRoom(rooms, r)
    case Some(room) => if room.name != [] then room.name else "Dev Room"
    case None => "Dev Room"
  }

  /** `Room.findByIdAndUpdate(roomId, { lastActiveAt })`: the first room with the id
      has its last activity set; every other field and room is kept. */
  function TouchRoom(rooms: seq<Room>, r: Id, now: int): (rooms': seq<Room>)
    ensures |rooms'| == |rooms|
    ensures forall i :: 0 <= i < |rooms| ==>
              rooms'[i] == rooms[i] || (rooms[i].id == r && rooms'[i] == rooms[i].(lastActiveAt := now))
  {
    match FindRoomIndex(rooms, r)
    case None => rooms
    case Some(k) => rooms[k := rooms[k].(lastActiveAt := now)]
  }

  function FindRoomIndex(rooms: seq<Room>, r: Id): (k: Option<nat>)
    ensures k.Some? ==> k.value < |rooms| && rooms[k.value].id == r
  {
    Seqs.FirstIndex(rooms, (x: Room) => x.id == r)
  }

  /** Storing and broadcasting the sender's message, then touching the room. */
  function PostUserMessage(g: Gateway, c: ConnId, r: Id, content: string, now: int): (g': Gateway)
    requires c in g.conns && ContentOk(content)
    ensures g'.conns == g.conns && g'.prompts == g.prompts
    ensures g'.db.messages == g.db.messages + [NewUserMessage(|g.db.messages|, r, g.conns[c].user.id, content, now)]
    ensures g'.db.memberships == g.db.memberships && g'.db.rooms == TouchRoom(g.db.rooms, r, now)
    ensures g'.trace == g.trace + [Emit(Members(g.conns, r), NewMessage(g'.db.messages[|g.db.messages|]))]
  {
    var m := NewUserMessage(|g.db.messages|, r, g.conns[c].user.id, content, now);
    var db := g.db.(messages := g.db.messages + [m], rooms := TouchRoom(g.db.rooms, r, now));
    g.(db := db, trace := g.trace + [Emit(Members(g.conns, r), NewMessage(m))])
  }

  /** The call a mention makes: the question, the room's name, and the room's
      last ten messages (the mention included) with their senders' names. */
  function PromptFor(g: Gateway, r: Id, query: string): (call: ModelCall)
    ensures call.query == query && call.roomName == PromptRoomName(g.db.rooms, r)
    ensures |call.history| <= ContextWindow
  {
    ModelCall(query, PromptRoomName(g.db.rooms, r),
              ToHistory(g.accounts, LatestRoomMessages(g.db.messages, r, ContextWindow)))
  }

  /** A mention stored at an instant no earlier than the log asks the model about
      the room's newest messages by `createdAt`, the mention last. */
  lemma PromptSeesNewest(g: Gateway, c: ConnId, r: Id, text: string, now: int, query: string)
    requires c in g.conns && ContentOk(text)
    requires CreationOrdered(g.db.messages) && StampedBy(g.db.messages, now)
    ensures var msgs := PostUserMessage(g, c, r, text, now).db.messages;
            var all := RoomMessages(msgs, r);
            var latest := LatestRoomMessages(msgs, r, ContextWindow);
            && PromptFor(PostUserMessage(g, c, r, text, now), r, query).history == ToHistory(g.accounts, latest)
            && latest != [] && latest[|latest| - 1] == msgs[|g.db.messages|]
            && CreationOrdered(latest)
            && forall i, m :: 0 <= i < |all| - |latest| && m in latest ==> all[i].createdAt <= m.createdAt
  {
    var msgs := PostUserMessage(g, c, r, text, now).db.messages;
    StampLater(g.db.messages, msgs[|g.db.messages|]);
    assert msgs == g.db.messages + [msgs[|g.db.messages|]];
    RoomMessagesAppend(g.db.messages, msgs[|g.db.messages|], r);
    LatestAreNewest(msgs, r, ContextWindow);
  }

  /** Storing the AI's reply: no sender, the mentioning user recorded, typing
      indicator off, then the reply itself. */
  function PostAiReply(g: Gateway, c: ConnId, r: Id, reply: string, replyAt: int): (g': Gateway)
    requires c in g.conns && ContentOk(reply)
    ensures g'.conns == g.conns && g'.prompts == g.prompts
    ensures g'.db == g.db.(messages := g.db.messages + [NewAiMessage(|g.db.messages|, r, g.conns[c].user.id, reply, replyAt)])
    ensures g'.trace == g.trace + [Emit(Members(g.conns, r), AiTyping(false)),
                                   Emit(Members(g.conns, r), NewMessage(g'.db.messages[|g.db.messages|]))]
  {
    var m := NewAiMessage(|g.db.messages|, r, g.conns[c].user.id, reply, replyAt);
    var g1 := g.(db := g.db.(messages := g.db.messages + [m]));
    Broadcast(Broadcast(g1, r, AiTyping(false)), r, NewMessage(m))
  }

  /** The reply the model's outcomes produce, as `getAIResponse` returns it. */
  function Reply(outcomes: seq<CallOutcome>): string
    requires |outcomes| >= MaxAttempts
  {
    FirstAnswer(outcomes, MaxAttempts)
  }

  /** The mention branch AS WRITTEN, given the call the handler makes and the reply
      it gets: typing on, prompt sent, reply stored. A reply the schema refuses
      (empty, or over 4000 characters) throws into the handler's catch, which
      reports an error to the sender only, so nobody is ever told the AI stopped
      typing. */
  function AnswerAsWritten(g: Gateway, c: ConnId, r: Id, call: ModelCall, reply: string, replyAt: int): (g': Gateway)
    requires c in g.conns
    ensures g'.conns == g.conns && g'.db.rooms == g.db.rooms && g'.db.memberships == g.db.memberships
    ensures g'.prompts == g.prompts + [call]
    ensures |g'.db.messages| >= |g.db.messages| && g'.db.messages[..|g.db.messages|] == g.db.messages
    ensures |g'.trace| >= |g.trace| + 2 && g'.trace[..|g.trace| + 1] == g.trace + [Emit(Members(g.conns, r), AiTyping(true))]
    ensures ContentOk(reply) ==>
              && g'.db.messages == g.db.messages + [NewAiMessage(|g.db.messages|, r, g.conns[c].user.id, reply, replyAt)]
              && g'.trace[|g.trace| + 1] == Emit(Members(g.conns, r), AiTyping(false))
    ensures !ContentOk(reply) ==>
              && g'.db == g.db
              && g'.trace == g.trace + [Emit(Members(g.conns, r), AiTyping(true)), Emit({c}, Error("Failed to send message"))]
  {
    var g1 := Broadcast(g, r, AiTyping(true));
    var g2 := g1.(prompts := g1.prompts + [call]);
    if ContentOk(reply) then PostAiReply(g2, c, r, reply, replyAt)
    else Fail(g2, c, "Failed to send message")
  }

  /** The mention branch with the typing indicator always switched off: a reply the
      schema refuses still clears the indicator before the error is reported. */
  function Answer(g: Gateway, c: ConnId, r: Id, call: ModelCall, reply: string, replyAt: int): (g': Gateway)
    requires c in g.conns
    ensures g'.conns == g.conns && g'.db.rooms == g.db.rooms && g'.db.memberships == g.db.memberships
    ensures g'.prompts == g.prompts + [call]
    ensures |g'.db.messages| >= |g.db.messages| && g'.db.messages[..|g.db.messages|] == g.db.messages
    ensures |g'.trace| == |g.trace| + 3 && g'.trace[..|g.trace|] == g.trace
    ensures g'.trace[..|g.trace| + 2] == g.trace + [Emit(Members(g.conns, r), AiTyping(true)),
                                                   Emit(Members(g.conns, r), AiTyping(false))]
    ensures ContentOk(reply) ==>
              && g'.db.messages == g.db.messages + [NewAiMessage(|g.db.messages|, r, g.conns[c].user.id, reply, replyAt)]
              && g'.trace[|g.trace| + 2] == Emit(Members(g.conns, r), NewMessage(g'.db.messages[|g.db.messages|]))
    ensures !ContentOk(reply) ==>
              && g'.db == g.db
              && g'.trace == g.trace + [Emit(Members(g.conns, r), AiTyping(true)),
                                        Emit(Members(g.conns, r), AiTyping(false)),
                                        Emit({c}, Error("Failed to send message"))]
  {
    var g1 := Broadcast(g, r, AiTyping(true));
    var g2 := g1.(prompts := g1.prompts + [call]);
    if ContentOk(reply) then PostAiReply(g2, c, r, reply, replyAt)
    else Fail(Broadcast(g2, r, AiTyping(false)), c, "Failed to send message")
  }

  /** The checks of `message:send` before anything is stored, in order: blank
      content is ignored, a malformed id fails in the query, a sender without an
      active membership is refused, and content the schema refuses (over 4000
      characters once trimmed) fails on save. */
  datatype SendCheck = Ignored | Rejected(message: string) | Cleared(room: Id, content: string)

  function CheckSend(g: Gateway, c: ConnId, roomId: RawId, content: string): (k: SendCheck)
    requires c in g.conns
    ensures k == Ignored <==> AllSpace(content)
    ensures k.Cleared? <==>
              && !AllSpace(content) && roomId.ObjectId?
              && ActiveMembership(g.db.memberships, roomId.id, g.conns[c].user.id).Some?
              && |Trim(content)| <= MessageContentMaxLength
    ensures k.Cleared? ==> k.room == roomId.id && k.content == Trim(content) && ContentOk(k.content)
    ensures k == Rejected("Access denied") <==>
              !AllSpace(content) && roomId.ObjectId?
              && ActiveMembership(g.db.memberships, roomId.id, g.conns[c].user.id).None?
  {
    if content == [] || Trim(content) == [] then Ignored
    else match roomId
      case Malformed => Rejected("Failed to send message")
      case ObjectId(r) =>
        if ActiveMembership(g.db.memberships, r, g.conns[c].user.id).None? then Rejected("Access denied")
        else if |Trim(content)| > MessageContentMaxLength then Rejected("Failed to send message")
        else Cleared(r, Trim(content))
  }

  /** A cleared message AS WRITTEN: stored and broadcast, then answered when it
      mentions the AI with the question `mention`. */
  function DeliverAsWritten(g: Gateway, c: ConnId, r: Id, text: string, mention: Option<string>,
                            outcomes: seq<CallOutcome>, now: int, replyAt: int): (g': Gateway)
    requires c in g.conns && ContentOk(text) && |outcomes| >= MaxAttempts
    ensures mention.None? ==> g' == PostUserMessage(g, c, r, text, now)
    ensures mention.Some? ==>
              var g1 := PostUserMessage(g, c, r, text, now);
              g' == AnswerAsWritten(g1, c, r, PromptFor(g1, r, mention.value), Reply(outcomes), replyAt)
  {
    var g1 := PostUserMessage(g, c, r, text, now);
    match mention
    case None => g1
    case Some(query) => AnswerAsWritten(g1, c, r, PromptFor(g1, r, query), Reply(outcomes), replyAt)
  }

  /** `message:send` AS WRITTEN: blank content is ignored, a refused message
      reports an error to the sender alone, and a cleared one is stored and
      broadcast before anything else happens. */
  function SendAsWritten(g: Gateway, c: ConnId, roomId: RawId, content: string, outcomes: seq<CallOutcome>, now: int, replyAt: int): (g': Gateway)
    requires c in g.conns && |outcomes| >= MaxAttempts
    ensures g'.conns == g.conns
    ensures CheckSend(g, c, roomId, content) == Ignored ==> g' == g
    ensures CheckSend(g, c, roomId, content).Rejected? ==> g' == Fail(g, c, CheckSend(g, c, roomId, content).message)
    ensures CheckSend(g, c, roomId, content).Cleared? ==>
              && |g'.db.messages| > |g.db.messages| && |g'.trace| > |g.trace|
              && g'.db.messages[|g.db.messages|] == NewUserMessage(|g.db.messages|, roomId.id, g.conns[c].user.id, Trim(content), now)
              && g'.trace[|g.trace|] == Emit(Members(g.conns, roomId.id), NewMessage(g'.db.messages[|g.db.messages|]))
    ensures CheckSend(g, c, roomId, content).Cleared? ==>
              g' == DeliverAsWritten(g, c, roomId.id, Trim(content), TriggerQuery(Trim(content)), outcomes, now, replyAt)
  {
    match CheckSend(g, c, roomId, content)
    case Ignored => g
    case Rejected(message) => Fail(g, c, message)
    case Cleared(r, text) =>
      DeliverAsWrittenPostsFirst(g, c, r, text, TriggerQuery(text), outcomes, now, replyAt);
      DeliverAsWritten(g, c, r, text, TriggerQuery(text), outcomes, now, replyAt)
  }

  /** As written too, whatever follows, the sender's message is stored and
      broadcast first, after everything stored and emitted before. */
  lemma DeliverAsWrittenPostsFirst(g: Gateway, c: ConnId, r: Id, text: string, mention: Option<string>,
                                   outcomes: seq<CallOutcome>, now: int, replyAt: int)
    requires c in g.conns && ContentOk(text) && |outcomes| >= MaxAttempts
    ensures var g' := DeliverAsWritten(g, c, r, text, mention, outcomes, now, replyAt);
            && g'.conns == g.conns
            && |g'.db.messages| > |g.db.messages| && g'.db.messages[..|g.db.messages|] == g.db.messages
            && g'.db.messages[|g.db.messages|] == NewUserMessage(|g.db.messages|, r, g.conns[c].user.id, text, now)
            && |g'.trace| > |g.trace| && g'.trace[..|g.trace|] == g.trace
            && g'.trace[|g.trace|] == Emit(Members(g.conns, r), NewMessage(g'.db.messages[|g.db.messages|]))
  {
    var g1 := PostUserMessage(g, c, r, text, now);
    if mention.Some? {
      var g' := AnswerAsWritten(g1, c, r, PromptFor(g1, r, mention.value), Reply(outcomes), replyAt);
      PrefixThrough(g'.db.messages, g1.db.messages, |g.db.messages|);
      PrefixThrough(g'.trace, g'.trace[..|g1.trace| + 1], |g.trace|);
      assert g1.trace[..|g.trace|] == g.trace;
    }
  }

  /** A cleared message: stored and broadcast, then, when it mentions the AI with the
      question `mention`, answered with the typing indicator always cleared. */
  function Deliver(g: Gateway, c: ConnId, r: Id, text: string, mention: Option<string>,
                   outcomes: seq<CallOutcome>, now: int, replyAt: int): (g': Gateway)
    requires c in g.conns && ContentOk(text) && |outcomes| >= MaxAttempts
    ensures mention.None? ==> g' == PostUserMessage(g, c, r, text, now)
    ensures mention.Some? ==>
              var g1 := PostUserMessage(g, c, r, text, now);
              g' == Answer(g1, c, r, PromptFor(g1, r, mention.value), Reply(outcomes), replyAt)
  {
    var g1 := PostUserMessage(g, c, r, text, now);
    match mention
    case None => g1
    case Some(query) => Answer(g1, c, r, PromptFor(g1, r, query), Reply(outcomes), replyAt)
  }

  /** Whatever follows, the sender's message is stored first, after everything
      stored before, and no membership or connection changes. */
  lemma DeliverStoresFirst(g: Gateway, c: ConnId, r: Id, text: string, mention: Option<string>,
                           outcomes: seq<CallOutcome>, now: int, replyAt: int)
    requires c in g.conns && ContentOk(text) && |outcomes| >= MaxAttempts
    ensures var g' := Deliver(g, c, r, text, mention, outcomes, now, replyAt);
            && g'.conns == g.conns && g'.db.memberships == g.db.memberships
            && |g'.db.messages| > |g.db.messages| && g'.db.messages[..|g.db.messages|] == g.db.messages
            && g'.db.messages[|g.db.messages|] == NewUserMessage(|g.db.messages|, r, g.conns[c].user.id, text, now)
  {
    var g1 := PostUserMessage(g, c, r, text, now);
    if mention.Some? {
      var g' := Answer(g1, c, r, PromptFor(g1, r, mention.value), Reply(outcomes), replyAt);
      PrefixThrough(g'.db.messages, g1.db.messages, |g.db.messages|);
    }
  }

  /** Whatever follows, the sender's message is broadcast first, after everything
      emitted before. */
  lemma DeliverBroadcastsFirst(g: Gateway, c: ConnId, r: Id, text: string, mention: Option<string>,
                               outcomes: seq<CallOutcome>, now: int, replyAt: int)
    requires c in g.conns && ContentOk(text) && |outcomes| >= MaxAttempts
    ensures var g' := Deliver(g, c, r, text, mention, outcomes, now, replyAt);
            && |g'.db.messages| > |g.db.messages| && |g'.trace| > |g.trace| && g'.trace[..|g.trace|] == g.trace
            && g'.trace[|g.trace|] == Emit(Members(g.conns, r), NewMessage(g'.db.messages[|g.db.messages|]))
  {
    var g1 := PostUserMessage(g, c, r, text, now);
    if mention.Some? {
      var g' := Answer(g1, c, r, PromptFor(g1, r, mention.value), Reply(outcomes), replyAt);
      PrefixThrough(g'.db.messages, g1.db.messages, |g.db.messages|);
      PrefixThrough(g'.trace, g1.trace, |g.trace|);
    }
  }

  /** A sequence that starts with `u` agrees with `u` up to any point within it. */
  lemma PrefixThrough<T>(t: seq<T>, u: seq<T>, k: nat)
    requires k <= |u| <= |t| && t[..|u|] == u
    ensures t[..k] == u[..k]
    ensures k < |u| ==> t[k] == u[k]
  {
    assert t[..k] == t[..|u|][..k];
  }

  /** `message:send`, with the typing indicator always cleared. The model is asked
      only when the trimmed message is a mention. */
  function Send(g: Gateway, c: ConnId, roomId: RawId, content: string, outcomes: seq<CallOutcome>, now: int, replyAt: int): (g': Gateway)
    requires c in g.conns && |outcomes| >= MaxAttempts
    ensures g'.conns == g.conns
    ensures CheckSend(g, c, roomId, content) == Ignored ==> g' == g
    ensures CheckSend(g, c, roomId, content).Rejected? ==> g' == Fail(g, c, CheckSend(g, c, roomId, content).message)
    ensures CheckSend(g, c, roomId, content).Cleared? ==>
              && |g'.db.messages| > |g.db.messages| && |g'.trace| > |g.trace|
              && g'.db.messages[|g.db.messages|] == NewUserMessage(|g.db.messages|, roomId.id, g.conns[c].user.id, Trim(content), now)
              && g'.trace[|g.trace|] == Emit(Members(g.conns, roomId.id), NewMessage(g'.db.messages[|g.db.messages|]))
    ensures CheckSend(g, c, roomId, content).Cleared? ==>
              g' == Deliver(g, c, roomId.id, Trim(content), TriggerQuery(Trim(content)), outcomes, now, replyAt)
  {
    match CheckSend(g, c, roomId, content)
    case Ignored => g
    case Rejected(message) => Fail(g, c, message)
    case Cleared(r, text) =>
      DeliverStoresFirst(g, c, r, text, TriggerQuery(text), outcomes, now, replyAt);
      DeliverBroadcastsFirst(g, c, r, text, TriggerQuery(text), outcomes, now, replyAt);
      Deliver(g, c, r, text, TriggerQuery(text), outcomes, now, replyAt)
  }

  /** Blank content is a no-op: nothing stored, nothing emitted. */
  lemma BlankMessageIsIgnored(g: Gateway, c: ConnId, roomId: RawId, content: string, outcomes: seq<CallOutcome>, now: int, replyAt: int)
    requires c in g.conns && |outcomes| >= MaxAttempts
    requires AllSpace(content)
    ensures Send(g, c, roomId, content, outcomes, now, replyAt) == g
  {
  }

  /** Without an active membership the sender alone gets an error and nothing is stored. */
  lemma SendWithoutMembership(g: Gateway, c: ConnId, r: Id, content: string, outcomes: seq<CallOutcome>, now: int, replyAt: int)
    requires c in g.conns && |outcomes| >= MaxAttempts
    requires !AllSpace(content) && ActiveMembership(g.db.memberships, r, g.conns[c].user.id).None?
    ensures var g' := Send(g, c, ObjectId(r), content, outcomes, now, replyAt);
            g'.db == g.db && g'.trace == g.trace + [Emit({c}, Error("Access denied"))]
  {
  }

  /** A message that is not a mention is stored trimmed and broadcast, and that is all. */
  lemma PlainMessage(g: Gateway, c: ConnId, r: Id, content: string, outcomes: seq<CallOutcome>, now: int, replyAt: int)
    requires c in g.conns && |outcomes| >= MaxAttempts
    requires CheckSend(g, c, ObjectId(r), content).Cleared?
    requires TriggerQuery(Trim(content)).None?
    ensures var g' := Send(g, c, ObjectId(r), content, outcomes, now, replyAt);
            && g'.db.messages == g.db.messages + [NewUserMessage(|g.db.messages|, r, g.conns[c].user.id, Trim(content), now)]
            && g'.trace == g.trace + [Emit(Members(g.conns, r), NewMessage(g'.db.messages[|g.db.messages|]))]
            && g'.prompts == g.prompts
  {
  }

  /** A mention with a reply the schema accepts: the room sees the sender's message,
      then the AI typing, then the AI no longer typing, then the AI's message, which
      has no sender and names the mentioning user. The prompt sent asks the
      mention's question. */
  lemma MentionEventOrder(g: Gateway, c: ConnId, r: Id, content: string, outcomes: seq<CallOutcome>, now: int, replyAt: int)
    requires c in g.conns && |outcomes| >= MaxAttempts
    requires CheckSend(g, c, ObjectId(r), content).Cleared?
    requires TriggerQuery(Trim(content)).Some? && ContentOk(Reply(outcomes))
    ensures var g' := Send(g, c, ObjectId(r), content, outcomes, now, replyAt);
            var n := |g.db.messages|;
            var to := Members(g.conns, r);
            && |g'.db.messages| == n + 2
            && g'.trace == g.trace + [Emit(to, NewMessage(g'.db.messages[n])), Emit(to, AiTyping(true)),
                                      Emit(to, AiTyping(false)), Emit(to, NewMessage(g'.db.messages[n + 1]))]
            && g'.db.messages[n + 1].mtype == AiMessage && g'.db.messages[n + 1].sender.None?
            && g'.db.messages[n + 1].aiTriggeredBy == Some(g.conns[c].user.id)
            && g'.db.messages[n + 1].content == Reply(outcomes)
            && |g'.prompts| == |g.prompts| + 1
            && g'.prompts[|g.prompts|].query == TriggerQuery(Trim(content)).value
            && EndsWith(Prompt(g'.prompts[|g.prompts|]), QuestionHeading + TriggerQuery(Trim(content)).value)
  {
    var query := TriggerQuery(Trim(content)).value;
    var g1 := PostUserMessage(g, c, r, Trim(content), now);
    MentionDelivery(g, c, r, Trim(content), PromptFor(g1, r, query), Reply(outcomes), now, replyAt);
    BuildPromptEnds(PromptFor(g1, r, query));
  }

  /** The question the model is asked ends every prompt. */
  lemma BuildPromptEnds(call: ModelCall)
    ensures EndsWith(Prompt(call), QuestionHeading + call.query)
  {
  }

  /** A delivered mention whose reply the schema accepts emits, in order, the
      message, typing on, typing off and the reply, and asks the model once. */
  lemma MentionDelivery(g: Gateway, c: ConnId, r: Id, text: string, call: ModelCall, reply: string, now: int, replyAt: int)
    requires c in g.conns && ContentOk(text) && ContentOk(reply)
    ensures var g' := Answer(PostUserMessage(g, c, r, text, now), c, r, call, reply, replyAt);
            var n := |g.db.messages|;
            var to := Members(g.conns, r);
            && |g'.db.messages| == n + 2
            && g'.trace == g.trace + [Emit(to, NewMessage(g'.db.messages[n])), Emit(to, AiTyping(true)),
                                      Emit(to, AiTyping(false)), Emit(to, NewMessage(g'.db.messages[n + 1]))]
            && g'.db.messages[n + 1] == NewAiMessage(n + 1, r, g.conns[c].user.id, reply, replyAt)
            && g'.prompts == g.prompts + [call]
  {
    var g1 := PostUserMessage(g, c, r, text, now);
    var g' := Answer(g1, c, r, call, reply, replyAt);
    assert g'.trace[..|g1.trace| + 2] == g1.trace + [Emit(Members(g.conns, r), AiTyping(true)),
                                                    Emit(Members(g.conns, r), AiTyping(false))];
    assert g'.trace == g'.trace[..|g1.trace| + 2] + [g'.trace[|g1.trace| + 2]];
  }

  /** The reply is stored after the model answers, so strictly after the mention:
      reading the history back from the reply (`before` = the reply's id) ends with
      the mention. */
  lemma ReplyCursorFindsMention(g: Gateway, c: ConnId, r: Id, text: string, call: ModelCall, reply: string,
                                now: int, replyAt: int, limit: Option<nat>)
    requires c in g.conns && ContentOk(text) && ContentOk(reply) && now < replyAt
    requires MessagesValid(g.db.messages)
    requires ActiveMembership(g.db.memberships, r, g.conns[c].user.id).Some?
    ensures MessageController.EndsWith200(
              MessageController.GetMessages(MentionAnswered(g, c, r, text, call, reply, now, replyAt).db,
                                            g.conns[c].user.id, ObjectId(r), Some(ObjectId(|g.db.messages| + 1)), limit),
              NewUserMessage(|g.db.messages|, r, g.conns[c].user.id, text, now))
  {
    var n := |g.db.messages|;
    var u := NewUserMessage(n, r, g.conns[c].user.id, text, now);
    var ai := NewAiMessage(n + 1, r, g.conns[c].user.id, reply, replyAt);
    var db' := MentionThenReply(g, c, r, text, call, reply, now, replyAt);
    MessageController.ReplyPageEndsWithMention(db', g.conns[c].user.id, g.db.messages, u, ai, r, limit);
  }

  /** A mention stored at `now` and answered, by the fixed branch, at `replyAt`. */
  function MentionAnswered(g: Gateway, c: ConnId, r: Id, text: string, call: ModelCall, reply: string,
                           now: int, replyAt: int): Gateway
    requires c in g.conns && ContentOk(text)
  {
    Answer(PostUserMessage(g, c, r, text, now), c, r, call, reply, replyAt)
  }

  /** A mention with an accepted reply stores exactly the mention and then the reply,
      and leaves the memberships alone. */
  lemma MentionThenReply(g: Gateway, c: ConnId, r: Id, text: string, call: ModelCall, reply: string,
                         now: int, replyAt: int) returns (db': Db)
    requires c in g.conns && ContentOk(text) && ContentOk(reply)
    ensures db' == MentionAnswered(g, c, r, text, call, reply, now, replyAt).db
    ensures db'.memberships == g.db.memberships
    ensures db'.messages == g.db.messages + [NewUserMessage(|g.db.messages|, r, g.conns[c].user.id, text, now),
                                             NewAiMessage(|g.db.messages| + 1, r, g.conns[c].user.id, reply, replyAt)]
  {
    var g1 := PostUserMessage(g, c, r, text, now);
    db' := Answer(g1, c, r, call, reply, replyAt).db;
    assert g1.db.messages == g.db.messages + [NewUserMessage(|g.db.messages|, r, g.conns[c].user.id, text, now)];
  }

  /** Every `ai:typing` on in what one send emits is followed by an `ai:typing` off. */
  predicate TypingCleared(t: seq<Emit>) {
    forall i :: 0 <= i < |t| && t[i].event == AiTyping(true) ==>
      exists j :: i < j < |t| && t[j].event == AiTyping(false)
  }

  /** With the fix, a send never leaves the AI typing indicator on. */
  lemma SendClearsTyping(g: Gateway, c: ConnId, roomId: RawId, content: string, outcomes: seq<CallOutcome>, now: int, replyAt: int)
    requires c in g.conns && |outcomes| >= MaxAttempts
    ensures var g' := Send(g, c, roomId, content, outcomes, now, replyAt);
            |g'.trace| >= |g.trace| && TypingCleared(g'.trace[|g.trace|..])
  {
    var k := CheckSend(g, c, roomId, content);
    if k.Cleared? {
      DeliverClearsTyping(g, c, k.room, k.content, TriggerQuery(k.content), outcomes, now, replyAt);
    } else {
      var g' := Send(g, c, roomId, content, outcomes, now, replyAt);
      assert forall i :: |g.trace| <= i < |g'.trace| ==> g'.trace[i].event.Error?;
    }
  }

  /** A delivered message, mention or not, leaves no typing indicator on. */
  lemma DeliverClearsTyping(g: Gateway, c: ConnId, r: Id, text: string, mention: Option<string>,
                            outcomes: seq<CallOutcome>, now: int, replyAt: int)
    requires c in g.conns && ContentOk(text) && |outcomes| >= MaxAttempts
    ensures var g' := Deliver(g, c, r, text, mention, outcomes, now, replyAt);
            |g'.trace| >= |g.trace| && TypingCleared(g'.trace[|g.trace|..])
  {
    if mention.Some? {
      var g1 := PostUserMessage(g, c, r, text, now);
      MentionClearsTyping(g, c, r, text, PromptFor(g1, r, mention.value), Reply(outcomes), now, replyAt);
    } else {
      var g' := Deliver(g, c, r, text, mention, outcomes, now, replyAt);
      assert g'.trace[|g.trace|..] == [Emit(Members(g.conns, r), NewMessage(g'.db.messages[|g.db.messages|]))];
    }
  }

  /** A delivered mention emits typing on once, directly followed by typing off. */
  lemma MentionClearsTyping(g: Gateway, c: ConnId, r: Id, text: string, call: ModelCall, reply: string, now: int, replyAt: int)
    requires c in g.conns && ContentOk(text)
    ensures var g' := Answer(PostUserMessage(g, c, r, text, now), c, r, call, reply, replyAt);
            |g'.trace| >= |g.trace| && TypingCleared(g'.trace[|g.trace|..])
  {
    var g1 := PostUserMessage(g, c, r, text, now);
    var g' := Answer(g1, c, r, call, reply, replyAt);
    var n := |g.trace|;
    AnswerTypingShape(g1, c, r, call, reply, replyAt);
    assert g1.trace[n].event.NewMessage?;
    assert g'.trace[n] == g'.trace[..|g1.trace| + 2][n];
    OffFollowsOn(g'.trace, n, n + 1);
  }

  /** A trace whose one typing-on after `n`, at `k`, is directly followed by a
      typing-off leaves no indicator on from `n` on. */
  lemma OffFollowsOn(t: seq<Emit>, n: nat, k: nat)
    requires n <= k && k + 1 < |t| && t[k + 1].event == AiTyping(false)
    requires forall i :: n <= i < |t| && i != k ==> t[i].event != AiTyping(true)
    ensures TypingCleared(t[n..])
  {
    var u := t[n..];
    forall i | 0 <= i < |u| && u[i].event == AiTyping(true)
      ensures exists j :: i < j < |u| && u[j].event == AiTyping(false)
    {
      assert u[i] == t[n + i];
      assert u[k + 1 - n] == t[k + 1];
    }
  }

  /** The fixed mention branch emits typing on, then typing off, and never typing on again. */
  lemma AnswerTypingShape(g: Gateway, c: ConnId, r: Id, call: ModelCall, reply: string, replyAt: int)
    requires c in g.conns
    ensures var g' := Answer(g, c, r, call, reply, replyAt);
            && |g'.trace| >= |g.trace| + 2
            && g'.trace[|g.trace|].event == AiTyping(true) && g'.trace[|g.trace| + 1].event == AiTyping(false)
            && forall i :: |g.trace| < i < |g'.trace| ==> g'.trace[i].event != AiTyping(true)
  {
    var g' := Answer(g, c, r, call, reply, replyAt);
    assert g'.trace[..|g.trace| + 2] == g.trace + [Emit(Members(g.conns, r), AiTyping(true)),
                                                  Emit(Members(g.conns, r), AiTyping(false))];
    assert g'.trace[|g.trace|] == g'.trace[..|g.trace| + 2][|g.trace|];
    assert g'.trace[|g.trace| + 1] == g'.trace[..|g.trace| + 2][|g.trace| + 1];
  }

  /** As written, a mention whose reply is over 4000 characters leaves the indicator
      on: the last two emissions are typing-on to the room and an error to the
      sender, and nothing switches it off. */
  lemma LongReplyLeavesTypingOn(g: Gateway, c: ConnId, r: Id, content: string, outcomes: seq<CallOutcome>, now: int, replyAt: int)
    requires c in g.conns && |outcomes| >= MaxAttempts
    requires CheckSend(g, c, ObjectId(r), content).Cleared?
    requires TriggerQuery(Trim(content)).Some?
    requires |Reply(outcomes)| > MessageContentMaxLength
    ensures var g' := SendAsWritten(g, c, ObjectId(r), content, outcomes, now, replyAt);
            && |g'.trace| == |g.trace| + 3
            && g'.trace[|g.trace| + 1] == Emit(Members(g.conns, r), AiTyping(true))
            && g'.trace[|g.trace| + 2] == Emit({c}, Error("Failed to send message"))
            && !TypingCleared(g'.trace[|g.trace|..])
  {
    var g1 := PostUserMessage(g, c, r, Trim(content), now);
    var call := PromptFor(g1, r, TriggerQuery(Trim(content)).value);
    RefusedReplyLeavesTypingOn(g, c, r, Trim(content), call, Reply(outcomes), now, replyAt);
  }

  /** As written, a delivered mention whose reply the schema refuses ends with
      typing on and an error to the sender. */
  lemma RefusedReplyLeavesTypingOn(g: Gateway, c: ConnId, r: Id, text: string, call: ModelCall, reply: string, now: int, replyAt: int)
    requires c in g.conns && ContentOk(text) && !ContentOk(reply)
    ensures var g' := AnswerAsWritten(PostUserMessage(g, c, r, text, now), c, r, call, reply, replyAt);
            && |g'.trace| == |g.trace| + 3
            && g'.trace[|g.trace| + 1] == Emit(Members(g.conns, r), AiTyping(true))
            && g'.trace[|g.trace| + 2] == Emit({c}, Error("Failed to send message"))
            && !TypingCleared(g'.trace[|g.trace|..])
  {
    var g' := AnswerAsWritten(PostUserMessage(g, c, r, text, now), c, r, call, reply, replyAt);
    var t := g'.trace[|g.trace|..];
    assert t[1].event == AiTyping(true);
    assert t[2].event != AiTyping(false);
  }

  /** A model reply of 4001 characters is such a reply. */
  lemma LongReplyExample()
    ensures var long := seq(MessageContentMaxLength + 1, _ => 'x');
            |Reply([Answered(long), Failed(""), Failed("")])| > MessageContentMaxLength
  {
  }

  // ---------------------------------------------------------------------------
  // typing:start, typing:stop, room:leave, disconnect

  /** `typing:start` / `typing:stop`: the others in the named channel learn the
      sender's typing state. No membership is checked. */
  function Typing(g: Gateway, c: ConnId, roomId: RawId, isTyping: bool): (g': Gateway)
    requires c in g.conns
    ensures g'.db == g.db && g'.conns == g.conns && g'.prompts == g.prompts
    ensures |g'.trace| == |g.trace| + 1 && g'.trace[..|g.trace|] == g.trace
    ensures g'.trace[|g.trace|].event == TypingUpdate(g.conns[c].user, isTyping)
    ensures forall d :: d in g'.trace[|g.trace|].to <==>
              d in g.conns && d != c && roomId.ObjectId? && roomId.id in g.conns[d].channels
  {
    g.(trace := g.trace + [Emit(RawMembers(g.conns, roomId) - {c}, TypingUpdate(g.conns[c].user, isTyping))])
  }

  /** `room:leave`: the connection leaves the named channel and forgets its current
      room (even when it named another room); the channel's others learn it left and
      receive the roster without it. */
  function Leave(g: Gateway, c: ConnId, roomId: RawId): (g': Gateway)
    requires c in g.conns
    ensures g'.db == g.db && g'.prompts == g.prompts && g'.conns.Keys == g.conns.Keys
    ensures g'.conns[c].currentRoom.None? && g'.conns[c].user == g.conns[c].user
    ensures roomId.ObjectId? ==> g'.conns[c].channels == g.conns[c].channels - {roomId.id}
    ensures roomId.Malformed? ==> g'.conns[c].channels == g.conns[c].channels
    ensures forall d :: d in g.conns && d != c ==> g'.conns[d] == g.conns[d]
    ensures c !in RawMembers(g'.conns, roomId)
    ensures g'.trace == g.trace + [Emit(RawMembers(g'.conns, roomId) - {c}, UserLeft(g.conns[c].user)),
                                   Emit(RawMembers(g'.conns, roomId), OnlineUsers(RawRoster(g'.conns, roomId)))]
  {
    var channels := match roomId
      case Malformed => g.conns[c].channels
      case ObjectId(r) => g.conns[c].channels - {r};
    var conns := g.conns[c := g.conns[c].(channels := channels, currentRoom := None)];
    g.(conns := conns,
       trace := g.trace + [Emit(RawMembers(conns, roomId) - {c}, UserLeft(g.conns[c].user)),
                           Emit(RawMembers(conns, roomId), OnlineUsers(RawRoster(conns, roomId)))])
  }

  /** `disconnect`: the connection is gone (Socket.IO removes it from its channels
      before the handler runs); if it had a current room, that room's channel learns
      it left and gets the roster. */
  function Disconnect(g: Gateway, c: ConnId): (g': Gateway)
    requires c in g.conns
    ensures g'.db == g.db && g'.prompts == g.prompts && g'.conns == g.conns - {c}
    ensures g.conns[c].currentRoom.None? ==> g'.trace == g.trace
    ensures g.conns[c].currentRoom.Some? ==>
              var r := g.conns[c].currentRoom.value;
              g'.trace == g.trace + [Emit(Members(g'.conns, r), UserLeft(g.conns[c].user)),
                                     Emit(Members(g'.conns, r), OnlineUsers(Roster(g'.conns, r)))]
  {
    var conns := g.conns - {c};
    match g.conns[c].currentRoom
    case None => g.(conns := conns)
    case Some(r) =>
      g.(conns := conns,
         trace := g.trace + [Emit(Members(conns, r), UserLeft(g.conns[c].user)),
                             Emit(Members(conns, r), OnlineUsers(Roster(conns, r)))])
  }

  /** Leaving a room and then disconnecting tells nobody a second time: the current
      room is already forgotten. */
  lemma LeaveThenDisconnectIsSilent(g: Gateway, c: ConnId, roomId: RawId)
    requires c in g.conns
    ensures var g1 := Leave(g, c, roomId);
            Disconnect(g1, c).trace == g1.trace
  {
  }

  // ---------------------------------------------------------------------------
  // The machine

  datatype Action =
    | Open(c: ConnId, h: Handshake)
    | JoinRoom(c: ConnId, roomId: RawId)
    | SendMessage(c: ConnId, roomId: RawId, content: string, outcomes: seq<CallOutcome>, now: int, replyAt: int)
    | SetTyping(c: ConnId, roomId: RawId, isTyping: bool)
    | LeaveChannel(c: ConnId, roomId: RawId)
    | Close(c: ConnId)

  /** Whether an action can arrive in this state: events come only from open
      connections, and a new connection has a fresh id. The clock never goes back:
      a message is stored no earlier than every stored message, and the AI's reply,
      stored only after the model has answered, strictly later than the mention. */
  predicate Enabled(g: Gateway, a: Action) {
    match a
    case Open(c, _) => c !in g.conns
    case SendMessage(c, _, _, outcomes, now, replyAt) =>
      c in g.conns && |outcomes| >= MaxAttempts && StampedBy(g.db.messages, now) && now < replyAt
    case _ => a.c in g.conns
  }

  /** One event, handled as the source is written: `message:send` goes through
      `SendAsWritten`, so a refused model reply leaves the typing indicator on. */
  function Step(g: Gateway, a: Action, verify: string -> Option<Id>): Gateway
    requires Enabled(g, a)
  {
    match a
    case Open(c, h) => Connect(g, c, h, verify)
    case JoinRoom(c, roomId) => Join(g, c, roomId)
    case SendMessage(c, roomId, content, outcomes, now, replyAt) => SendAsWritten(g, c, roomId, content, outcomes, now, replyAt)
    case SetTyping(c, roomId, isTyping) => Typing(g, c, roomId, isTyping)
    case LeaveChannel(c, roomId) => Leave(g, c, roomId)
    case Close(c) => Disconnect(g, c)
  }

  predicate AtMostOne(s: set<Id>) {
    forall a, b :: a in s && b in s ==> a == b
  }

  /** One room per connection, and a current room is the connection's one channel. */
  predicate ConnsOk(conns: map<ConnId, Conn>) {
    forall c :: c in conns ==>
      && AtMostOne(conns[c].channels)
      && (conns[c].currentRoom.Some? ==> conns[c].channels == {conns[c].currentRoom.value})
  }

  /** What every state of the gateway satisfies: the log is valid and in creation
      order, so the newest messages by `createdAt` are the last ones in the log. */
  predicate Inv(g: Gateway) {
    DbValid(g.db) && CreationOrdered(g.db.messages) && ConnsOk(g.conns)
  }

  /** A stored message keeps the log valid: ids are positions and contents fit the schema. */
  lemma PostUserMessageKeepsDbValid(g: Gateway, c: ConnId, r: Id, content: string, now: int)
    requires c in g.conns && ContentOk(content) && DbValid(g.db)
    ensures DbValid(PostUserMessage(g, c, r, content, now).db)
  {
    var rooms' := TouchRoom(g.db.rooms, r, now);
    assert forall i :: 0 <= i < |rooms'| ==>
             rooms'[i].id == g.db.rooms[i].id && rooms'[i].code == g.db.rooms[i].code
             && rooms'[i].name == g.db.rooms[i].name;
  }

  lemma SendKeepsDbValid(g: Gateway, c: ConnId, roomId: RawId, content: string, outcomes: seq<CallOutcome>, now: int, replyAt: int)
    requires c in g.conns && |outcomes| >= MaxAttempts && DbValid(g.db)
    ensures DbValid(Send(g, c, roomId, content, outcomes, now, replyAt).db)
  {
    var k := CheckSend(g, c, roomId, content);
    if k.Cleared? {
      DeliverKeepsDbValid(g, c, k.room, k.content, TriggerQuery(k.content), outcomes, now, replyAt);
    }
  }

  lemma DeliverKeepsDbValid(g: Gateway, c: ConnId, r: Id, text: string, mention: Option<string>,
                            outcomes: seq<CallOutcome>, now: int, replyAt: int)
    requires c in g.conns && ContentOk(text) && |outcomes| >= MaxAttempts && DbValid(g.db)
    ensures DbValid(Deliver(g, c, r, text, mention, outcomes, now, replyAt).db)
  {
    PostUserMessageKeepsDbValid(g, c, r, text, now);
    if mention.Some? {
      var g1 := PostUserMessage(g, c, r, text, now);
      AnswerKeepsDbValid(g1, c, r, PromptFor(g1, r, mention.value), Reply(outcomes), replyAt);
    }
  }

  lemma AnswerKeepsDbValid(g: Gateway, c: ConnId, r: Id, call: ModelCall, reply: string, replyAt: int)
    requires c in g.conns && DbValid(g.db)
    ensures DbValid(Answer(g, c, r, call, reply, replyAt).db)
  {
  }

  lemma SendAsWrittenKeepsDbValid(g: Gateway, c: ConnId, roomId: RawId, content: string, outcomes: seq<CallOutcome>, now: int, replyAt: int)
    requires c in g.conns && |outcomes| >= MaxAttempts && DbValid(g.db)
    ensures DbValid(SendAsWritten(g, c, roomId, content, outcomes, now, replyAt).db)
  {
    var k := CheckSend(g, c, roomId, content);
    if k.Cleared? {
      DeliverAsWrittenKeepsDbValid(g, c, k.room, k.content, TriggerQuery(k.content), outcomes, now, replyAt);
    }
  }

  lemma DeliverAsWrittenKeepsDbValid(g: Gateway, c: ConnId, r: Id, text: string, mention: Option<string>,
                                     outcomes: seq<CallOutcome>, now: int, replyAt: int)
    requires c in g.conns && ContentOk(text) && |outcomes| >= MaxAttempts && DbValid(g.db)
    ensures DbValid(DeliverAsWritten(g, c, r, text, mention, outcomes, now, replyAt).db)
  {
    PostUserMessageKeepsDbValid(g, c, r, text, now);
    if mention.Some? {
      var g1 := PostUserMessage(g, c, r, text, now);
      AnswerAsWrittenKeepsDbValid(g1, c, r, PromptFor(g1, r, mention.value), Reply(outcomes), replyAt);
    }
  }

  lemma AnswerAsWrittenKeepsDbValid(g: Gateway, c: ConnId, r: Id, call: ModelCall, reply: string, replyAt: int)
    requires c in g.conns && DbValid(g.db)
    ensures DbValid(AnswerAsWritten(g, c, r, call, reply, replyAt).db)
  {
  }

  /** A send whose instants are no earlier than the log's keeps the log in creation
      order: the sender's message is stamped `now`, the AI's reply `replyAt`. */
  lemma SendAsWrittenKeepsOrder(g: Gateway, c: ConnId, roomId: RawId, content: string, outcomes: seq<CallOutcome>,
                                now: int, replyAt: int)
    requires c in g.conns && |outcomes| >= MaxAttempts
    requires CreationOrdered(g.db.messages) && StampedBy(g.db.messages, now) && now <= replyAt
    ensures CreationOrdered(SendAsWritten(g, c, roomId, content, outcomes, now, replyAt).db.messages)
  {
    var k := CheckSend(g, c, roomId, content);
    if k.Cleared? {
      var text, mention := k.content, TriggerQuery(k.content);
      var g1 := PostUserMessage(g, c, k.room, text, now);
      StampLater(g.db.messages, g1.db.messages[|g.db.messages|]);
      if mention.Some? {
        var g' := AnswerAsWritten(g1, c, k.room, PromptFor(g1, k.room, mention.value), Reply(outcomes), replyAt);
        if ContentOk(Reply(outcomes)) {
          StampLater(g1.db.messages, g'.db.messages[|g1.db.messages|]);
        }
      }
    }
  }

  /** Every step, as written, keeps the invariant. */
  lemma StepKeepsInv(g: Gateway, a: Action, verify: string -> Option<Id>)
    requires Enabled(g, a) && Inv(g)
    ensures Inv(Step(g, a, verify))
  {
    match a
    case Open(c, h) =>
    case JoinRoom(c, roomId) => JoinKeepsConnsOk(g, c, roomId);
    case SendMessage(c, roomId, content, outcomes, now, replyAt) =>
      SendAsWrittenKeepsDbValid(g, c, roomId, content, outcomes, now, replyAt);
      SendAsWrittenKeepsOrder(g, c, roomId, content, outcomes, now, replyAt);
    case SetTyping(c, roomId, isTyping) =>
    case LeaveChannel(c, roomId) => LeaveKeepsConnsOk(g, c, roomId);
    case Close(c) =>
  }

  /** A join leaves the connection in exactly the joined channel. */
  lemma JoinKeepsConnsOk(g: Gateway, c: ConnId, roomId: RawId)
    requires c in g.conns && ConnsOk(g.conns)
    ensures ConnsOk(Join(g, c, roomId).conns)
  {
    if roomId.ObjectId? && MayJoin(g, c, roomId.id) {
      EnterKeepsConnsOk(g, c, roomId.id, FindActiveRoom(g.db.rooms, roomId.id).value);
    } else {
      assert Join(g, c, roomId).conns == g.conns;
    }
  }

  /** Entering a room puts the connection in that one channel. */
  lemma EnterKeepsConnsOk(g: Gateway, c: ConnId, r: Id, room: Room)
    requires c in g.conns && ConnsOk(g.conns)
    ensures ConnsOk(Enter(g, c, r, room).conns)
  {
    ReplaceKeepsConnsOk(g.conns, c, g.conns[c].(channels := {r}, currentRoom := Some(r), currentRoomName := Some(room.name)));
  }

  /** Replacing one connection by a well-formed one keeps every connection well formed. */
  lemma ReplaceKeepsConnsOk(conns: map<ConnId, Conn>, c: ConnId, conn: Conn)
    requires ConnsOk(conns)
    requires AtMostOne(conn.channels) && (conn.currentRoom.Some? ==> conn.channels == {conn.currentRoom.value})
    ensures ConnsOk(conns[c := conn])
  {
  }

  /** A leave only removes a channel and forgets the current room. */
  lemma LeaveKeepsConnsOk(g: Gateway, c: ConnId, roomId: RawId)
    requires c in g.conns && ConnsOk(g.conns)
    ensures ConnsOk(Leave(g, c, roomId).conns)
  {
    var g' := Leave(g, c, roomId);
    assert g'.conns[c].channels <= g.conns[c].channels;
  }

  /** Running a sequence of actions, each enabled where it arrives. */
  function Run(g: Gateway, actions: seq<Action>, verify: string -> Option<Id>): (g': Option<Gateway>)
    decreases |actions|
  {
    if actions == [] then Some(g)
    else if !Enabled(g, actions[0]) then None
    else Run(Step(g, actions[0], verify), actions[1..], verify)
  }

  /** In every state a run reaches, the history a join replays and every page the
      history endpoint returns hold the newest matching messages by `createdAt`. */
  lemma ReachableReadsAreNewest(g: Gateway, actions: seq<Action>, verify: string -> Option<Id>,
                                r: Id, bound: Option<int>, n: nat)
    requires Inv(g) && Run(g, actions, verify).Some?
    ensures var msgs := Run(g, actions, verify).value.db.messages;
            var all := RoomMessages(msgs, r);
            var history := LatestRoomMessages(msgs, r, HistorySize);
            var matching := MessageController.Matching(msgs, r, bound);
            var page := MessageController.Page(matching, n);
            && (forall i, m :: 0 <= i < |all| - |history| && m in history ==> all[i].createdAt <= m.createdAt)
            && (forall i, m :: 0 <= i < |matching| - |page| && m in page ==> matching[i].createdAt <= m.createdAt)
  {
    RunKeepsInv(g, actions, verify);
    var msgs := Run(g, actions, verify).value.db.messages;
    LatestAreNewest(msgs, r, HistorySize);
    MessageController.PageIsNewest(msgs, r, bound, n);
  }

  /** From any state satisfying the invariant, every run keeps it: a connection is
      never in two rooms, and messages stay well-formed and in creation order. */
  lemma {:induction false} RunKeepsInv(g: Gateway, actions: seq<Action>, verify: string -> Option<Id>)
    requires Inv(g)
    ensures Run(g, actions, verify).Some? ==> Inv(Run(g, actions, verify).value)
    decreases |actions|
  {
    if actions != [] && Enabled(g, actions[0]) {
      StepKeepsInv(g, actions[0], verify);
      RunKeepsInv(Step(g, actions[0], verify), actions[1..], verify);
    }
  }
}

=== FILE: code_window.dfy ===
/** The landing page's typewriter code window (client/src/components/ui/CodeWindow.jsx):
    the code is flattened into one chunk per character plus one per line break,
    and the first `revealed` chunks are regrouped into coloured lines. Token text
    is a sequence of characters, one chunk per element. `split("")` splits UTF-16
    code units instead, which agree with characters only inside the Basic
    Multilingual Plane; the rocket emoji in the first comment line is one chunk
    here and two surrogate chunks in the browser. */
module CodeWindow {
  import opened Wrappers

  /** The token types the code uses. */
  datatype TokenType = Comment | Keyword | Func | Prop | Str | Bool | Normal

  /** A coloured token. */
  datatype Token = Token(t: TokenType, v: string)

  /** A chunk: one character of a token, tagged with its line and type, or the
      break that ends line `li`. */
  datatype Chunk = Char(li: nat, tok: TokenType, ch: char) | Newline(li: nat)

  /** A character with the type that colours it. */
  datatype Glyph = Glyph(t: TokenType, ch: char)

  /** A token's characters, each with the token's type. */
  function Spell(tok: Token): (r: seq<Glyph>)
    ensures |r| == |tok.v|
    ensures forall i :: 0 <= i < |r| ==> r[i] == Glyph(tok.t, tok.v[i])
  {
    seq(|tok.v|, i requires 0 <= i < |tok.v| => Glyph(tok.t, tok.v[i]))
  }

  /** What a line shows, character by character and colour by colour: its tokens'
      glyphs, concatenated. Two lines with the same glyphs look the same however
      their text is cut into tokens. */
  function Spelled(tokens: seq<Token>): seq<Glyph> {
    if tokens == [] then [] else Spelled(tokens[..|tokens| - 1]) + Spell(tokens[|tokens| - 1])
  }

  /** The glyphs among some chunks, in order. */
  function ChunkGlyphs(cs: seq<Chunk>): seq<Glyph> {
    if cs == [] then []
    else ChunkGlyphs(cs[..|cs| - 1]) + (if cs[|cs| - 1].Char? then [Glyph(cs[|cs| - 1].tok, cs[|cs| - 1].ch)] else [])
  }

  /** The text of a line: its tokens' text, concatenated. */
  function LineText(tokens: seq<Token>): string {
    if tokens == [] then [] else LineText(tokens[..|tokens| - 1]) + tokens[|tokens| - 1].v
  }

  /** The total number of characters of the code. */
  function TotalChars(lines: seq<seq<Token>>): nat {
    if lines == [] then 0 else TotalChars(lines[..|lines| - 1]) + |LineText(lines[|lines| - 1])|
  }

  /** The number of line breaks among some chunks. */
  function NewlineCount(cs: seq<Chunk>): nat {
    if cs == [] then 0 else NewlineCount(cs[..|cs| - 1]) + (if cs[|cs| - 1].Newline? then 1 else 0)
  }

  /** The characters among some chunks, in order. */
  function ChunkText(cs: seq<Chunk>): string {
    if cs == [] then []
    else ChunkText(cs[..|cs| - 1]) + (if cs[|cs| - 1].Char? then [cs[|cs| - 1].ch] else [])
  }

  lemma {:induction false} NewlineCountAppend(a: seq<Chunk>, b: seq<Chunk>)
    ensures NewlineCount(a + b) == NewlineCount(a) + NewlineCount(b)
    decreases |b|
  {
    if b != [] {
      assert (a + b)[..|a + b| - 1] == a + b[..|b| - 1];
      NewlineCountAppend(a, b[..|b| - 1]);
    } else {
      assert a + b == a;
    }
  }

  lemma {:induction false} ChunkGlyphsAppend(a: seq<Chunk>, b: seq<Chunk>)
    ensures ChunkGlyphs(a + b) == ChunkGlyphs(a) + ChunkGlyphs(b)
    decreases |b|
  {
    if b != [] {
      assert (a + b)[..|a + b| - 1] == a + b[..|b| - 1];
      ChunkGlyphsAppend(a, b[..|b| - 1]);
    } else {
      assert a + b == a;
    }
  }

  lemma {:induction false} ChunkTextAppend(a: seq<Chunk>, b: seq<Chunk>)
    ensures ChunkText(a + b) == ChunkText(a) + ChunkText(b)
    decreases |b|
  {
    if b != [] {
      assert (a + b)[..|a + b| - 1] == a + b[..|b| - 1];
      ChunkTextAppend(a, b[..|b| - 1]);
    } else {
      assert a + b == a;
    }
  }

  // ---------------------------------------------------------------------------
  // buildTypeChunks

  /** The chunks of one token. */
  function TokenChunks(li: nat, tok: Token): (r: seq<Chunk>)
    ensures |r| == |tok.v|
    ensures NewlineCount(r) == 0 && ChunkText(r) == tok.v
    ensures forall i :: 0 <= i < |r| ==> r[i] == Char(li, tok.t, tok.v[i])
    ensures ChunkGlyphs(r) == Spell(tok)
  {
    var r := seq(|tok.v|, i requires 0 <= i < |tok.v| => Char(li, tok.t, tok.v[i]));
    CharsOnly(r, li);
    r
  }

  /** Chunks that are all characters of one line hold no break and spell their characters. */
  lemma {:induction false} CharsOnly(r: seq<Chunk>, li: nat)
    requires forall i :: 0 <= i < |r| ==> r[i].Char? && r[i].li == li
    ensures NewlineCount(r) == 0
    ensures ChunkText(r) == seq(|r|, i requires 0 <= i < |r| => r[i].ch)
    ensures ChunkGlyphs(r) == seq(|r|, i requires 0 <= i < |r| => Glyph(r[i].tok, r[i].ch))
    decreases |r|
  {
    if r != [] {
      CharsOnly(r[..|r| - 1], li);
    }
  }

  /** The chunks of a line's tokens, without its break: chunk `i` is glyph `i` of
      the line, tagged with the line. */
  function TextChunks(li: nat, tokens: seq<Token>): (r: seq<Chunk>)
    ensures |r| == |LineText(tokens)| == |Spelled(tokens)|
    ensures forall i :: 0 <= i < |r| ==> r[i] == Char(li, Spelled(tokens)[i].t, Spelled(tokens)[i].ch)
    ensures NewlineCount(r) == 0 && ChunkText(r) == LineText(tokens) && ChunkGlyphs(r) == Spelled(tokens)
  {
    if tokens == [] then []
    else
      var init := TextChunks(li, tokens[..|tokens| - 1]);
      var last := TokenChunks(li, tokens[|tokens| - 1]);
      NewlineCountAppend(init, last);
      ChunkTextAppend(init, last);
      ChunkGlyphsAppend(init, last);
      init + last
  }

  /** The chunks of line `li`: its characters, then its break. */
  function LineChunks(li: nat, tokens: seq<Token>): (r: seq<Chunk>)
    ensures |r| == |LineText(tokens)| + 1
    ensures NewlineCount(r) == 1 && ChunkText(r) == LineText(tokens) && ChunkGlyphs(r) == Spelled(tokens)
    ensures r[|r| - 1] == Newline(li)
    ensures forall i :: 0 <= i < |r| ==> r[i].li == li
  {
    var text := TextChunks(li, tokens);
    LineBreakChunk(li);
    NewlineCountAppend(text, [Newline(li)]);
    ChunkTextAppend(text, [Newline(li)]);
    ChunkGlyphsAppend(text, [Newline(li)]);
    text + [Newline(li)]
  }

  /** A break chunk counts one break and shows nothing. */
  lemma LineBreakChunk(li: nat)
    ensures NewlineCount([Newline(li)]) == 1 && ChunkText([Newline(li)]) == [] && ChunkGlyphs([Newline(li)]) == []
  {
    assert [Newline(li)][..0] == [];
  }

  /** `buildTypeChunks()`: every line's chunks, in line order. */
  function BuildTypeChunks(lines: seq<seq<Token>>): (r: seq<Chunk>)
    ensures |r| == TotalChars(lines) + |lines|
    ensures NewlineCount(r) == |lines|
    ensures lines != [] ==> r[|r| - 1] == Newline(|lines| - 1)
  {
    if lines == [] then []
    else
      var init := BuildTypeChunks(lines[..|lines| - 1]);
      var last := LineChunks(|lines| - 1, lines[|lines| - 1]);
      NewlineCountAppend(init, last);
      init + last
  }

  /** Chunks tagged with lines below `n`, in line order. */
  predicate InLineOrder(r: seq<Chunk>, n: nat) {
    && (forall i :: 0 <= i < |r| ==> r[i].li < n)
    && forall i, j :: 0 <= i <= j < |r| ==> r[i].li <= r[j].li
  }

  /** Ordered chunks of the lines below `k`, followed by chunks of line `k`, are ordered. */
  lemma OrderedConcat(a: seq<Chunk>, b: seq<Chunk>, k: nat)
    requires InLineOrder(a, k)
    requires forall i :: 0 <= i < |b| ==> b[i].li == k
    ensures InLineOrder(a + b, k + 1)
  {
    var r := a + b;
    forall i, j | 0 <= i <= j < |r| ensures r[i].li <= r[j].li {
      if j < |a| {
        assert r[i] == a[i] && r[j] == a[j];
      } else if i >= |a| {
        assert r[i] == b[i - |a|] && r[j] == b[j - |a|];
      } else {
        assert r[i] == a[i] && r[j] == b[j - |a|];
      }
    }
  }

  /** The chunks are tagged with the lines they come from, in line order. */
  lemma {:induction false} ChunksInLineOrder(lines: seq<seq<Token>>)
    ensures InLineOrder(BuildTypeChunks(lines), |lines|)
    decreases |lines|
  {
    if lines != [] {
      var k := |lines| - 1;
      ChunksInLineOrder(lines[..k]);
      OrderedConcat(BuildTypeChunks(lines[..k]), LineChunks(k, lines[k]), k);
      assert BuildTypeChunks(lines) == BuildTypeChunks(lines[..k]) + LineChunks(k, lines[k]);
    }
  }

  // ---------------------------------------------------------------------------
  // Regrouping the revealed chunks

  /** A rendered line: the index of the line its break came from, and its tokens. */
  datatype RLine = RLine(idx: nat, tokens: seq<Token>)

  /** The loop's state: the lines pushed so far and the line being built. */
  datatype Regrouping = Regrouping(lines: seq<RLine>, current: seq<Token>)

  /** One chunk: a break pushes the current line; a character extends the last token
      when it has the same type, and starts a new token otherwise. */
  function Step(st: Regrouping, c: Chunk): (st': Regrouping)
    ensures c.Newline? ==> st'.lines == st.lines + [RLine(c.li, st.current)] && st'.current == []
    ensures c.Char? ==> st'.lines == st.lines && LineText(st'.current) == LineText(st.current) + [c.ch]
  {
    match c
    case Newline(li) => Regrouping(st.lines + [RLine(li, st.current)], [])
    case Char(li, tok, ch) =>
      var cur := st.current;
      if cur != [] && cur[|cur| - 1].t == tok then
        var init := cur[..|cur| - 1];
        var merged := Token(tok, cur[|cur| - 1].v + [ch]);
        assert (init + [merged])[..|cur| - 1] == init;
        assert cur == init + [cur[|cur| - 1]];
        assert LineText(cur) == LineText(init) + cur[|cur| - 1].v by {
          assert cur[..|cur| - 1] == init;
        }
        st.(current := init + [merged])
      else
        assert (cur + [Token(tok, [ch])])[..|cur|] == cur;
        st.(current := cur + [Token(tok, [ch])])
  }

  /** A character extends what the current line shows by exactly its glyph, whether
      it joins the last token or starts a new one. */
  lemma StepSpells(st: Regrouping, c: Chunk)
    requires c.Char?
    ensures Spelled(Step(st, c).current) == Spelled(st.current) + [Glyph(c.tok, c.ch)]
  {
    var cur := st.current;
    var g := Glyph(c.tok, c.ch);
    if cur != [] && cur[|cur| - 1].t == c.tok {
      var init := cur[..|cur| - 1];
      var last := cur[|cur| - 1];
      var merged := Token(c.tok, last.v + [c.ch]);
      assert Step(st, c).current == init + [merged];
      assert (init + [merged])[..|cur| - 1] == init;
      assert Spell(merged) == Spell(last) + [g];
      assert Spelled(cur) == Spelled(init) + Spell(last);
    } else {
      assert Step(st, c).current == cur + [Token(c.tok, [c.ch])];
      assert (cur + [Token(c.tok, [c.ch])])[..|cur|] == cur;
      assert Spell(Token(c.tok, [c.ch])) == [g];
    }
  }

  /** The loop over some chunks, from a state. */
  function Fold(st: Regrouping, cs: seq<Chunk>): Regrouping {
    if cs == [] then st else Step(Fold(st, cs[..|cs| - 1]), cs[|cs| - 1])
  }

  lemma {:induction false} FoldAppend(st: Regrouping, a: seq<Chunk>, b: seq<Chunk>)
    ensures Fold(st, a + b) == Fold(Fold(st, a), b)
    decreases |b|
  {
    if b == [] {
      assert a + b == a;
    } else {
      assert (a + b)[..|a + b| - 1] == a + b[..|b| - 1];
      FoldAppend(st, a, b[..|b| - 1]);
    }
  }

  /** The loop only ever appends lines: one per break. */
  lemma {:induction false} FoldPushesLines(st: Regrouping, cs: seq<Chunk>)
    ensures |Fold(st, cs).lines| == |st.lines| + NewlineCount(cs)
    ensures Fold(st, cs).lines[..|st.lines|] == st.lines
    decreases |cs|
  {
    if cs != [] {
      FoldPushesLines(st, cs[..|cs| - 1]);
      var mid := Fold(st, cs[..|cs| - 1]);
      assert Fold(st, cs).lines[..|mid.lines|] == mid.lines;
      assert Fold(st, cs).lines[..|st.lines|] == mid.lines[..|st.lines|];
    }
  }

  /** Characters only extend the current line, by exactly their text. */
  lemma {:induction false} FoldChars(st: Regrouping, cs: seq<Chunk>)
    requires NewlineCount(cs) == 0
    ensures Fold(st, cs).lines == st.lines
    ensures LineText(Fold(st, cs).current) == LineText(st.current) + ChunkText(cs)
    decreases |cs|
  {
    if cs != [] {
      FoldChars(st, cs[..|cs| - 1]);
    }
  }

  /** Characters extend what the current line shows by exactly their glyphs. */
  lemma {:induction false} FoldSpells(st: Regrouping, cs: seq<Chunk>)
    requires NewlineCount(cs) == 0
    ensures Spelled(Fold(st, cs).current) == Spelled(st.current) + ChunkGlyphs(cs)
    decreases |cs|
  {
    if cs != [] {
      var init, c := cs[..|cs| - 1], cs[|cs| - 1];
      assert c.Char? && NewlineCount(init) == 0;
      FoldSpells(st, init);
      StepSpells(Fold(st, init), c);
    }
  }

  /** No two neighbouring tokens share a type. */
  predicate Merged(tokens: seq<Token>) {
    forall i :: 0 < i < |tokens| ==> tokens[i - 1].t != tokens[i].t
  }

  /** What the loop keeps: the current line and every pushed line are merged. */
  predicate RegroupingOk(st: Regrouping) {
    Merged(st.current) && forall k :: 0 <= k < |st.lines| ==> Merged(st.lines[k].tokens)
  }

  lemma StepKeepsMerged(st: Regrouping, c: Chunk)
    requires RegroupingOk(st)
    ensures RegroupingOk(Step(st, c))
  {
    var st' := Step(st, c);
    if c.Char? {
      var cur := st.current;
      forall i | 0 < i < |st'.current| ensures st'.current[i - 1].t != st'.current[i].t {
        if i < |cur| - 1 || (i == |cur| - 1 && st'.current[i].t == cur[i].t) {
          assert st'.current[i - 1] == cur[i - 1];
        }
      }
    }
  }

  lemma {:induction false} FoldKeepsMerged(st: Regrouping, cs: seq<Chunk>)
    requires RegroupingOk(st)
    ensures RegroupingOk(Fold(st, cs))
    decreases |cs|
  {
    if cs != [] {
      FoldKeepsMerged(st, cs[..|cs| - 1]);
      StepKeepsMerged(Fold(st, cs[..|cs| - 1]), cs[|cs| - 1]);
    }
  }

  /** A rendered line shows code line `i`: it carries that index, and the same text
      in the same colours. */
  predicate Shows(l: RLine, i: nat, tokens: seq<Token>) {
    l.idx == i && LineText(l.tokens) == LineText(tokens) && Spelled(l.tokens) == Spelled(tokens)
  }

  /** From a state between lines, a line's chunks push one line that shows it. */
  lemma OneLine(st: Regrouping, k: nat, tokens: seq<Token>)
    requires st.current == []
    ensures var st' := Fold(st, LineChunks(k, tokens));
            && st'.current == []
            && |st'.lines| == |st.lines| + 1
            && st'.lines[..|st.lines|] == st.lines
            && Shows(st'.lines[|st.lines|], k, tokens)
  {
    var text := TextChunks(k, tokens);
    assert LineChunks(k, tokens) == text + [Newline(k)];
    FoldAppend(st, text, [Newline(k)]);
    FoldChars(st, text);
    FoldSpells(st, text);
    var st1 := Fold(st, text);
    assert Fold(st1, [Newline(k)]) == Step(st1, Newline(k)) by {
      assert [Newline(k)][..0] == [];
    }
    assert LineText(st1.current) == LineText(tokens);
    assert Spelled(st1.current) == Spelled(tokens);
  }

  /** The rendered lines of the whole code: one per code line, showing it, and
      nothing left over. */
  lemma {:induction false} FullRoundTrip(lines: seq<seq<Token>>)
    ensures var st := Fold(Regrouping([], []), BuildTypeChunks(lines));
            && st.current == []
            && |st.lines| == |lines|
            && forall i :: 0 <= i < |lines| ==> Shows(st.lines[i], i, lines[i])
    decreases |lines|
  {
    if lines != [] {
      var k := |lines| - 1;
      var init := lines[..k];
      FullRoundTrip(init);
      var a := BuildTypeChunks(init);
      var st0 := Fold(Regrouping([], []), a);
      assert BuildTypeChunks(lines) == a + LineChunks(k, lines[k]);
      FoldAppend(Regrouping([], []), a, LineChunks(k, lines[k]));
      OneLine(st0, k, lines[k]);
      var st := Fold(st0, LineChunks(k, lines[k]));
      forall i | 0 <= i < k
        ensures Shows(st.lines[i], i, lines[i])
      {
        assert st.lines[i] == st.lines[..k][i] == st0.lines[i];
        assert lines[i] == init[i];
      }
    }
  }

  /** The first `revealed` chunks, as `slice(0, revealed)` takes them. */
  function Revealed(chunks: seq<Chunk>, revealed: nat): (r: seq<Chunk>)
    ensures |r| == if revealed < |chunks| then revealed else |chunks|
    ensures r == chunks[..|r|]
  {
    if revealed < |chunks| then chunks[..revealed] else chunks
  }

  /** The lines drawn after `revealed` ticks. */
  function Regroup(chunks: seq<Chunk>, revealed: nat): seq<RLine> {
    Fold(Regrouping([], []), Revealed(chunks, revealed)).lines
  }

  /** What is drawn is the start of what the whole code draws: one line per break revealed. */
  lemma DrawnIsPrefix(chunks: seq<Chunk>, revealed: nat)
    ensures var drawn := Regroup(chunks, revealed);
            var all := Fold(Regrouping([], []), chunks).lines;
            && |drawn| == NewlineCount(Revealed(chunks, revealed)) <= |all|
            && drawn == all[..|drawn|]
  {
    var p := Revealed(chunks, revealed);
    var rest := chunks[|p|..];
    assert chunks == p + rest;
    var empty := Regrouping([], []);
    var st := Fold(empty, p);
    FoldPushesLines(empty, p);
    FoldAppend(empty, p, rest);
    FoldPushesLines(st, rest);
  }

  /** The round trip: what is drawn is one line per break revealed, each showing the
      code line it came from (its index, text and colours) with no two neighbouring
      tokens of one type; characters after the last revealed break are not drawn. */
  lemma RevealRoundTrip(lines: seq<seq<Token>>, revealed: nat)
    ensures var chunks := BuildTypeChunks(lines);
            var drawn := Regroup(chunks, revealed);
            && |drawn| == NewlineCount(Revealed(chunks, revealed)) <= |lines|
            && forall i :: 0 <= i < |drawn| ==>
                 && Shows(drawn[i], i, lines[i])
                 && Merged(drawn[i].tokens)
  {
    var chunks := BuildTypeChunks(lines);
    var drawn := Regroup(chunks, revealed);
    var all := Fold(Regrouping([], []), chunks).lines;
    DrawnIsPrefix(chunks, revealed);
    FullRoundTrip(lines);
    FoldKeepsMerged(Regrouping([], []), Revealed(chunks, revealed));
    assert forall i :: 0 <= i < |drawn| ==> drawn[i] == all[i];
  }

  // ---------------------------------------------------------------------------
  // The frame drawn

  /** What the window shows: the lines, the blinking cursor's line (the last line,
      while chunks remain), the final cursor (once everything is revealed), and the
      status bar's line number. */
  datatype Frame = Frame(drawn: seq<RLine>, lineCursor: Option<nat>, finalCursor: bool, ln: nat)

  function Render(lines: seq<seq<Token>>, revealed: nat): (f: Frame)
    ensures f.finalCursor <==> revealed >= |BuildTypeChunks(lines)|
    ensures f.lineCursor.Some? <==> f.drawn != [] && revealed < |BuildTypeChunks(lines)|
    ensures f.lineCursor.Some? ==> f.lineCursor.value == |f.drawn| - 1
    ensures !(f.finalCursor && f.lineCursor.Some?)
  {
    var chunks := BuildTypeChunks(lines);
    var drawn := Regroup(chunks, revealed);
    var ln := if |drawn| < |lines| then |drawn| else |lines|;
    Frame(drawn, if |drawn| > 0 && revealed < |chunks| then Some(|drawn| - 1) else None,
          revealed >= |chunks|, ln)
  }

  /** The status bar counts the lines drawn, and for non-empty code every line is
      drawn exactly when the final cursor shows. */
  lemma RenderCountsLines(lines: seq<seq<Token>>, revealed: nat)
    ensures var f := Render(lines, revealed);
            && f.ln == |f.drawn|
            && (lines != [] ==> (|f.drawn| == |lines| <==> f.finalCursor))
  {
    RevealRoundTrip(lines, revealed);
    var chunks := BuildTypeChunks(lines);
    if lines != [] && revealed < |chunks| {
      BreaksBeforeTheLast(chunks, revealed);
    }
  }

  /** Stopping before a last chunk that is a break reveals fewer breaks than there are. */
  lemma BreaksBeforeTheLast(chunks: seq<Chunk>, revealed: nat)
    requires revealed < |chunks| && chunks[|chunks| - 1].Newline?
    ensures NewlineCount(Revealed(chunks, revealed)) < NewlineCount(chunks)
  {
    var n := |chunks| - 1;
    var p := chunks[..revealed];
    assert chunks[..n] == p + chunks[revealed..n];
    NewlineCountAppend(p, chunks[revealed..n]);
  }
}

=== FILE: message_controller.dfy ===
/** Paged message history (server/controllers/messageController.js): members of a
    room read its messages newest page first, optionally strictly before a cursor
    message, at most 100 at a time. */
module MessageController {
  import opened Wrappers
  import opened Models
  import opened Store
  import Seqs

  const DefaultPageSize: nat := 50
  const MaxPageSize: nat := 100

  /** `Math.min(Number(limit), 100)` with `limit` defaulting to 50; Mongo reads a
      limit of 0 as "no limit". */
  function PageSize(limit: Option<nat>): nat {
    var n := limit.GetOr(DefaultPageSize);
    if n < MaxPageSize then n else MaxPageSize
  }

  /** The `createdAt` bound the `before` parameter sets: only a well-formed id of a
      stored message (of any room) sets one; anything else is ignored. */
  function CursorBound(msgs: seq<Message>, before: Option<RawId>): (b: Option<int>)
    ensures b.Some? <==> before.Some? && before.value.ObjectId? && FindMessage(msgs, before.value.id).Some?
    ensures b.Some? ==> exists m :: m in msgs && m.id == before.value.id && b.value == m.createdAt
  {
    match before
    case Some(ObjectId(id)) =>
      (match FindMessage(msgs, id)
       case Some(m) => Some(m.createdAt)
       case None => None)
    case _ => None
  }

  /** Whether a message passes the query `{ room, createdAt: { $lt: bound } }`. */
  predicate InQuery(m: Message, room: Id, bound: Option<int>) {
    m.room == room && (bound.Some? ==> m.createdAt < bound.value)
  }

  /** `Message.find(query)` in creation order. */
  function Matching(msgs: seq<Message>, room: Id, bound: Option<int>): (r: seq<Message>)
    ensures |r| <= |msgs|
    ensures forall m :: m in r <==> m in msgs && InQuery(m, room, bound)
    ensures CreationOrdered(msgs) ==> CreationOrdered(r)
  {
    if msgs == [] then []
    else
      var init := msgs[..|msgs| - 1];
      var last := msgs[|msgs| - 1];
      var rest := Matching(init, room, bound);
      assert forall m :: m in msgs <==> m in init || m == last;
      AppendNewest(msgs, rest);
      if InQuery(last, room, bound) then rest + [last] else rest
  }

  /** Appending the last message of an ordered log to an ordered selection of the
      earlier ones keeps it ordered. */
  lemma AppendNewest(msgs: seq<Message>, rest: seq<Message>)
    requires msgs != []
    requires forall m :: m in rest ==> m in msgs[..|msgs| - 1]
    requires CreationOrdered(msgs[..|msgs| - 1]) ==> CreationOrdered(rest)
    ensures CreationOrdered(msgs) ==> CreationOrdered(rest) && CreationOrdered(rest + [msgs[|msgs| - 1]])
  {
    if CreationOrdered(msgs) {
      var init, last := msgs[..|msgs| - 1], msgs[|msgs| - 1];
      assert CreationOrdered(init);
      forall m | m in rest ensures m.createdAt <= last.createdAt {
        var i :| 0 <= i < |init| && init[i] == m;
        assert msgs[i] == m;
      }
      var r := rest + [last];
      forall i, j | 0 <= i < j < |r| ensures r[i].createdAt <= r[j].createdAt {
        if j < |rest| {
          assert r[i] == rest[i] && r[j] == rest[j];
        } else {
          assert r[i] in rest;
        }
      }
    }
  }

  /** Without a cursor the query is the room's whole history. */
  lemma MatchingWithoutCursor(msgs: seq<Message>, room: Id)
    ensures Matching(msgs, room, None) == RoomMessages(msgs, room)
  {
    if msgs != [] {
      MatchingWithoutCursor(msgs[..|msgs| - 1], room);
    }
  }

  /** `sort({ createdAt: -1 }).limit(n)` followed by `reverse()`: the newest `n`
      matching messages, oldest first; all of them when `n` is 0. */
  function Page(matching: seq<Message>, n: nat): (r: seq<Message>)
    ensures n == 0 ==> r == matching
    ensures n > 0 ==> |r| == if |matching| < n then |matching| else n
    ensures r == matching[|matching| - |r|..]
  {
    if n == 0 then matching else Seqs.LastN(matching, n)
  }

  datatype MessagesReply = MessagesReply(response: Response, messages: seq<Message>)

  /** A successful reply whose newest message is `m`. */
  predicate EndsWith200(p: MessagesReply, m: Message) {
    p.response.status == 200 && p.messages != [] && p.messages[|p.messages| - 1] == m
  }

  /** `getMessages`: checks the room id's form (400) and the caller's active
      membership (403, whether or not the room is still active), then returns the
      requested page of the room's messages. */
  function GetMessages(db: Db, user: Id, roomId: RawId, before: Option<RawId>, limit: Option<nat>): (r: MessagesReply)
    ensures roomId.Malformed? <==> r.response == Response(400, "Invalid room id")
    ensures r.response.status == 403 <==>
              roomId.ObjectId? && ActiveMembership(db.memberships, roomId.id, user).None?
    ensures r.response.status != 200 ==> r.messages == []
    ensures r.response.status == 200 <==>
              roomId.ObjectId? && ActiveMembership(db.memberships, roomId.id, user).Some?
    ensures r.response.status == 200 ==>
              && (forall m :: m in r.messages ==>
                    m in db.messages && InQuery(m, roomId.id, CursorBound(db.messages, before)))
              && r.messages == Page(Matching(db.messages, roomId.id, CursorBound(db.messages, before)), PageSize(limit))
              && (PageSize(limit) == 0 || |r.messages| <= MaxPageSize)
  {
    match roomId
    case Malformed => MessagesReply(Response(400, "Invalid room id"), [])
    case ObjectId(room) =>
      if ActiveMembership(db.memberships, room, user).None? then
        MessagesReply(Response(403, "Access denied"), [])
      else
        var matching := Matching(db.messages, room, CursorBound(db.messages, before));
        var page := Page(matching, PageSize(limit));
        assert forall m :: m in page ==> m in matching;
        MessagesReply(Response(200, ""), page)
  }

  /** With the log in creation order, a page is in creation order and holds the
      newest matching messages: every matching message left out of it is no newer
      than any message in it. */
  lemma PageIsNewest(msgs: seq<Message>, room: Id, bound: Option<int>, n: nat)
    requires CreationOrdered(msgs)
    ensures var matching := Matching(msgs, room, bound);
            var page := Page(matching, n);
            && CreationOrdered(page)
            && forall i, m :: 0 <= i < |matching| - |page| && m in page ==> matching[i].createdAt <= m.createdAt
  {
    var matching := Matching(msgs, room, bound);
    var page := Page(matching, n);
    SuffixIsNewest(matching, |matching| - |page|);
  }

  /** A suffix of a log in creation order is in creation order, and nothing before
      it is newer than anything in it. */
  lemma SuffixIsNewest(s: seq<Message>, k: nat)
    requires CreationOrdered(s) && k <= |s|
    ensures CreationOrdered(s[k..])
    ensures forall i, m :: 0 <= i < k && m in s[k..] ==> s[i].createdAt <= m.createdAt
  {
    forall i, m | 0 <= i < k && m in s[k..]
      ensures s[i].createdAt <= m.createdAt
    {
      var j :| 0 <= j < |s[k..]| && s[k..][j] == m;
      assert m == s[k + j];
    }
  }

  /** A cursor naming the last message of a valid log bounds the query by that
      message's creation time. */
  lemma CursorOnLast(msgs: seq<Message>, m: Message, last: Message)
    requires MessagesValid(msgs + [m, last])
    ensures CursorBound(msgs + [m, last], Some(ObjectId(|msgs| + 1))) == Some(last.createdAt)
  {
    var s := msgs + [m, last];
    var found := FindMessage(s, |msgs| + 1);
    assert s[|msgs| + 1] == last;
    assert found.Some?;
    var j :| 0 <= j < |s| && s[j] == found.value;
  }

  /** Paging back from a message of a room returns, as its newest entry, the room's
      message stored just before it, when that one is strictly older. */
  lemma PageBeforeLater(msgs: seq<Message>, m: Message, later: Message, room: Id, n: nat)
    requires m.room == room && m.createdAt < later.createdAt
    ensures var page := Page(Matching(msgs + [m, later], room, Some(later.createdAt)), n);
            page != [] && page[|page| - 1] == m
  {
    var bound := Some(later.createdAt);
    var matching := Matching(msgs + [m, later], room, bound);
    assert matching == Matching(msgs, room, bound) + [m] by {
      MatchingDropsLast(msgs + [m], later, room, bound);
      MatchingKeepsLast(msgs, m, room, bound);
      assert msgs + [m, later] == (msgs + [m]) + [later];
    }
    PageKeepsNewest(matching, n);
  }

  /** A page of a non-empty query result ends with the result's newest message. */
  lemma PageKeepsNewest(matching: seq<Message>, n: nat)
    requires matching != []
    ensures var page := Page(matching, n);
            page != [] && page[|page| - 1] == matching[|matching| - 1]
  {
    var page := Page(matching, n);
    assert page == matching[|matching| - |page|..];
  }

  /** A newest message outside the query leaves the matching messages unchanged. */
  lemma MatchingDropsLast(msgs: seq<Message>, last: Message, room: Id, bound: Option<int>)
    requires !InQuery(last, room, bound)
    ensures Matching(msgs + [last], room, bound) == Matching(msgs, room, bound)
  {
    assert (msgs + [last])[..|msgs|] == msgs;
  }

  /** A newest message inside the query becomes the newest matching message. */
  lemma MatchingKeepsLast(msgs: seq<Message>, last: Message, room: Id, bound: Option<int>)
    requires InQuery(last, room, bound)
    ensures Matching(msgs + [last], room, bound) == Matching(msgs, room, bound) + [last]
  {
    assert (msgs + [last])[..|msgs|] == msgs;
  }

  /** For a member, paging back from the newest message of a valid log returns, as
      the page's newest entry, the room's message stored just before it, when that
      one is strictly older. */
  lemma ReplyPageEndsWithMention(db: Db, user: Id, msgs: seq<Message>, m: Message, later: Message, room: Id,
                                 limit: Option<nat>)
    requires db.messages == msgs + [m, later] && MessagesValid(msgs)
    requires m.id == |msgs| && later.id == |msgs| + 1 && ValidMessage(m) && ValidMessage(later)
    requires m.room == room && m.createdAt < later.createdAt
    requires ActiveMembership(db.memberships, room, user).Some?
    ensures EndsWith200(GetMessages(db, user, ObjectId(room), Some(ObjectId(|msgs| + 1)), limit), m)
  {
    var bound := Some(later.createdAt);
    assert CursorBound(db.messages, Some(ObjectId(|msgs| + 1))) == bound by {
      ValidAppendTwo(msgs, m, later);
      CursorOnLast(msgs, m, later);
    }
    var page := Page(Matching(db.messages, room, bound), PageSize(limit));
    assert page != [] && page[|page| - 1] == m by {
      PageBeforeLater(msgs, m, later, room, PageSize(limit));
    }
    assert GetMessages(db, user, ObjectId(room), Some(ObjectId(|msgs| + 1)), limit).messages == page;
  }

  /** Two messages whose ids are their positions extend a valid log validly. */
  lemma ValidAppendTwo(msgs: seq<Message>, m: Message, later: Message)
    requires MessagesValid(msgs)
    requires m.id == |msgs| && later.id == |msgs| + 1 && ValidMessage(m) && ValidMessage(later)
    ensures MessagesValid(msgs + [m, later])
  {
    var s := msgs + [m, later];
    forall i | 0 <= i < |s| ensures s[i].id == i && ValidMessage(s[i]) {
      if i < |msgs| { assert s[i] == msgs[i]; }
    }
  }

  /** Paging backwards: the page before the oldest message of a page holds only
      messages strictly older than it. */
  lemma CursorPagesAreOlder(db: Db, user: Id, room: Id, oldest: Message, limit: Option<nat>)
    requires MessagesValid(db.messages) && oldest in db.messages
    ensures var r := GetMessages(db, user, ObjectId(room), Some(ObjectId(oldest.id)), limit);
            forall m :: m in r.messages ==> m.createdAt < oldest.createdAt && m.room == room
  {
    var k :| 0 <= k < |db.messages| && db.messages[k] == oldest;
    assert FindMessage(db.messages, oldest.id) == Some(oldest) by {
      var f := FindMessage(db.messages, oldest.id);
      assert f.Some?;
      var j :| 0 <= j < |db.messages| && db.messages[j] == f.value;
      assert db.messages[j].id == j && oldest.id == k;
    }
  }
}

=== FILE: models.dfy ===
/** The persisted records of the chat server (the schemas under server/models) and the field
    constraints their schemas enforce. Ids are opaque numbers; request parameters
    that should hold an id are `RawId`s, because the server first asks whether the
    string is a well-formed ObjectId. */
module Models {
  import opened Wrappers
  import opened Strings

  type Id = nat

  /** A request-supplied id: either a string that is a well-formed ObjectId (and the
      id it denotes) or one that is not. */
  datatype RawId = ObjectId(id: Id) | Malformed

  /** An HTTP reply: status code and the `message` field of its JSON body. */
  datatype Response = Response(status: nat, message: string)

  const RoomNameMaxLength: nat := 80
  const RoomCodeLength: nat := 6
  const MessageContentMaxLength: nat := 4000

  // ---------------------------------------------------------------------------
  // Room

  datatype Room = Room(
    id: Id,
    name: string,
    code: string,
    owner: Id,
    isActive: bool,
    lastActiveAt: int)

  /** A room as `Room.create` stores it: active, last active at creation time. */
  function NewRoom(id: Id, name: string, code: string, owner: Id, now: int): (r: Room)
    ensures r.isActive && r.lastActiveAt == now
    ensures r.id == id && r.name == name && r.code == code && r.owner == owner
  {
    Room(id, name, code, owner, true, now)
  }

  /** `name`: required, trimmed, at most 80 characters. */
  predicate RoomNameOk(name: string) {
    && 1 <= |name| <= RoomNameMaxLength
    && Trimmed(name)
  }

  /** `code`: required, trimmed, upper case, exactly 6 characters. */
  predicate RoomCodeOk(code: string) {
    && |code| == RoomCodeLength
    && Trimmed(code)
    && forall i :: 0 <= i < |code| ==> UpperChar(code[i]) == code[i]
  }

  /** The schema's `trim` and `uppercase` setters leave a valid code unchanged. */
  lemma RoomCodeIsNormal(code: string)
    requires RoomCodeOk(code)
    ensures Trim(code) == code && ToUpper(code) == code
  {
    TrimmedIsFixed(code);
  }

  predicate ValidRoom(r: Room) {
    RoomNameOk(r.name) && RoomCodeOk(r.code)
  }

  /** Room ids and room codes are both unique. */
  predicate RoomsUnique(rooms: seq<Room>) {
    forall i, j :: 0 <= i < j < |rooms| ==> rooms[i].id != rooms[j].id && rooms[i].code != rooms[j].code
  }

  // ---------------------------------------------------------------------------
  // RoomMembership

  datatype Role = Owner | Member
  datatype Status = Active | Left

  datatype Membership = Membership(
    room: Id,
    user: Id,
    role: Role,
    status: Status,
    joinedAt: int,
    leftAt: Option<int>)

  /** A membership with the schema defaults: role member, status active. */
  function NewMembership(room: Id, user: Id, now: int): (m: Membership)
    ensures m.role == Member && m.status == Active
    ensures m.room == room && m.user == user && m.joinedAt == now && m.leftAt == None
  {
    Membership(room, user, Member, Active, now, None)
  }

  /** The unique index on (room, user): at most one membership per pair. */
  predicate MembershipsUnique(ms: seq<Membership>) {
    forall i, j :: 0 <= i < j < |ms| ==> ms[i].room != ms[j].room || ms[i].user != ms[j].user
  }

  // ---------------------------------------------------------------------------
  // Message

  datatype MessageType = UserMessage | AiMessage

  datatype Message = Message(
    id: Id,
    room: Id,
    sender: Option<Id>,
    content: string,
    mtype: MessageType,
    aiTriggeredBy: Option<Id>,
    createdAt: int)

  /** `content`: required (so not empty) and at most 4000 characters; a message
      whose content breaks this is refused by `Message.create`. */
  predicate ContentOk(content: string) {
    1 <= |content| <= MessageContentMaxLength
  }

  /** A null sender marks an AI-authored message; only AI messages name the user
      who triggered them. */
  predicate AuthorshipConsistent(m: Message) {
    && (m.sender.None? <==> m.mtype == AiMessage)
    && (m.aiTriggeredBy.Some? ==> m.mtype == AiMessage)
  }

  predicate ValidMessage(m: Message) {
    ContentOk(m.content) && AuthorshipConsistent(m)
  }

  /** A user message as the chat gateway stores it. */
  function NewUserMessage(id: Id, room: Id, sender: Id, content: string, now: int): (m: Message)
    requires ContentOk(content)
    ensures ValidMessage(m) && m.mtype == UserMessage && m.sender == Some(sender)
    ensures m.id == id && m.room == room && m.content == content && m.createdAt == now
  {
    Message(id, room, Some(sender), content, UserMessage, None, now)
  }

  /** An AI reply as the chat gateway stores it: no sender, the triggering user recorded. */
  function NewAiMessage(id: Id, room: Id, triggeredBy: Id, content: string, now: int): (m: Message)
    requires ContentOk(content)
    ensures ValidMessage(m) && m.mtype == AiMessage && m.sender == None
    ensures m.aiTriggeredBy == Some(triggeredBy)
    ensures m.id == id && m.room == room && m.content == content && m.createdAt == now
  {
    Message(id, room, None, content, AiMessage, Some(triggeredBy), now)
  }

  /** The message log is kept in creation order; `createdAt` never decreases along it. */
  predicate CreationOrdered(msgs: seq<Message>) {
    forall i, j :: 0 <= i < j < |msgs| ==> msgs[i].createdAt <= msgs[j].createdAt
  }

  /** No message of the log was created after `t`. */
  predicate StampedBy(msgs: seq<Message>, t: int) {
    forall i :: 0 <= i < |msgs| ==> msgs[i].createdAt <= t
  }

  /** Appending a message created no earlier than the log keeps the log in creation
      order, and the longer log is stamped by anything no earlier than the message. */
  lemma StampLater(msgs: seq<Message>, m: Message)
    requires CreationOrdered(msgs) && StampedBy(msgs, m.createdAt)
    ensures CreationOrdered(msgs + [m])
    ensures forall t :: m.createdAt <= t ==> StampedBy(msgs + [m], t)
  {
    var s := msgs + [m];
    forall i, j | 0 <= i < j < |s| ensures s[i].createdAt <= s[j].createdAt {
      if j < |msgs| {
        assert s[i] == msgs[i] && s[j] == msgs[j];
      } else {
        assert s[i] == msgs[i];
      }
    }
  }

  // ---------------------------------------------------------------------------
  // User

  datatype User = User(
    email: string,
    username: Option<string>,
    password: Option<string>,
    isVerified: bool,
    verificationCode: Option<string>,
    verificationCodeExpiresAt: Option<int>,
    verificationAttempts: int,
    verificationLastSentAt: Option<int>,
    verificationLockUntil: Option<int>)

  /** A fresh user document: not verified, no attempts, no verification data. */
  function NewUser(email: string): (u: User)
    ensures u.email == email && !u.isVerified && u.verificationAttempts == 0
    ensures u.username.None? && u.verificationCode.None? && u.verificationLockUntil.None?
    ensures u.verificationLastSentAt.None? && u.verificationCodeExpiresAt.None?
  {
    User(email, None, None, false, None, None, 0, None, None)
  }

  /** The user collection keyed by email (which is unique and required); the
      sparse unique index on username holds among the users that have one. */
  predicate UsersValid(users: map<string, User>) {
    && (forall e :: e in users ==> users[e].email == e && e != [])
    && (forall e, f :: e in users && f in users && e != f && users[e].username.Some? ==>
          users[e].username != users[f].username)
  }
}

=== FILE: right_panel.dfy ===
/** The member list beside a room's chat (client/src/components/chat/RightPannel.jsx):
    the room's members marked online or offline, followed by anyone online who is
    not yet among them, and the count of those online. */
module RightPanel {

  /** A member as the room endpoint lists it. Ids are compared as strings. */
  datatype Member = Member(userId: string, username: string, role: string)

  /** An entry of the `room:onlineUsers` list: one per connected socket. */
  datatype OnlineUser = OnlineUser(userId: string, username: string)

  /** A row of the panel. */
  datatype Entry = Entry(userId: string, username: string, role: string, isOnline: bool)

  /** `onlineIds.has(id)`. */
  predicate IsOnline(online: seq<OnlineUser>, id: string) {
    exists i :: 0 <= i < |online| && online[i].userId == id
  }

  /** `allMembers.some((m) => m.userId === id)`. */
  predicate IsMember(all: seq<Member>, id: string) {
    exists i :: 0 <= i < |all| && all[i].userId == id
  }

  /** `onlineOnly`: the online entries whose user is not a listed member, in order
      (one per socket, so a user online twice appears twice). */
  function OnlineOnly(all: seq<Member>, online: seq<OnlineUser>): (r: seq<OnlineUser>)
    ensures |r| <= |online|
    ensures forall u :: u in r <==> u in online && !IsMember(all, u.userId)
  {
    if online == [] then []
    else
      var rest := OnlineOnly(all, online[..|online| - 1]);
      var last := online[|online| - 1];
      assert forall u :: u in online <==> u in online[..|online| - 1] || u == last;
      if IsMember(all, last.userId) then rest else rest + [last]
  }

  /** The online list split in two gives the two pieces' guests, in order. */
  lemma {:induction false} OnlineOnlyAppend(all: seq<Member>, a: seq<OnlineUser>, b: seq<OnlineUser>)
    ensures OnlineOnly(all, a + b) == OnlineOnly(all, a) + OnlineOnly(all, b)
    decreases |b|
  {
    if b == [] {
      assert a + b == a;
    } else {
      var init := b[..|b| - 1];
      assert (a + b)[..|a + b| - 1] == a + init;
      assert (a + b)[|a + b| - 1] == b[|b| - 1];
      OnlineOnlyAppend(all, a, init);
    }
  }

  /** The row a listed member gets. */
  function MemberRow(m: Member, online: seq<OnlineUser>): Entry {
    Entry(m.userId, m.username, m.role, IsOnline(online, m.userId))
  }

  /** The row an online user outside the list gets. */
  function GuestRow(u: OnlineUser): Entry {
    Entry(u.userId, u.username, "member", true)
  }

  /** `mergedMembers`: every listed member first, in order, then the online users
      outside the list. */
  function Merge(all: seq<Member>, online: seq<OnlineUser>): (r: seq<Entry>)
    ensures |r| == |all| + |OnlineOnly(all, online)|
    ensures forall i :: 0 <= i < |all| ==> r[i] == MemberRow(all[i], online)
    ensures forall i :: |all| <= i < |r| ==> r[i] == GuestRow(OnlineOnly(all, online)[i - |all|])
  {
    seq(|all|, i requires 0 <= i < |all| => MemberRow(all[i], online))
      + seq(|OnlineOnly(all, online)|, i requires 0 <= i < |OnlineOnly(all, online)| => GuestRow(OnlineOnly(all, online)[i]))
  }

  /** The users a list of rows shows as online. */
  function OnlineIdsShown(rows: seq<Entry>): set<string> {
    set i | 0 <= i < |rows| && rows[i].isOnline :: rows[i].userId
  }

  /** The users online, by id. */
  function OnlineIds(online: seq<OnlineUser>): set<string> {
    set i | 0 <= i < |online| :: online[i].userId
  }

  /** The panel shows exactly the online users as online: every online user has a
      row marked online, and every row marked online is an online user. Every row
      is a listed member or an online user. */
  lemma MergeShowsOnline(all: seq<Member>, online: seq<OnlineUser>)
    ensures OnlineIdsShown(Merge(all, online)) == OnlineIds(online)
    ensures forall i :: 0 <= i < |Merge(all, online)| ==>
              IsMember(all, Merge(all, online)[i].userId) || IsOnline(online, Merge(all, online)[i].userId)
  {
    var r := Merge(all, online);
    var guests := OnlineOnly(all, online);
    forall id | id in OnlineIds(online) ensures id in OnlineIdsShown(r) {
      var k :| 0 <= k < |online| && online[k].userId == id;
      if IsMember(all, id) {
        var j :| 0 <= j < |all| && all[j].userId == id;
        assert r[j].isOnline && r[j].userId == id;
      } else {
        assert online[k] in guests;
        var j :| 0 <= j < |guests| && guests[j] == online[k];
        assert r[|all| + j].isOnline && r[|all| + j].userId == id;
      }
    }
    forall id | id in OnlineIdsShown(r) ensures id in OnlineIds(online) {
      var i :| 0 <= i < |r| && r[i].isOnline && r[i].userId == id;
      if i >= |all| {
        assert guests[i - |all|] in online;
      }
    }
    forall i | 0 <= i < |r| ensures IsMember(all, r[i].userId) || IsOnline(online, r[i].userId) {
      if i >= |all| {
        assert guests[i - |all|] in online;
      }
    }
  }

  /** How many rows are marked online. */
  function CountOnline(rows: seq<Entry>): (n: nat)
    ensures n <= |rows|
  {
    if rows == [] then 0
    else CountOnline(rows[..|rows| - 1]) + (if rows[|rows| - 1].isOnline then 1 else 0)
  }

  /** How many listed members are online. */
  function CountMembersOnline(all: seq<Member>, online: seq<OnlineUser>): (n: nat)
    ensures n <= |all|
  {
    if all == [] then 0
    else CountMembersOnline(all[..|all| - 1], online) + (if IsOnline(online, all[|all| - 1].userId) then 1 else 0)
  }

  /** `onlineCount`: the online members plus every online user outside the list. */
  function OnlineCount(all: seq<Member>, online: seq<OnlineUser>): (n: nat)
    ensures n == CountMembersOnline(all, online) + |OnlineOnly(all, online)|
    ensures n <= |Merge(all, online)|
  {
    var r := Merge(all, online);
    CountSplit(r, |all|);
    CountMembersRows(all, online, r);
    CountGuestRows(r[|all|..]);
    CountOnline(r)
  }

  /** Counting a sequence in two pieces. */
  lemma {:induction false} CountSplit(rows: seq<Entry>, k: nat)
    requires k <= |rows|
    ensures CountOnline(rows) == CountOnline(rows[..k]) + CountOnline(rows[k..])
    decreases |rows|
  {
    if |rows| > k {
      var init := rows[..|rows| - 1];
      CountSplit(init, k);
      assert init[..k] == rows[..k];
      assert rows[k..][..|rows[k..]| - 1] == init[k..];
    } else {
      assert rows[..k] == rows;
      assert rows[k..] == [];
    }
  }

  /** The member rows count the online members. */
  lemma {:induction false} CountMembersRows(all: seq<Member>, online: seq<OnlineUser>, r: seq<Entry>)
    requires |r| >= |all|
    requires forall i :: 0 <= i < |all| ==> r[i] == MemberRow(all[i], online)
    ensures CountOnline(r[..|all|]) == CountMembersOnline(all, online)
    decreases |all|
  {
    if all != [] {
      var n := |all| - 1;
      CountMembersRows(all[..n], online, r[..n]);
      assert r[..|all|][..n] == r[..n][..n];
    }
  }

  /** Rows all marked online count themselves. */
  lemma {:induction false} CountGuestRows(rows: seq<Entry>)
    requires forall i :: 0 <= i < |rows| ==> rows[i].isOnline
    ensures CountOnline(rows) == |rows|
    decreases |rows|
  {
    if rows != [] {
      CountGuestRows(rows[..|rows| - 1]);
    }
  }
}

=== FILE: room_card.dfy ===
/** The dashboard's room card (client/src/components/dashboard/RoomCard.jsx): the
    relative "last active" text and the fallbacks that fill its title, tags and
    role badge. */
module RoomCard {
  import opened Wrappers
  import opened Strings

  /** A date field as the card receives it: absent (or empty), a string `Date`
      cannot read, or a reading in milliseconds since the epoch. */
  datatype DateField = Missing | Invalid | At(ms: int)

  /** The units the text counts in. */
  datatype Unit = Minutes | Hours | Days

  function UnitMs(u: Unit): nat {
    match u
    case Minutes => 60000
    case Hours => 3600000
    case Days => 86400000
  }

  function Suffix(u: Unit): string {
    match u
    case Minutes => "m ago"
    case Hours => "h ago"
    case Days => "d ago"
  }

  /** The largest unit of which at least one has elapsed but, below days, fewer than
      one of the next unit. */
  function UnitFor(elapsed: int): Unit {
    if elapsed < 3600000 then Minutes else if elapsed < 86400000 then Hours else Days
  }

  /** Whole hours are whole minutes floored by 60. */
  lemma MinutesToHours(elapsed: int)
    ensures (elapsed / 60000) / 60 == elapsed / 3600000
  {
    var q := elapsed / 60000;
    var h := q / 60;
    assert 60000 * q <= elapsed < 60000 * q + 60000;
    assert 60 * h <= q < 60 * h + 60;
    assert 3600000 * h <= elapsed < 3600000 * h + 3600000;
  }

  /** Whole days are whole hours floored by 24. */
  lemma HoursToDays(elapsed: int)
    ensures (elapsed / 3600000) / 24 == elapsed / 86400000
  {
    var q := elapsed / 3600000;
    var d := q / 24;
    assert 3600000 * q <= elapsed < 3600000 * q + 3600000;
    assert 24 * d <= q < 24 * d + 24;
    assert 86400000 * d <= elapsed < 86400000 * d + 86400000;
  }

  /** `timeAgo(dateStr)` at the instant `now`: nothing for an absent date; "NaNd
      ago" for one `Date` cannot read (every comparison with NaN fails); "Just now"
      under a minute (future dates included); otherwise the whole number of
      elapsed minutes, hours or days, in the largest unit that still counts one. */
  function TimeAgo(date: DateField, now: int): (r: Option<string>)
    ensures r.None? <==> date.Missing?
    ensures date.Invalid? ==> r == Some("NaNd ago")
    ensures date.At? && now - date.ms < 60000 ==> r == Some("Just now")
    ensures date.At? && now - date.ms >= 60000 ==>
              var elapsed := now - date.ms;
              var u := UnitFor(elapsed);
              r == Some(NatToString(elapsed / UnitMs(u)) + Suffix(u))
  {
    match date
    case Missing => None
    case Invalid => Some("NaNd ago")
    case At(ms) =>
      var diff := now - ms;
      var mins := diff / 60000;
      if mins < 1 then Some("Just now")
      else if mins < 60 then Some(NatToString(mins) + "m ago")
      else
        var hrs := mins / 60;
        MinutesToHours(diff);
        if hrs < 24 then Some(NatToString(hrs) + "h ago")
        else
          HoursToDays(diff);
          Some(NatToString(hrs / 24) + "d ago")
  }

  /** The count shown, read back: at least one whole unit has elapsed, fewer than
      one more, and below days fewer than one of the next unit. */
  lemma TimeAgoCounts(ms: int, now: int)
    requires now - ms >= 60000
    ensures var elapsed := now - ms;
            var u := UnitFor(elapsed);
            var text := TimeAgo(At(ms), now).value;
            var digits := text[..|text| - |Suffix(u)|];
            && |text| > |Suffix(u)| && AllDigits(digits)
            && text[|text| - |Suffix(u)|..] == Suffix(u)
            && var n := ParseDigits(digits);
               && 1 <= n && n * UnitMs(u) <= elapsed < (n + 1) * UnitMs(u)
               && (u == Minutes ==> n < 60) && (u == Hours ==> n < 24)
  {
    var elapsed := now - ms;
    var u := UnitFor(elapsed);
    var n := elapsed / UnitMs(u);
    ReadBack(n, Suffix(u));
    WholeUnits(elapsed);
  }

  /** A numeral followed by a suffix gives back the number. */
  lemma ReadBack(n: nat, suffix: string)
    ensures var text := NatToString(n) + suffix;
            && text[..|text| - |suffix|] == NatToString(n)
            && text[|text| - |suffix|..] == suffix
            && ParseDigits(text[..|text| - |suffix|]) == n
  {
    var text := NatToString(n) + suffix;
    assert text[..|text| - |suffix|] == NatToString(n);
    ParseNatToString(n);
  }

  /** The count in the chosen unit is at least one, brackets the elapsed time, and
      below days stays under one of the next unit. */
  lemma WholeUnits(elapsed: int)
    requires elapsed >= 60000
    ensures var u := UnitFor(elapsed);
            var n := elapsed / UnitMs(u);
            && 1 <= n && n * UnitMs(u) <= elapsed < (n + 1) * UnitMs(u)
            && (u == Minutes ==> n < 60) && (u == Hours ==> n < 24)
  {
    var u := UnitFor(elapsed);
    var n := elapsed / UnitMs(u);
    match u
    case Minutes =>
      assert UnitMs(u) == 60000;
      assert 60000 * n <= elapsed < 60000 * n + 60000;
    case Hours =>
      assert UnitMs(u) == 3600000;
      assert 3600000 * n <= elapsed < 3600000 * n + 3600000;
    case Days =>
      assert UnitMs(u) == 86400000;
      assert 86400000 * n <= elapsed < 86400000 * n + 86400000;
  }

  /** `roomRole`s the badge names; anything else shows no badge. */
  function RoleLabel(membershipRole: Option<string>): (r: Option<string>)
    ensures r.Some? <==> membershipRole == Some("owner") || membershipRole == Some("member")
    ensures r.Some? ==> r.value == if membershipRole.value == "owner" then "Owner" else "Member"
  {
    if membershipRole == Some("owner") then Some("Owner")
    else if membershipRole == Some("member") then Some("Member")
    else None
  }

  /** The fields of a room the card reads; `title`, `tags` and `lastActive` are the
      dashboard's sample-data spellings. */
  datatype CardRoom = CardRoom(
    name: Option<string>,
    title: Option<string>,
    code: Option<string>,
    tags: Option<seq<string>>,
    membershipRole: Option<string>,
    lastActiveAt: DateField,
    lastActive: Option<string>)

  /** JavaScript truthiness of an optional string: present and non-empty. */
  predicate Truthy(s: Option<string>) {
    s.Some? && s.value != []
  }

  /** `room.name || room.title || "Unnamed Room"`. */
  function CardTitle(room: CardRoom): (t: string)
    ensures t != []
    ensures Truthy(room.name) ==> t == room.name.value
    ensures !Truthy(room.name) && Truthy(room.title) ==> t == room.title.value
    ensures t == "Unnamed Room" <==>
              (Truthy(room.name) ==> room.name.value == "Unnamed Room")
              && (!Truthy(room.name) && Truthy(room.title) ==> room.title.value == "Unnamed Room")
  {
    if Truthy(room.name) then room.name.value
    else if Truthy(room.title) then room.title.value
    else "Unnamed Room"
  }

  /** `room.tags || (room.code ? ["Code: " + code] : [])`: an array, even an empty
      one, is kept; otherwise a present code makes the one tag. */
  function CardTags(room: CardRoom): (tags: seq<string>)
    ensures room.tags.Some? ==> tags == room.tags.value
    ensures tags == [] <==> room.tags == Some([]) || (room.tags.None? && !Truthy(room.code))
    ensures room.tags.None? && Truthy(room.code) ==> tags == ["Code: " + room.code.value]
  {
    match room.tags
    case Some(t) => t
    case None => if Truthy(room.code) then ["Code: " + room.code.value] else []
  }

  /** `timeAgo(room.lastActiveAt) || room.lastActive || null`. */
  function CardLastActive(room: CardRoom, now: int): (r: Option<string>)
    ensures !room.lastActiveAt.Missing? ==> r == TimeAgo(room.lastActiveAt, now)
    ensures room.lastActiveAt.Missing? ==> (r.Some? <==> Truthy(room.lastActive))
    ensures room.lastActiveAt.Missing? ==> r == (if Truthy(room.lastActive) then room.lastActive else None)
    ensures r.Some? ==> r.value != []
  {
    match TimeAgo(room.lastActiveAt, now)
    case Some(text) => assert text != []; Some(text)
    case None => if Truthy(room.lastActive) then room.lastActive else None
  }
}

=== FILE: room_controller.dfy ===
/** Room and membership lifecycle (server/controllers/roomController.js): join-code
    generation, room creation with its owner membership, listing, lookup,
    join-by-code as an upsert, and leaving. `Math.random` draws, fresh ids and the
    clock are inputs. */
module RoomController {
  import opened Wrappers
  import opened Strings
  import opened Models
  import opened Store

  /** 32 characters: the Latin capitals and digits without I, O, 0 and 1. */
  const RoomCodeAlphabet: string := "ABCDEFGHJKLMNPQRSTUVWXYZ23456789"

  /** How many codes `createUniqueRoomCode` draws before giving up. */
  const UniqueCodeAttempts: nat := 10

  /** The six alphabet positions one call of `generateRoomCode` draws,
      each `Math.floor(Math.random() * 32)`. */
  predicate ValidDraw(draw: seq<nat>) {
    |draw| == RoomCodeLength && forall i :: 0 <= i < |draw| ==> draw[i] < 32
  }

  /** The alphabet character at position `k`, in closed form: A to H, J to N,
      P to Z, then 2 to 9. */
  function AlphabetChar(k: nat): (c: char)
    requires k < 32
    ensures InAlphabet(c)
  {
    if k < 8 then ('A' as int + k) as char
    else if k < 13 then ('A' as int + k + 1) as char
    else if k < 24 then ('A' as int + k + 2) as char
    else ('2' as int + k - 24) as char
  }

  /** Upper-case letters other than I and O, and the digits 2 to 9. */
  predicate InAlphabet(c: char) {
    ('A' <= c <= 'Z' && c != 'I' && c != 'O') || ('2' <= c <= '9')
  }

  /** The position of an alphabet character: the inverse of `AlphabetChar`. */
  function AlphabetPosition(c: char): (k: nat)
    requires InAlphabet(c)
    ensures k < 32 && AlphabetChar(k) == c
  {
    if c < 'A' then c as int - '2' as int + 24
    else if c < 'I' then c as int - 'A' as int
    else if c < 'O' then c as int - 'A' as int - 1
    else c as int - 'A' as int - 2
  }

  lemma PositionOfChar(k: nat)
    requires k < 32
    ensures AlphabetPosition(AlphabetChar(k)) == k
  {
  }

  /** The alphabet literal is the closed form, position by position. */
  lemma AlphabetIsClosedForm()
    ensures |RoomCodeAlphabet| == 32
    ensures forall k :: 0 <= k < 32 ==> RoomCodeAlphabet[k] == AlphabetChar(k)
  {
  }

  /** Alphabet characters are fixed by upper-casing and are not whitespace. */
  lemma AlphabetCharIsCodeChar(c: char)
    requires InAlphabet(c)
    ensures UpperChar(c) == c && !IsSpace(c)
  {
  }

  /** The code a draw spells. */
  function CodeOf(draw: seq<nat>): (code: string)
    requires ValidDraw(draw)
    ensures |code| == |draw|
    ensures forall i :: 0 <= i < |draw| ==> code[i] == AlphabetChar(draw[i])
  {
    seq(|draw|, i requires 0 <= i < |draw| => AlphabetChar(draw[i]))
  }

  /** `generateRoomCode`: appends one alphabet character per draw, so the result is
      six alphabet characters and never holds I, O, 0 or 1 (`CodeIsWellFormed` shows
      it is a well-formed room code). */
  method GenerateRoomCode(draw: seq<nat>) returns (code: string)
    requires ValidDraw(draw)
    ensures code == CodeOf(draw)
    ensures |code| == RoomCodeLength
    ensures forall i :: 0 <= i < |code| ==> InAlphabet(code[i])
  {
    code := "";
    var i := 0;
    while i < RoomCodeLength
      invariant 0 <= i <= RoomCodeLength
      invariant |code| == i
      invariant forall k :: 0 <= k < i ==> code[k] == AlphabetChar(draw[k])
    {
      AlphabetIsClosedForm();
      code := code + [RoomCodeAlphabet[draw[i]]];
      i := i + 1;
    }
  }

  /** Every code a draw spells is a well-formed room code: six characters, upper
      case, nothing to trim. */
  lemma CodeIsWellFormed(draw: seq<nat>)
    requires ValidDraw(draw)
    ensures forall i :: 0 <= i < |draw| ==> InAlphabet(CodeOf(draw)[i])
    ensures RoomCodeOk(CodeOf(draw))
  {
    var code := CodeOf(draw);
    forall i | 0 <= i < |code|
      ensures InAlphabet(code[i]) && UpperChar(code[i]) == code[i] && !IsSpace(code[i])
    {
      AlphabetCharIsCodeChar(code[i]);
    }
  }

  /** Reading the alphabet positions back out of a code. */
  function DrawOf(code: string): (draw: seq<nat>)
    requires forall i :: 0 <= i < |code| ==> InAlphabet(code[i])
    ensures |draw| == |code|
    ensures forall i :: 0 <= i < |code| ==> draw[i] < 32 && AlphabetChar(draw[i]) == code[i]
  {
    seq(|code|, i requires 0 <= i < |code| => AlphabetPosition(code[i]))
  }

  /** Draws and codes are in one-to-one correspondence: reading a draw's code back
      gives the draw, so two different draws never spell the same code. */
  lemma CodeDrawRoundTrip(draw: seq<nat>)
    requires ValidDraw(draw)
    ensures DrawOf(CodeOf(draw)) == draw
  {
    var d := DrawOf(CodeOf(draw));
    forall i | 0 <= i < |draw|
      ensures d[i] == draw[i]
    {
      var c := CodeOf(draw)[i];
      assert AlphabetChar(d[i]) == c == AlphabetChar(draw[i]);
      PositionOfChar(d[i]);
      PositionOfChar(draw[i]);
    }
  }

  /** `createUniqueRoomCode`: tries the supplied draws in order, at most ten of
      them, and returns the first code no room (active or not) holds; after ten
      codes in use it fails. `tries` is how many draws were used. */
  method CreateUniqueRoomCode(rooms: seq<Room>, draws: seq<seq<nat>>) returns (r: Option<string>, tries: nat)
    requires |draws| >= UniqueCodeAttempts
    requires forall k :: 0 <= k < |draws| ==> ValidDraw(draws[k])
    ensures 1 <= tries <= UniqueCodeAttempts
    ensures forall k :: 0 <= k < tries - 1 ==> CodeInUse(rooms, CodeOf(draws[k]))
    ensures r.Some? ==> r.value == CodeOf(draws[tries - 1]) && !CodeInUse(rooms, r.value)
    ensures r.Some? ==> RoomCodeOk(r.value)
    ensures r.None? ==> tries == UniqueCodeAttempts
    ensures r.None? ==> forall k :: 0 <= k < UniqueCodeAttempts ==> CodeInUse(rooms, CodeOf(draws[k]))
  {
    var attempts := 0;
    while attempts < UniqueCodeAttempts
      invariant 0 <= attempts <= UniqueCodeAttempts
      invariant forall k :: 0 <= k < attempts ==> CodeInUse(rooms, CodeOf(draws[k]))
    {
      var code := GenerateRoomCode(draws[attempts]);
      if !(exists i :: 0 <= i < |rooms| && rooms[i].code == code) {
        CodeIsWellFormed(draws[attempts]);
        return Some(code), attempts + 1;
      }
      attempts := attempts + 1;
    }
    return None, UniqueCodeAttempts;
  }

  /** The id `Room.create` assigns is fresh: no room and no membership mentions it. */
  predicate FreshRoomId(db: Db, id: Id) {
    && (forall i :: 0 <= i < |db.rooms| ==> db.rooms[i].id != id)
    && (forall i :: 0 <= i < |db.memberships| ==> db.memberships[i].room != id)
  }

  /** The two writes of a successful `createRoom`: the room, then its creator's
      active owner membership. */
  function WithNewRoom(db: Db, room: Room, now: int): (db': Db)
    ensures db'.rooms == db.rooms + [room] && db'.messages == db.messages
    ensures db'.memberships == db.memberships + [Membership(room.id, room.owner, Owner, Active, now, None)]
  {
    db.(rooms := db.rooms + [room],
        memberships := db.memberships + [Membership(room.id, room.owner, Owner, Active, now, None)])
  }

  /** Storing a valid room under a fresh id and an unused code keeps ids and codes
      unique and keeps one membership per (room, user) pair. */
  lemma WithNewRoomKeepsDbValid(db: Db, room: Room, now: int)
    requires FreshRoomId(db, room.id)
    requires ValidRoom(room) && !CodeInUse(db.rooms, room.code)
    ensures DbValid(db) ==> DbValid(WithNewRoom(db, room, now))
  {
  }

  /** `createRoom`: a blank name is refused with 400. Otherwise the room is stored
      with the trimmed name and the first unused code among ten draws, and its
      creator becomes its active owner (201). Ten codes in use, or a trimmed name
      over 80 characters (a schema violation), fail with 500 and store nothing. */
  method CreateRoom(db: Db, user: Id, name: string, draws: seq<seq<nat>>, newId: Id, now: int)
    returns (db': Db, response: Response, room: Option<Room>)
    requires |draws| >= UniqueCodeAttempts
    requires forall k :: 0 <= k < |draws| ==> ValidDraw(draws[k])
    requires FreshRoomId(db, newId)
    ensures AllSpace(name) <==> response == Response(400, "Room name is required")
    ensures response.status == 201 <==> room.Some?
    ensures response.status != 201 ==> db' == db
    ensures response.status == 500 <==>
              && !AllSpace(name)
              && (|Trim(name)| > RoomNameMaxLength ||
                  forall k :: 0 <= k < UniqueCodeAttempts ==> CodeInUse(db.rooms, CodeOf(draws[k])))
    ensures room.Some? ==>
              && room.value == NewRoom(newId, Trim(name), room.value.code, user, now)
              && ValidRoom(room.value) && !CodeInUse(db.rooms, room.value.code)
              && (exists k :: 0 <= k < UniqueCodeAttempts && room.value.code == CodeOf(draws[k]))
              && db' == WithNewRoom(db, room.value, now)
    ensures DbValid(db) ==> DbValid(db')
  {
    if name == [] || Trim(name) == [] {
      return db, Response(400, "Room name is required"), None;
    }
    assert !AllSpace(name);
    var code, tries := CreateUniqueRoomCode(db.rooms, draws);
    if code.None? || |Trim(name)| > RoomNameMaxLength {
      return db, Response(500, "Failed to create room"), None;
    }
    var rm := NewRoom(newId, Trim(name), code.value, user, now);
    assert ValidRoom(rm);
    WithNewRoomKeepsDbValid(db, rm, now);
    db' := WithNewRoom(db, rm, now);
    response := Response(201, "Room created");
    room := Some(rm);
  }

  /** A room as `listMyRooms` and `getRoomById` return it: the room and the caller's role. */
  datatype RoomView = RoomView(room: Room, membershipRole: Role)

  /** `listMyRooms`: one entry per active membership of `user` whose room is active. */
  function ListMyRooms(db: Db, user: Id): (r: seq<RoomView>)
    ensures forall v :: v in r ==>
              && v.room.isActive && v.room in db.rooms
              && exists m :: m in db.memberships && m.user == user && m.status == Active
                             && m.room == v.room.id && m.role == v.membershipRole
    ensures forall m :: m in db.memberships && m.user == user && m.status == Active
                        && FindActiveRoom(db.rooms, m.room).Some? ==>
              RoomView(FindActiveRoom(db.rooms, m.room).value, m.role) in r
  {
    ListRooms(db.rooms, db.memberships, user)
  }

  function ListRooms(rooms: seq<Room>, ms: seq<Membership>, user: Id): (r: seq<RoomView>)
    ensures forall v :: v in r ==>
              && v.room.isActive && v.room in rooms
              && exists m :: m in ms && m.user == user && m.status == Active
                             && m.room == v.room.id && m.role == v.membershipRole
    ensures forall m :: m in ms && m.user == user && m.status == Active
                        && FindActiveRoom(rooms, m.room).Some? ==>
              RoomView(FindActiveRoom(rooms, m.room).value, m.role) in r
  {
    if ms == [] then []
    else
      var m := ms[0];
      var rest := ListRooms(rooms, ms[1..], user);
      assert forall x :: x in ms ==> x == m || x in ms[1..];
      if m.user == user && m.status == Active && FindActiveRoom(rooms, m.room).Some? then
        [RoomView(FindActiveRoom(rooms, m.room).value, m.role)] + rest
      else
        rest
  }

  datatype RoomReply = RoomReply(response: Response, view: Option<RoomView>)

  /** `getRoomById`: checks the id's form (400), then the caller's active membership
      (403), then that the room exists and is active (404), in that order. */
  function GetRoomById(db: Db, user: Id, roomId: RawId): (r: RoomReply)
    ensures roomId.Malformed? <==> r.response == Response(400, "Invalid room id")
    ensures r.response.status == 403 <==>
              roomId.ObjectId? && ActiveMembership(db.memberships, roomId.id, user).None?
    ensures r.response.status == 404 <==>
              && roomId.ObjectId? && ActiveMembership(db.memberships, roomId.id, user).Some?
              && FindActiveRoom(db.rooms, roomId.id).None?
    ensures r.response.status == 200 <==> r.view.Some?
    ensures r.view.Some? ==>
              && roomId.ObjectId?
              && r.view.value.room.id == roomId.id && r.view.value.room.isActive && r.view.value.room in db.rooms
              && exists m :: m in db.memberships && m.room == roomId.id && m.user == user
                             && m.status == Active && m.role == r.view.value.membershipRole
  {
    match roomId
    case Malformed => RoomReply(Response(400, "Invalid room id"), None)
    case ObjectId(id) =>
      match ActiveMembership(db.memberships, id, user)
      case None => RoomReply(Response(403, "Access denied"), None)
      case Some(m) =>
        match FindActiveRoom(db.rooms, id)
        case None => RoomReply(Response(404, "Room not found"), None)
        case Some(room) => RoomReply(Response(200, ""), Some(RoomView(room, m.role)))
  }

  /** The role the join upsert writes: owner exactly when the caller owns the room. */
  function JoinRole(room: Room, user: Id): Role {
    if room.owner == user then Owner else Member
  }

  /** The membership upsert of `joinRoomByCode`: the existing membership of the pair
      is made active with no leave time and the owner-derived role; if there is none,
      one is inserted, joined now. */
  function UpsertMembership(ms: seq<Membership>, room: Room, user: Id, now: int): (r: seq<Membership>)
    ensures MembershipIndex(r, room.id, user).Some?
    ensures var m := r[MembershipIndex(r, room.id, user).value];
            m.status == Active && m.leftAt.None? && m.role == JoinRole(room, user)
    ensures MembershipIndex(ms, room.id, user).Some? ==>
              var i := MembershipIndex(ms, room.id, user).value;
              r == ms[i := ms[i].(status := Active, leftAt := None, role := JoinRole(room, user))]
    ensures MembershipIndex(ms, room.id, user).None? ==>
              r == ms + [Membership(room.id, user, JoinRole(room, user), Active, now, None)]
    ensures MembershipsUnique(ms) ==> MembershipsUnique(r)
  {
    match MembershipIndex(ms, room.id, user)
    case Some(i) =>
      var r := ms[i := ms[i].(status := Active, leftAt := None, role := JoinRole(room, user))];
      MembershipIndexIs(r, room.id, user, i);
      r
    case None =>
      var r := ms + [Membership(room.id, user, JoinRole(room, user), Active, now, None)];
      MembershipIndexIs(r, room.id, user, |ms|);
      r
  }

  /** The writes of a successful join: the room's last activity is bumped and the
      membership upserted. */
  function Joined(db: Db, k: nat, user: Id, now: int): (db': Db)
    requires k < |db.rooms|
    ensures |db'.rooms| == |db.rooms| && db'.messages == db.messages
    ensures forall j :: 0 <= j < |db.rooms| && j != k ==> db'.rooms[j] == db.rooms[j]
    ensures db'.rooms[k] == db.rooms[k].(lastActiveAt := now)
    ensures db'.memberships == UpsertMembership(db.memberships, db.rooms[k], user, now)
  {
    db.(rooms := db.rooms[k := db.rooms[k].(lastActiveAt := now)],
        memberships := UpsertMembership(db.memberships, db.rooms[k], user, now))
  }

  /** A join keeps room ids and codes unique and one membership per pair. */
  lemma JoinedKeepsDbValid(db: Db, k: nat, user: Id, now: int)
    requires k < |db.rooms| && DbValid(db)
    ensures DbValid(Joined(db, k, user, now))
  {
    var db' := Joined(db, k, user, now);
    assert forall j :: 0 <= j < |db.rooms| ==>
             db'.rooms[j].id == db.rooms[j].id && db'.rooms[j].code == db.rooms[j].code
             && db'.rooms[j].name == db.rooms[j].name;
  }

  /** `joinRoomByCode`: a blank code is refused with 400; the code is trimmed and
      upper-cased and must name an active room (404); then the caller's membership
      is upserted and the room's last activity set to now. */
  function JoinRoomByCode(db: Db, user: Id, code: string, now: int): (r: (Db, Response))
    ensures AllSpace(code) <==> r.1 == Response(400, "Room code is required")
    ensures r.1.status == 404 <==>
              !AllSpace(code) && ActiveRoomIndexByCode(db.rooms, ToUpper(Trim(code))).None?
    ensures r.1.status != 200 ==> r.0 == db
    ensures r.1.status == 200 <==>
              !AllSpace(code) && ActiveRoomIndexByCode(db.rooms, ToUpper(Trim(code))).Some?
    ensures r.1.status == 200 ==>
              r.0 == Joined(db, ActiveRoomIndexByCode(db.rooms, ToUpper(Trim(code))).value, user, now)
  {
    if code == [] || Trim(code) == [] then
      (db, Response(400, "Room code is required"))
    else
      match ActiveRoomIndexByCode(db.rooms, ToUpper(Trim(code)))
      case None => (db, Response(404, "Room not found"))
      case Some(k) => (Joined(db, k, user, now), Response(200, "Joined room successfully"))
  }

  /** Joining keeps the store valid. */
  lemma JoinRoomByCodeKeepsDbValid(db: Db, user: Id, code: string, now: int)
    requires DbValid(db)
    ensures DbValid(JoinRoomByCode(db, user, code, now).0)
  {
    if JoinRoomByCode(db, user, code, now).1.status == 200 {
      JoinedKeepsDbValid(db, ActiveRoomIndexByCode(db.rooms, ToUpper(Trim(code))).value, user, now);
    }
  }

  /** Joining by the same code twice leaves the memberships as the first join left
      them: `joinedAt` is only written on insert. */
  lemma JoinByCodeIdempotent(db: Db, user: Id, code: string, t1: int, t2: int)
    ensures var once := JoinRoomByCode(db, user, code, t1).0;
            JoinRoomByCode(once, user, code, t2).0.memberships == once.memberships
  {
    var (once, resp) := JoinRoomByCode(db, user, code, t1);
    if resp.status == 200 {
      var c := ToUpper(Trim(code));
      var k := ActiveRoomIndexByCode(db.rooms, c).value;
      JoinedKeepsIndex(db, k, c, user, t1);
      assert JoinRoomByCode(once, user, code, t2).0 == Joined(once, k, user, t2);
      UpsertTwice(db.memberships, db.rooms[k], once.rooms[k], user, t1, t2);
    }
  }

  /** After a join, the code still finds the same room first. */
  lemma JoinedKeepsIndex(db: Db, k: nat, c: string, user: Id, now: int)
    requires ActiveRoomIndexByCode(db.rooms, c) == Some(k)
    ensures ActiveRoomIndexByCode(Joined(db, k, user, now).rooms, c) == Some(k)
  {
    var rooms := Joined(db, k, user, now).rooms;
    assert forall j :: 0 <= j < |db.rooms| ==> (rooms[j].code == c && rooms[j].isActive
                                                <==> db.rooms[j].code == c && db.rooms[j].isActive);
  }

  /** Upserting the same pair again, with a room of the same id and owner, changes
      nothing. */
  lemma UpsertTwice(ms: seq<Membership>, room: Room, room': Room, user: Id, t1: int, t2: int)
    requires room'.id == room.id && room'.owner == room.owner
    ensures UpsertMembership(UpsertMembership(ms, room, user, t1), room', user, t2) == UpsertMembership(ms, room, user, t1)
  {
    var once := UpsertMembership(ms, room, user, t1);
    var i := MembershipIndex(once, room.id, user).value;
    assert once[i := once[i].(status := Active, leftAt := None, role := JoinRole(room', user))] == once;
  }

  /** `leaveRoom`: checks the id's form (400), that the room exists and is active
      (404), that the caller has an active membership (404), and that the caller is
      not its owner (400); then marks the membership left at `now`. */
  function LeaveRoom(db: Db, user: Id, roomId: RawId, now: int): (r: (Db, Response))
    ensures roomId.Malformed? <==> r.1 == Response(400, "Invalid room id")
    ensures r.1 == Response(404, "Room not found") <==>
              roomId.ObjectId? && (FindRoom(db.rooms, roomId.id).None? || !FindRoom(db.rooms, roomId.id).value.isActive)
    ensures r.1.status != 200 ==> r.0 == db
    ensures roomId.ObjectId? && FindRoom(db.rooms, roomId.id).Some? && FindRoom(db.rooms, roomId.id).value.isActive ==>
              && (ActiveMembership(db.memberships, roomId.id, user).None? ==>
                    r.1 == Response(404, "Membership not found"))
              && (ActiveMembership(db.memberships, roomId.id, user).Some?
                  && ActiveMembership(db.memberships, roomId.id, user).value.role == Owner ==>
                    r.1 == Response(400, "Owner cannot leave room"))
    ensures r.1.status == 200 <==>
              && roomId.ObjectId?
              && FindRoom(db.rooms, roomId.id).Some? && FindRoom(db.rooms, roomId.id).value.isActive
              && ActiveMembership(db.memberships, roomId.id, user).Some?
              && ActiveMembership(db.memberships, roomId.id, user).value.role == Member
    ensures r.1.status == 200 ==>
              var i := ActiveMembershipIndex(db.memberships, roomId.id, user).value;
              r.0 == db.(memberships := db.memberships[i := db.memberships[i].(status := Left, leftAt := Some(now))])
    ensures DbValid(db) ==> DbValid(r.0)
  {
    match roomId
    case Malformed => (db, Response(400, "Invalid room id"))
    case ObjectId(id) =>
      var room := FindRoom(db.rooms, id);
      if room.None? || !room.value.isActive then
        (db, Response(404, "Room not found"))
      else
        match ActiveMembershipIndex(db.memberships, id, user)
        case None => (db, Response(404, "Membership not found"))
        case Some(i) =>
          if db.memberships[i].role == Owner then
            (db, Response(400, "Owner cannot leave room"))
          else
            var ms := db.memberships[i := db.memberships[i].(status := Left, leftAt := Some(now))];
            assert ActiveMembership(db.memberships, roomId.id, user).value.role == Member;
            (db.(memberships := ms), Response(200, "Left room successfully"))
  }

  /** Room codes are unique, so a code names at most one room. */
  lemma CodeDeterminesRoom(rooms: seq<Room>, i: nat, j: nat)
    requires RoomsUnique(rooms) && i < |rooms| && j < |rooms|
    ensures rooms[i].code == rooms[j].code ==> i == j
  {
  }

  /** A join by code joins the one active room whose code is the normalised input,
      wherever it sits in the collection. */
  lemma JoinRoomByCodeFindsTheRoom(db: Db, user: Id, code: string, k: nat, now: int)
    requires DbValid(db) && !AllSpace(code)
    requires k < |db.rooms| && db.rooms[k].isActive && db.rooms[k].code == ToUpper(Trim(code))
    ensures JoinRoomByCode(db, user, code, now) == (Joined(db, k, user, now), Response(200, "Joined room successfully"))
  {
    var c := ToUpper(Trim(code));
    var k2 := ActiveRoomIndexByCode(db.rooms, c).value;
    CodeDeterminesRoom(db.rooms, k, k2);
  }

  /** A member who left can come back by the room's code: the membership is active
      again with no leave time, keeps the time it was first joined (the upsert only
      sets `joinedAt` on insert), takes the role ownership gives (for a non-owner, the
      role it had), and it is still the only membership of the pair. */
  lemma RejoinAfterLeave(db: Db, user: Id, room: Room, t1: int, t2: int)
    requires DbValid(db)
    requires room in db.rooms && room.isActive
    requires LeaveRoom(db, user, ObjectId(room.id), t1).1.status == 200
    ensures var left := LeaveRoom(db, user, ObjectId(room.id), t1).0;
            var back := JoinRoomByCode(left, user, room.code, t2);
            && back.1.status == 200
            && var ms := back.0.memberships;
            && MembershipIndex(ms, room.id, user).Some?
            && var m := ms[MembershipIndex(ms, room.id, user).value];
            && m.status == Active && m.leftAt.None? && m.role == JoinRole(room, user)
            && m.joinedAt == ActiveMembership(db.memberships, room.id, user).value.joinedAt
            && (room.owner != user ==> m.role == ActiveMembership(db.memberships, room.id, user).value.role)
            && MembershipsUnique(ms)
  {
    var left := LeaveRoom(db, user, ObjectId(room.id), t1).0;
    var i := ActiveMembershipIndex(db.memberships, room.id, user).value;
    LeaveMarksLeft(db, user, room.id, t1, i);
    var k :| 0 <= k < |db.rooms| && db.rooms[k] == room;
    RoomCodeIsNormal(room.code);
    assert !AllSpace(room.code) by {
      assert |room.code| == 6;
    }
    JoinRoomByCodeFindsTheRoom(left, user, room.code, k, t2);
    UpsertExisting(left.memberships, room, user, i, t2);
  }

  /** A successful leave marks the pair's membership left where it stands. */
  lemma LeaveMarksLeft(db: Db, user: Id, rid: Id, t1: int, i: nat)
    requires DbValid(db)
    requires LeaveRoom(db, user, ObjectId(rid), t1).1.status == 200
    requires ActiveMembershipIndex(db.memberships, rid, user) == Some(i)
    ensures var left := LeaveRoom(db, user, ObjectId(rid), t1).0;
            && left.rooms == db.rooms && DbValid(left)
            && i < |left.memberships| && MembershipIndex(left.memberships, rid, user) == Some(i)
            && left.memberships[i] == db.memberships[i].(status := Left, leftAt := Some(t1))
            && db.memberships[i].role == Member
  {
    var left := LeaveRoom(db, user, ObjectId(rid), t1).0;
    MembershipIndexIs(db.memberships, rid, user, i);
    MembershipIndexIs(left.memberships, rid, user, i);
  }

  /** Upserting a pair that already has a membership reactivates it in place. */
  lemma UpsertExisting(ms: seq<Membership>, room: Room, user: Id, i: nat, now: int)
    requires MembershipIndex(ms, room.id, user) == Some(i)
    ensures var r := UpsertMembership(ms, room, user, now);
            && i < |r| && MembershipIndex(r, room.id, user) == Some(i)
            && r[i] == ms[i].(status := Active, leftAt := None, role := JoinRole(room, user))
  {
    MembershipIndexIs(UpsertMembership(ms, room, user, now), room.id, user, i);
  }
}

=== FILE: seqs.dfy ===
/** Generic sequence helpers: first match, last n elements. */
module Seqs {
  import opened Wrappers

  /** The index of the first element satisfying `p`, if any. */
  function FirstIndex<T>(s: seq<T>, p: T -> bool): (r: Option<nat>)
    ensures r.Some? ==> r.value < |s| && p(s[r.value])
    ensures r.Some? ==> forall j :: 0 <= j < r.value ==> !p(s[j])
    ensures r.None? ==> forall j :: 0 <= j < |s| ==> !p(s[j])
  {
    if |s| == 0 then None
    else if p(s[0]) then Some(0)
    else
      match FirstIndex(s[1..], p)
      case None => None
      case Some(i) => Some(i + 1)
  }

  /** The least `i` in `[j, n)` satisfying `p`, or `n` when there is none. */
  function FirstFrom(n: nat, j: nat, p: nat -> bool): (i: nat)
    requires j <= n
    ensures j <= i <= n
    ensures forall k :: j <= k < i ==> !p(k)
    ensures i < n ==> p(i)
    decreases n - j
  {
    if j == n || p(j) then j else FirstFrom(n, j + 1, p)
  }

  /** The last `n` elements of `s` (all of `s` when it is shorter): `s.slice(-n)` for n > 0. */
  function LastN<T>(s: seq<T>, n: nat): (r: seq<T>)
    ensures |r| == if |s| < n then |s| else n
    ensures r == s[|s| - |r|..]
  {
    if |s| <= n then s else s[|s| - n..]
  }

  /** The last `n + 1` of a sequence extended by `x` are its last `n` and then `x`. */
  lemma LastNAppend<T>(s: seq<T>, x: T, n: nat)
    ensures LastN(s + [x], n + 1) == LastN(s, n) + [x]
  {
    var r := LastN(s + [x], n + 1);
    assert r == (s + [x])[|s| + 1 - |r|..];
  }

  /** Taking the last `n` of a sequence only looks at its last `n` elements. */
  lemma LastNOfSuffix<T>(s: seq<T>, t: seq<T>, n: nat)
    requires |t| >= n && |s| >= n && s[|s| - n..] == t[|t| - n..]
    ensures LastN(s, n) == LastN(t, n)
  {
  }
}

=== FILE: socket_client.dfy ===
/** The chat page's socket state (client/src/hooks/useSocket.js): how each server
    event updates what the page shows, which requests the page sends, and the reset
    when the page closes the socket. */
module SocketClient {
  import opened Wrappers
  import opened Strings
  import opened Models

  /** A message as the page holds it: the server's message, shown as received. */
  type ChatMessage = Message

  /** An entry of the typing list. */
  datatype Typist = Typist(userId: string, username: string)

  /** An entry of the online list. */
  datatype Online = Online(userId: string, username: string)

  /** The page's state: the hook's `useState` values and whether `socketRef`
      holds a socket. */
  datatype ClientState = ClientState(
    hasSocket: bool,
    connected: bool,
    messages: seq<ChatMessage>,
    online: seq<Online>,
    typing: seq<Typist>,
    aiTyping: bool,
    roomName: string,
    error: Option<string>)

  /** The state before any socket is opened. */
  function Initial(): (s: ClientState)
    ensures !s.hasSocket && !s.connected && s.messages == [] && s.typing == [] && !s.aiTyping
  {
    ClientState(false, false, [], [], [], false, "", None)
  }

  /** The events the page listens for; absent payload fields are `None`. */
  datatype ServerEvent =
    | Connected
    | Disconnected
    | ConnectError(reason: string)
    | ErrorEvent(reason: string)
    | RoomHistory(history: Option<seq<ChatMessage>>, name: Option<string>)
    | MessageNew(message: ChatMessage)
    | OnlineUsers(users: Option<seq<Online>>)
    | UserJoined
    | UserLeft
    | TypingUpdate(userId: string, username: string, isTyping: bool)
    | AiTyping(isTyping: bool)

  /** What the page sends. */
  datatype Request =
    | JoinRequest(roomId: string)
    | SendRequest(roomId: string, content: string)
    | TypingStart(roomId: string)
    | TypingStop(roomId: string)
    | LeaveRequest(roomId: string)

  // ---------------------------------------------------------------------------
  // The typing list

  /** `prev.filter((u) => u.userId !== userId)`. */
  function Without(typing: seq<Typist>, userId: string): (r: seq<Typist>)
    ensures |r| <= |typing|
    ensures forall t :: t in r <==> t in typing && t.userId != userId
  {
    if typing == [] then []
    else
      var rest := Without(typing[..|typing| - 1], userId);
      var last := typing[|typing| - 1];
      assert forall t :: t in typing <==> t in typing[..|typing| - 1] || t == last;
      if last.userId != userId then rest + [last] else rest
  }

  /** Filtering a concatenation filters each piece, in order. */
  lemma {:induction false} WithoutAppend(a: seq<Typist>, b: seq<Typist>, userId: string)
    ensures Without(a + b, userId) == Without(a, userId) + Without(b, userId)
    decreases |b|
  {
    if b == [] {
      assert a + b == a;
    } else {
      var init := b[..|b| - 1];
      assert (a + b)[..|a + b| - 1] == a + init;
      assert (a + b)[|a + b| - 1] == b[|b| - 1];
      WithoutAppend(a, init, userId);
    }
  }

  /** The `typing:update` reducer: the user's entries are dropped, and one entry for
      them is put at the end while they type. */
  function TypingReduce(typing: seq<Typist>, userId: string, username: string, isTyping: bool): (r: seq<Typist>)
    ensures isTyping ==> |r| > 0 && r[|r| - 1] == Typist(userId, username) && r[..|r| - 1] == Without(typing, userId)
    ensures !isTyping ==> r == Without(typing, userId)
  {
    var kept := Without(typing, userId);
    if isTyping then kept + [Typist(userId, username)] else kept
  }

  /** After an update the user is listed exactly when they are typing; everyone
      else keeps their entries. */
  lemma TypingReduceLists(typing: seq<Typist>, userId: string, username: string, isTyping: bool)
    ensures var r := TypingReduce(typing, userId, username, isTyping);
            && (isTyping <==> exists t :: t in r && t.userId == userId)
            && forall t: Typist :: t.userId != userId ==> (t in r <==> t in typing)
  {
    var r := TypingReduce(typing, userId, username, isTyping);
    if isTyping {
      assert r[|r| - 1] in r;
    }
  }

  /** Dropping a user's entries keeps the list free of duplicates. */
  lemma {:induction false} WithoutKeepsDistinct(typing: seq<Typist>, userId: string)
    requires DistinctIds(typing)
    ensures DistinctIds(Without(typing, userId))
    decreases |typing|
  {
    if typing != [] {
      var init := typing[..|typing| - 1];
      var last := typing[|typing| - 1];
      assert DistinctIds(init);
      WithoutKeepsDistinct(init, userId);
      var rest := Without(init, userId);
      if last.userId != userId {
        forall i | 0 <= i < |rest| ensures rest[i].userId != last.userId {
          assert rest[i] in init;
          var k :| 0 <= k < |init| && init[k] == rest[i];
          assert typing[k] == rest[i];
        }
        assert Without(typing, userId) == rest + [last];
      }
    }
  }

  /** No user appears twice in a list. */
  predicate DistinctIds(typing: seq<Typist>) {
    forall i, j :: 0 <= i < j < |typing| ==> typing[i].userId != typing[j].userId
  }

  /** One update keeps the list free of duplicates. */
  lemma TypingReduceKeepsDistinct(typing: seq<Typist>, userId: string, username: string, isTyping: bool)
    requires DistinctIds(typing)
    ensures DistinctIds(TypingReduce(typing, userId, username, isTyping))
  {
    WithoutKeepsDistinct(typing, userId);
  }

  /** A `typing:update` as its payload. */
  datatype TypingEvent = TypingEvent(userId: string, username: string, isTyping: bool)

  /** Applying updates in arrival order. */
  function ApplyTyping(typing: seq<Typist>, events: seq<TypingEvent>): seq<Typist>
    decreases |events|
  {
    if events == [] then typing
    else
      var e := events[0];
      ApplyTyping(TypingReduce(typing, e.userId, e.username, e.isTyping), events[1..])
  }

  /** From the empty list, any run of updates lists each user at most once. */
  lemma {:induction false} TypingRunIsDistinct(typing: seq<Typist>, events: seq<TypingEvent>)
    requires DistinctIds(typing)
    ensures DistinctIds(ApplyTyping(typing, events))
    decreases |events|
  {
    if events != [] {
      var e := events[0];
      TypingReduceKeepsDistinct(typing, e.userId, e.username, e.isTyping);
      TypingRunIsDistinct(TypingReduce(typing, e.userId, e.username, e.isTyping), events[1..]);
    }
  }

  // ---------------------------------------------------------------------------
  // Events

  /** The requests the page sends in answer to an event: it joins its room on connect. */
  function Answers(roomId: string, e: ServerEvent): (out: seq<Request>)
    ensures out != [] <==> e.Connected?
    ensures e.Connected? ==> out == [JoinRequest(roomId)]
  {
    if e.Connected? then [JoinRequest(roomId)] else []
  }

  /** How an event updates the page. */
  function Receive(s: ClientState, e: ServerEvent): (s': ClientState)
    ensures s'.hasSocket == s.hasSocket
    ensures e.MessageNew? ==> s'.messages == s.messages + [e.message]
    ensures e.RoomHistory? ==>
              && s'.messages == e.history.GetOr([])
              && s'.roomName == e.name.GetOr("")
    ensures !e.MessageNew? && !e.RoomHistory? ==> s'.messages == s.messages
    ensures e.TypingUpdate? ==> s'.typing == TypingReduce(s.typing, e.userId, e.username, e.isTyping)
    ensures !e.TypingUpdate? ==> s'.typing == s.typing
    ensures e.AiTyping? ==> s'.aiTyping == e.isTyping
    ensures !e.AiTyping? ==> s'.aiTyping == s.aiTyping
    ensures (e.Connected? ==> s'.connected && s'.error.None?)
    ensures (e.Disconnected? || e.ConnectError?) ==> !s'.connected
    ensures e.ConnectError? ==> s'.error == Some(e.reason)
    ensures e.ErrorEvent? ==> s'.error == Some(e.reason) && s'.connected == s.connected
    ensures e.UserJoined? || e.UserLeft? ==> s' == s
    ensures e.OnlineUsers? ==> s'.online == e.users.GetOr([])
    ensures !e.OnlineUsers? ==> s'.online == s.online
    ensures !e.RoomHistory? ==> s'.roomName == s.roomName
    ensures !(e.Connected? || e.ConnectError? || e.ErrorEvent?) ==> s'.error == s.error
    ensures !(e.Connected? || e.Disconnected? || e.ConnectError?) ==> s'.connected == s.connected
  {
    match e
    case Connected => s.(connected := true, error := None)
    case Disconnected => s.(connected := false)
    case ConnectError(reason) => s.(error := Some(reason), connected := false)
    case ErrorEvent(reason) => s.(error := Some(reason))
    case RoomHistory(history, name) => s.(messages := history.GetOr([]), roomName := name.GetOr(""))
    case MessageNew(message) => s.(messages := s.messages + [message])
    case OnlineUsers(users) => s.(online := users.GetOr([]))
    case UserJoined => s
    case UserLeft => s
    case TypingUpdate(userId, username, isTyping) => s.(typing := TypingReduce(s.typing, userId, username, isTyping))
    case AiTyping(isTyping) => s.(aiTyping := isTyping)
  }

  /** Receiving events in arrival order. */
  function ReceiveAll(s: ClientState, events: seq<ServerEvent>): ClientState
    decreases |events|
  {
    if events == [] then s else ReceiveAll(Receive(s, events[0]), events[1..])
  }

  /** Receiving keeps the typing list free of duplicates. */
  lemma {:induction false} ReceiveAllKeepsTypingDistinct(s: ClientState, events: seq<ServerEvent>)
    requires DistinctIds(s.typing)
    ensures DistinctIds(ReceiveAll(s, events).typing)
    decreases |events|
  {
    if events != [] {
      var e := events[0];
      if e.TypingUpdate? {
        TypingReduceKeepsDistinct(s.typing, e.userId, e.username, e.isTyping);
      }
      ReceiveAllKeepsTypingDistinct(Receive(s, e), events[1..]);
    }
  }

  /** Messages that arrive one by one after a history are the history followed by them. */
  lemma {:induction false} HistoryThenNew(s: ClientState, history: seq<ChatMessage>, name: string, arrivals: seq<ChatMessage>)
    ensures var events := [RoomHistory(Some(history), Some(name))] + seq(|arrivals|, i requires 0 <= i < |arrivals| => MessageNew(arrivals[i]));
            ReceiveAll(s, events).messages == history + arrivals
  {
    var s1 := Receive(s, RoomHistory(Some(history), Some(name)));
    var news := seq(|arrivals|, i requires 0 <= i < |arrivals| => MessageNew(arrivals[i]));
    assert ([RoomHistory(Some(history), Some(name))] + news)[1..] == news;
    NewMessagesAppend(s1, arrivals);
  }

  /** New messages are appended in arrival order. */
  lemma {:induction false} NewMessagesAppend(s: ClientState, arrivals: seq<ChatMessage>)
    ensures ReceiveAll(s, seq(|arrivals|, i requires 0 <= i < |arrivals| => MessageNew(arrivals[i]))).messages
            == s.messages + arrivals
    decreases |arrivals|
  {
    var news := seq(|arrivals|, i requires 0 <= i < |arrivals| => MessageNew(arrivals[i]));
    if arrivals != [] {
      var s1 := Receive(s, news[0]);
      assert news[1..] == seq(|arrivals[1..]|, i requires 0 <= i < |arrivals[1..]| => MessageNew(arrivals[1..][i]));
      NewMessagesAppend(s1, arrivals[1..]);
      assert s1.messages + arrivals[1..] == s.messages + arrivals;
    }
  }

  // ---------------------------------------------------------------------------
  // Requests and cleanup

  /** `sendMessage(content)`: sent only with a socket and content that is a string
      with something besides whitespace; the content goes untrimmed. */
  function SendMessage(s: ClientState, roomId: string, content: Option<string>): (out: Option<Request>)
    ensures out.Some? <==> s.hasSocket && content.Some? && !AllSpace(content.value)
    ensures out.Some? ==> out.value == SendRequest(roomId, content.value)
  {
    if s.hasSocket && content.Some? && Trim(content.value) != [] then Some(SendRequest(roomId, content.value))
    else None
  }

  /** `startTyping` / `stopTyping`: sent whenever there is a socket. */
  function TypingRequest(s: ClientState, roomId: string, isTyping: bool): (out: Option<Request>)
    ensures out.Some? <==> s.hasSocket
    ensures out.Some? ==> out.value == if isTyping then TypingStart(roomId) else TypingStop(roomId)
  {
    if !s.hasSocket then None
    else if isTyping then Some(TypingStart(roomId)) else Some(TypingStop(roomId))
  }

  /** The effect's start: a socket is opened only with a stored token (`null` and the
      empty string count as missing) and a room id; otherwise the effect does
      nothing. Opening changes nothing but the socket: the page waits for `connect`. */
  function Open(s: ClientState, token: Option<string>, roomId: string): (s': ClientState)
    ensures token.None? || token.value == [] || roomId == [] ==> s' == s
    ensures token.Some? && token.value != [] && roomId != [] ==>
              s'.hasSocket && s'.(hasSocket := s.hasSocket) == s
  {
    if token.None? || token.value == [] || roomId == [] then s
    else s.(hasSocket := true)
  }

  /** From the state before any socket, the page can send exactly when the effect
      had both a token and a room id. */
  lemma OpenGatesSending(token: Option<string>, roomId: string, content: string, isTyping: bool)
    requires !AllSpace(content)
    ensures var s := Open(Initial(), token, roomId);
            && (SendMessage(s, roomId, Some(content)).Some? <==> token.Some? && token.value != [] && roomId != [])
            && (TypingRequest(s, roomId, isTyping).Some? <==> token.Some? && token.value != [] && roomId != [])
  {
  }

  /** The effect's cleanup: leave the room, drop the socket and clear what the room
      showed. The room name and the last error are kept. */
  function Cleanup(s: ClientState, roomId: string): (r: (ClientState, Request))
    ensures r.1 == LeaveRequest(roomId)
    ensures var s' := r.0;
            && !s'.hasSocket && !s'.connected && s'.messages == [] && s'.online == []
            && s'.typing == [] && !s'.aiTyping
            && s'.roomName == s.roomName && s'.error == s.error
  {
    (s.(hasSocket := false, connected := false, messages := [], online := [], typing := [], aiTyping := false),
     LeaveRequest(roomId))
  }

  /** After cleanup nothing can be sent until a new socket is opened. */
  lemma NothingSentAfterCleanup(s: ClientState, roomId: string, content: Option<string>, isTyping: bool)
    ensures SendMessage(Cleanup(s, roomId).0, roomId, content).None?
    ensures TypingRequest(Cleanup(s, roomId).0, roomId, isTyping).None?
  {
  }
}

=== FILE: store.dfy ===
/** The queries the server runs against its collections, over sequences kept in
    creation order: `findOne` returns the first match. */
module Store {
  import opened Wrappers
  import opened Models
  import Seqs

  /** The three collections the room, message and socket handlers share. */
  datatype Db = Db(rooms: seq<Room>, memberships: seq<Membership>, messages: seq<Message>)

  /** Message ids are their positions in the log, so a new message's id is fresh. */
  predicate MessagesValid(msgs: seq<Message>) {
    forall i :: 0 <= i < |msgs| ==> msgs[i].id == i && ValidMessage(msgs[i])
  }

  /** What the schemas and unique indexes guarantee of the stored collections. */
  predicate DbValid(db: Db) {
    && RoomsUnique(db.rooms)
    && (forall i :: 0 <= i < |db.rooms| ==> ValidRoom(db.rooms[i]))
    && MembershipsUnique(db.memberships)
    && MessagesValid(db.messages)
  }

  /** `Room.findById(id)`. */
  function FindRoom(rooms: seq<Room>, id: Id): (r: Option<Room>)
    ensures r.Some? ==> r.value in rooms && r.value.id == id
    ensures r.None? ==> forall i :: 0 <= i < |rooms| ==> rooms[i].id != id
  {
    match Seqs.FirstIndex(rooms, (x: Room) => x.id == id)
    case None => None
    case Some(i) => Some(rooms[i])
  }

  /** `Room.findOne({ _id: id, isActive: true })`. */
  function FindActiveRoom(rooms: seq<Room>, id: Id): (r: Option<Room>)
    ensures r.Some? ==> r.value in rooms && r.value.id == id && r.value.isActive
    ensures r.None? ==> forall i :: 0 <= i < |rooms| ==> rooms[i].id != id || !rooms[i].isActive
  {
    match Seqs.FirstIndex(rooms, (x: Room) => x.id == id && x.isActive)
    case None => None
    case Some(i) => Some(rooms[i])
  }

  /** `Room.findOne({ code, isActive: true })`, as a position in the room list. */
  function ActiveRoomIndexByCode(rooms: seq<Room>, code: string): (r: Option<nat>)
    ensures r.Some? ==> r.value < |rooms| && rooms[r.value].code == code && rooms[r.value].isActive
    ensures r.Some? ==> forall j :: 0 <= j < r.value ==> rooms[j].code != code || !rooms[j].isActive
    ensures r.None? ==> forall i :: 0 <= i < |rooms| ==> rooms[i].code != code || !rooms[i].isActive
  {
    Seqs.FirstIndex(rooms, (x: Room) => x.code == code && x.isActive)
  }

  /** `Room.findOne({ code })`, whatever the room's activity flag. */
  predicate CodeInUse(rooms: seq<Room>, code: string) {
    exists i :: 0 <= i < |rooms| && rooms[i].code == code
  }

  /** The position of the membership of `user` in `room`, whatever its status. */
  function MembershipIndex(ms: seq<Membership>, room: Id, user: Id): (r: Option<nat>)
    ensures r.Some? ==> r.value < |ms| && ms[r.value].room == room && ms[r.value].user == user
    ensures r.Some? ==> forall j :: 0 <= j < r.value ==> ms[j].room != room || ms[j].user != user
    ensures r.None? ==> forall j :: 0 <= j < |ms| ==> ms[j].room != room || ms[j].user != user
  {
    Seqs.FirstIndex(ms, (x: Membership) => x.room == room && x.user == user)
  }

  /** The first position holding the pair is the one `MembershipIndex` finds. */
  lemma MembershipIndexIs(ms: seq<Membership>, room: Id, user: Id, i: nat)
    requires i < |ms| && ms[i].room == room && ms[i].user == user
    requires forall j :: 0 <= j < i ==> ms[j].room != room || ms[j].user != user
    ensures MembershipIndex(ms, room, user) == Some(i)
  {
    match MembershipIndex(ms, room, user)
    case None =>
    case Some(k) =>
  }

  /** The position of the active membership of `user` in `room`. */
  function ActiveMembershipIndex(ms: seq<Membership>, room: Id, user: Id): (r: Option<nat>)
    ensures r.Some? ==> r.value < |ms| && ms[r.value].room == room && ms[r.value].user == user
    ensures r.Some? ==> ms[r.value].status == Active
    ensures r.None? ==> forall j :: 0 <= j < |ms| ==>
              ms[j].room != room || ms[j].user != user || ms[j].status != Active
  {
    Seqs.FirstIndex(ms, (x: Membership) => x.room == room && x.user == user && x.status == Active)
  }

  /** `RoomMembership.findOne({ room, user, status: "active" })`. */
  function ActiveMembership(ms: seq<Membership>, room: Id, user: Id): (r: Option<Membership>)
    ensures r.Some? ==> r.value in ms && r.value.room == room && r.value.user == user
    ensures r.Some? ==> r.value.status == Active
    ensures r.None? ==> forall j :: 0 <= j < |ms| ==>
              ms[j].room != room || ms[j].user != user || ms[j].status != Active
  {
    match ActiveMembershipIndex(ms, room, user)
    case None => None
    case Some(i) => Some(ms[i])
  }

  /** With unique (room, user) pairs, the active membership of a pair is the one
      membership of that pair, provided it is active. */
  lemma ActiveMembershipIsTheMembership(ms: seq<Membership>, room: Id, user: Id)
    requires MembershipsUnique(ms)
    ensures match MembershipIndex(ms, room, user)
            case None => ActiveMembership(ms, room, user).None?
            case Some(i) =>
              ActiveMembership(ms, room, user) == if ms[i].status == Active then Some(ms[i]) else None
  {
    match MembershipIndex(ms, room, user)
    case None =>
    case Some(i) =>
      if ActiveMembership(ms, room, user).Some? {
        var k :| 0 <= k < |ms| && ms[k] == ActiveMembership(ms, room, user).value;
        assert k == i;
      }
  }

  /** `Message.find({ room })` in creation order. */
  function RoomMessages(msgs: seq<Message>, room: Id): (r: seq<Message>)
    ensures |r| <= |msgs|
    ensures forall m :: m in r <==> m in msgs && m.room == room
  {
    if msgs == [] then []
    else
      var rest := RoomMessages(msgs[..|msgs| - 1], room);
      var last := msgs[|msgs| - 1];
      assert forall m :: m in msgs <==> m in msgs[..|msgs| - 1] || m == last;
      if last.room == room then rest + [last] else rest
  }

  /** Appending a message to the log appends it to its room's messages and to no other room's. */
  lemma RoomMessagesAppend(msgs: seq<Message>, m: Message, room: Id)
    ensures RoomMessages(msgs + [m], room) ==
              if m.room == room then RoomMessages(msgs, room) + [m] else RoomMessages(msgs, room)
  {
    assert (msgs + [m])[..|msgs + [m]| - 1] == msgs;
  }

  /** `Message.find({ room }).sort({ createdAt: -1 }).limit(n)` reversed: the newest
      `n` messages of the room, oldest first. */
  function LatestRoomMessages(msgs: seq<Message>, room: Id, n: nat): seq<Message> {
    Seqs.LastN(RoomMessages(msgs, room), n)
  }

  /** `Message.findById(id)`. */
  function FindMessage(msgs: seq<Message>, id: Id): (r: Option<Message>)
    ensures r.Some? ==> r.value in msgs && r.value.id == id
    ensures r.None? ==> forall i :: 0 <= i < |msgs| ==> msgs[i].id != id
  {
    match Seqs.FirstIndex(msgs, (x: Message) => x.id == id)
    case None => None
    case Some(i) => Some(msgs[i])
  }
}

=== FILE: strings.dfy ===
/** String helpers with the JavaScript semantics the server and client rely on:
    `trim`, the `\s` character class, ASCII case mapping and decimal rendering. */
module Strings {
  import opened Wrappers

  /** JavaScript's WhiteSpace and LineTerminator code points: exactly what
      `String.prototype.trim` strips and what the regular-expression class `\s` matches. */
  predicate IsSpace(c: char) {
    || c == '\t' || c == '\n' || c == '\U{000B}' || c == '\U{000C}' || c == '\r' || c == ' '
    || c == '\U{00A0}' || c == '\U{1680}' || ('\U{2000}' <= c <= '\U{200A}')
    || c == '\U{2028}' || c == '\U{2029}' || c == '\U{202F}' || c == '\U{205F}'
    || c == '\U{3000}' || c == '\U{FEFF}'
  }

  predicate AllSpace(s: string) {
    forall i :: 0 <= i < |s| ==> IsSpace(s[i])
  }

  /** The regular-expression class `\d`. */
  predicate IsDigit(c: char) {
    '0' <= c <= '9'
  }

  predicate AllDigits(s: string) {
    forall i :: 0 <= i < |s| ==> IsDigit(s[i])
  }

  /** `s.trimStart()`: the longest suffix of `s` that does not start with whitespace. */
  function TrimStart(s: string): (r: string)
    ensures |r| <= |s| && r == s[|s| - |r|..]
    ensures AllSpace(s[..|s| - |r|])
    ensures r == [] || !IsSpace(r[0])
  {
    if |s| > 0 && IsSpace(s[0]) then
      var r := TrimStart(s[1..]);
      TrimStartStep(s, r);
      r
    else
      s
  }

  /** `s.trimEnd()`: the longest prefix of `s` that does not end with whitespace. */
  function TrimEnd(s: string): (r: string)
    ensures |r| <= |s| && r == s[..|r|]
    ensures AllSpace(s[|r|..])
    ensures r == [] || !IsSpace(r[|r| - 1])
  {
    if |s| > 0 && IsSpace(s[|s| - 1]) then
      var r := TrimEnd(s[..|s| - 1]);
      var u := s[..|s| - 1][|r|..];
      assert s[|r|..] == u + [s[|s| - 1]];
      AllSpaceConcat(u + [s[|s| - 1]], |u|);
      r
    else
      s
  }

  /** `s.trim()`: `s` without its leading and trailing whitespace. */
  function Trim(s: string): (r: string)
    ensures |r| <= |s|
    ensures r == [] <==> AllSpace(s)
    ensures r != [] ==> !IsSpace(r[0]) && !IsSpace(r[|r| - 1])
  {
    TrimEmptyIffAllSpace(s);
    TrimEnd(TrimStart(s))
  }

  /** Only an all-whitespace string trims to nothing. */
  lemma TrimEmptyIffAllSpace(s: string)
    ensures TrimEnd(TrimStart(s)) == [] <==> AllSpace(s)
  {
    var t := TrimStart(s);
    var k := |s| - |t|;
    var r := TrimEnd(t);
    if r == [] {
      assert t[|r|..] == t;
      AllSpaceConcat(s, k);
    } else {
      assert r[0] == s[k];
    }
  }

  /** What trimming the tail leaves, seen from the whole string, when the string
      starts with whitespace. */
  lemma TrimStartStep(s: string, r: string)
    requires |s| > 0 && IsSpace(s[0])
    requires |r| <= |s| - 1 && r == s[1..][|s| - 1 - |r|..]
    requires AllSpace(s[1..][..|s| - 1 - |r|])
    ensures r == s[|s| - |r|..] && AllSpace(s[..|s| - |r|])
  {
    assert s[1..][|s| - 1 - |r|..] == s[|s| - |r|..];
    SpaceBeforeSpace(s, |s| - |r|);
  }

  /** A whitespace character followed by whitespace is whitespace. */
  lemma SpaceBeforeSpace(s: string, m: nat)
    requires 0 < m <= |s| && IsSpace(s[0]) && AllSpace(s[1..][..m - 1])
    ensures AllSpace(s[..m])
  {
    forall i | 0 <= i < m ensures IsSpace(s[..m][i]) {
      if i > 0 {
        assert s[..m][i] == s[1..][..m - 1][i - 1];
      }
    }
  }

  /** A string whose two pieces are whitespace is whitespace. */
  lemma AllSpaceConcat(s: string, k: nat)
    requires k <= |s| && AllSpace(s[..k]) && AllSpace(s[k..])
    ensures AllSpace(s)
  {
    forall i | 0 <= i < |s| ensures IsSpace(s[i]) {
      if i < k {
        assert s[i] == s[..k][i];
      } else {
        assert s[i] == s[k..][i - k];
      }
    }
  }

  /** Neither begins nor ends with whitespace: what `trim` leaves. */
  predicate Trimmed(s: string) {
    s == [] || (!IsSpace(s[0]) && !IsSpace(s[|s| - 1]))
  }

  /** A string that begins and ends with a non-whitespace character is its own trim. */
  lemma TrimmedIsFixed(s: string)
    requires Trimmed(s)
    ensures Trim(s) == s
  {
  }

  /** Trimming twice is trimming once. */
  lemma TrimIdempotent(s: string)
    ensures Trim(Trim(s)) == Trim(s)
  {
    TrimmedIsFixed(Trim(s));
  }

  /** ASCII lower case; other characters are kept. */
  function LowerChar(c: char): char {
    if 'A' <= c <= 'Z' then (c as int + 32) as char else c
  }

  /** ASCII upper case; other characters are kept. */
  function UpperChar(c: char): char {
    if 'a' <= c <= 'z' then (c as int - 32) as char else c
  }

  function ToLower(s: string): (r: string)
    ensures |r| == |s|
    ensures forall i :: 0 <= i < |s| ==> r[i] == LowerChar(s[i])
    ensures forall i :: 0 <= i < |r| ==> !('A' <= r[i] <= 'Z')
  {
    seq(|s|, i requires 0 <= i < |s| => LowerChar(s[i]))
  }

  function ToUpper(s: string): (r: string)
    ensures |r| == |s|
    ensures forall i :: 0 <= i < |s| ==> r[i] == UpperChar(s[i])
  {
    seq(|s|, i requires 0 <= i < |s| => UpperChar(s[i]))
  }

  /** Case mapping never turns a whitespace character into a non-whitespace one or back. */
  lemma CaseKeepsSpace(c: char)
    ensures IsSpace(LowerChar(c)) <==> IsSpace(c)
    ensures IsSpace(UpperChar(c)) <==> IsSpace(c)
  {
  }

  /** Lower-casing keeps a trimmed string trimmed. */
  lemma LowerKeepsTrimmed(s: string)
    requires Trimmed(s)
    ensures Trimmed(ToLower(s))
  {
    var l := ToLower(s);
    if l != [] {
      CaseKeepsSpace(s[0]);
      CaseKeepsSpace(s[|s| - 1]);
      assert l[0] == LowerChar(s[0]);
      assert l[|l| - 1] == LowerChar(s[|s| - 1]);
    }
  }

  /** Leading whitespace is what `trimStart` removes. */
  lemma {:induction false} TrimStartSkipsSpace(w: string, s: string)
    requires AllSpace(w)
    ensures TrimStart(w + s) == TrimStart(s)
    decreases |w|
  {
    if w != [] {
      assert (w + s)[0] == w[0] && IsSpace(w[0]);
      assert (w + s)[1..] == w[1..] + s;
      assert AllSpace(w[1..]) by {
        forall i | 0 <= i < |w| - 1 ensures IsSpace(w[1..][i]) { assert w[1..][i] == w[i + 1]; }
      }
      TrimStartSkipsSpace(w[1..], s);
    } else {
      assert w + s == s;
    }
  }

  /** Trailing whitespace is what `trimEnd` removes. */
  lemma {:induction false} TrimEndSkipsSpace(s: string, w: string)
    requires AllSpace(w)
    ensures TrimEnd(s + w) == TrimEnd(s)
    decreases |w|
  {
    if w != [] {
      var v := w[..|w| - 1];
      assert (s + w)[|s + w| - 1] == w[|w| - 1] && IsSpace(w[|w| - 1]);
      assert (s + w)[..|s + w| - 1] == s + v;
      assert AllSpace(v) by {
        forall i | 0 <= i < |v| ensures IsSpace(v[i]) { assert v[i] == w[i]; }
      }
      TrimEndSkipsSpace(s, v);
    } else {
      assert s + w == s;
    }
  }

  /** Trailing characters pass through `trimStart` once a non-whitespace one is met. */
  lemma {:induction false} TrimStartAppend(s: string, w: string)
    requires !AllSpace(s)
    ensures TrimStart(s + w) == TrimStart(s) + w
    decreases |s|
  {
    if IsSpace(s[0]) {
      assert (s + w)[1..] == s[1..] + w;
      assert !AllSpace(s[1..]) by {
        var i :| 0 <= i < |s| && !IsSpace(s[i]);
        assert s[1..][i - 1] == s[i];
      }
      TrimStartAppend(s[1..], w);
    }
  }

  /** `trim` ignores whitespace padding on either side. */
  lemma TrimIgnoresPadding(w1: string, s: string, w2: string)
    requires AllSpace(w1) && AllSpace(w2)
    ensures Trim(w1 + s + w2) == Trim(s)
  {
    assert w1 + s + w2 == w1 + (s + w2);
    TrimStartSkipsSpace(w1, s + w2);
    if AllSpace(s) {
      AllSpaceConcat(s + w2, |s|);
      assert Trim(s + w2) == [];
    } else {
      TrimStartAppend(s, w2);
      TrimEndSkipsSpace(TrimStart(s), w2);
    }
  }

  /** Lower-casing and trimming commute: case mapping keeps whitespace where it is. */
  lemma TrimLowerCommute(s: string)
    ensures Trim(ToLower(s)) == ToLower(Trim(s))
  {
    TrimStartLower(s);
    TrimEndLower(TrimStart(s));
  }

  lemma {:induction false} TrimStartLower(s: string)
    ensures TrimStart(ToLower(s)) == ToLower(TrimStart(s))
    decreases |s|
  {
    if s != [] {
      CaseKeepsSpace(s[0]);
      assert ToLower(s)[1..] == ToLower(s[1..]);
      TrimStartLower(s[1..]);
    }
  }

  lemma {:induction false} TrimEndLower(s: string)
    ensures TrimEnd(ToLower(s)) == ToLower(TrimEnd(s))
    decreases |s|
  {
    if s != [] {
      var l := ToLower(s);
      var last := |s| - 1;
      CaseKeepsSpace(s[last]);
      LowerOfInit(s);
      if IsSpace(s[last]) {
        assert TrimEnd(l) == TrimEnd(ToLower(s[..last]));
        TrimEndLower(s[..last]);
      } else {
        assert TrimEnd(l) == l;
      }
    }
  }

  lemma LowerOfInit(s: string)
    requires s != []
    ensures ToLower(s)[..|s| - 1] == ToLower(s[..|s| - 1])
    ensures ToLower(s)[|s| - 1] == LowerChar(s[|s| - 1])
  {
  }

  /** Matching of one character against an ASCII pattern character under the
      regular-expression flag `i`: only ASCII letters fold, and no other
      character folds onto an ASCII one. */
  predicate CharEqIgnoreCase(c: char, p: char) {
    LowerChar(c) == LowerChar(p)
  }

  /** `s` starts, at position `k`, with `pat` compared case-insensitively. */
  predicate MatchesAtIgnoreCase(s: string, k: nat, pat: string) {
    && k + |pat| <= |s|
    && forall i :: 0 <= i < |pat| ==> CharEqIgnoreCase(s[k + i], pat[i])
  }

  // ---------------------------------------------------------------------------
  // Decimal numerals

  function DigitChar(d: nat): (c: char)
    requires d < 10
    ensures IsDigit(c)
  {
    ('0' as int + d) as char
  }

  function DigitValue(c: char): (d: nat)
    requires IsDigit(c)
    ensures d < 10 && DigitChar(d) == c
  {
    c as int - '0' as int
  }

  function Pow10(k: nat): (r: nat)
    ensures r >= 1
  {
    if k == 0 then 1 else 10 * Pow10(k - 1)
  }

  /** The decimal text JavaScript gives a non-negative integer (template literals,
      `toString()`): digits only, no leading zero except for zero itself. */
  function NatToString(n: nat): (r: string)
    ensures 1 <= |r| && AllDigits(r)
    ensures r[0] == '0' ==> n == 0 && |r| == 1
    decreases n
  {
    if n < 10 then [DigitChar(n)] else NatToString(n / 10) + [DigitChar(n % 10)]
  }

  /** `parseInt` of a string of decimal digits. */
  function ParseDigits(s: string): nat
    requires AllDigits(s)
  {
    if s == [] then 0 else ParseDigits(s[..|s| - 1]) * 10 + DigitValue(s[|s| - 1])
  }

  /** Rendering a number in decimal and parsing it back gives the number. */
  lemma {:induction false} ParseNatToString(n: nat)
    ensures ParseDigits(NatToString(n)) == n
    decreases n
  {
    var r := NatToString(n);
    if n >= 10 {
      ParseNatToString(n / 10);
      assert r[..|r| - 1] == NatToString(n / 10);
    }
  }

  /** The numeral of `n` has `k` digits exactly when `n` lies in [10^(k-1), 10^k) (or is 0 and k = 1). */
  lemma {:induction false} NatToStringLength(n: nat, k: nat)
    requires 1 <= k && n < Pow10(k)
    requires k == 1 || Pow10(k - 1) <= n
    ensures |NatToString(n)| == k
    decreases k
  {
    if k > 1 {
      assert n >= 10 by {
        assert Pow10(k - 1) == 10 * Pow10(k - 2);
      }
      assert n / 10 < Pow10(k - 1);
      assert k - 1 == 1 || Pow10(k - 2) <= n / 10;
      NatToStringLength(n / 10, k - 1);
    }
  }

  // ---------------------------------------------------------------------------
  // Searching and joining

  /** `pat` occurs in `s` at position `j`. */
  predicate OccursAt(s: string, pat: string, j: nat) {
    j + |pat| <= |s| && s[j..j + |pat|] == pat
  }

  /** `s.indexOf(pat)` from position `k` on, as an option. */
  function IndexOfFrom(s: string, pat: string, k: nat): (r: Option<nat>)
    ensures r.Some? ==> k <= r.value && OccursAt(s, pat, r.value)
    ensures r.Some? ==> forall j :: k <= j < r.value ==> !OccursAt(s, pat, j)
    ensures r.None? ==> forall j :: k <= j ==> !OccursAt(s, pat, j)
    decreases |s| - k
  {
    if k + |pat| > |s| then None
    else if s[k..k + |pat|] == pat then Some(k)
    else IndexOfFrom(s, pat, k + 1)
  }

  /** `s.replace(pat, rep)` with a string pattern: only the first occurrence is replaced. */
  function ReplaceFirst(s: string, pat: string, rep: string): string {
    match IndexOfFrom(s, pat, 0)
    case None => s
    case Some(i) => s[..i] + rep + s[i + |pat|..]
  }

  /** `parts.join(sep)`. */
  function JoinWith(parts: seq<string>, sep: string): (r: string)
    ensures parts == [] ==> r == []
    ensures parts != [] && parts[0] != [] ==> r != []
  {
    if |parts| == 0 then []
    else if |parts| == 1 then parts[0]
    else parts[0] + sep + JoinWith(parts[1..], sep)
  }

  /** One more part is one more separator and that part at the end. */
  lemma {:induction false} JoinWithAppend(parts: seq<string>, x: string, sep: string)
    requires parts != []
    ensures JoinWith(parts + [x], sep) == JoinWith(parts, sep) + sep + x
    decreases |parts|
  {
    if |parts| == 1 {
      assert parts + [x] == [parts[0], x];
      assert (parts + [x])[1..] == [x];
    } else {
      assert (parts + [x])[1..] == parts[1..] + [x];
      JoinWithAppend(parts[1..], x, sep);
    }
  }
}

=== FILE: wrappers.dfy ===
/** The optional-value datatype used for JavaScript's `null`/`undefined` fields. */
module Wrappers {

  datatype Option<+T> = None | Some(value: T) {

    /** Returns the value in Some, or `default` for None. */
    function GetOr(default: T): T {
      match this
      case Some(v) => v
      case None => default
    }
  }
}
